=== FILE: README.md ===
# fibber: classifier and launcher control logic in Dafny

fibber is a benchmark for adversarial paraphrasing. This project models its
control logic, not its neural networks:

- **BERT classifier.** `fibber/metrics/bert_classifier.py` selects an optimizer,
  names checkpoint directories, and runs the training loop. The loop has
  periodic summaries, validations and checkpoints. The module then exposes the
  fine-tuning lifecycle (`robust_tune_init`, `robust_tune_step`, loading and
  saving the robust-tuned snapshot) and turns logits into per-label
  distributions, including the LMAG vote tally.
- **fastText classifier.** `fibber/metrics/fasttext_classifier.py` writes a
  dataset in fastText's `__label__<k> <text>` format, finds or trains a cached
  model, and writes fastText's (label, probability) pairs into a vector.
- **Strategy base class.** `fibber/paraphrase_strategies/strategy_base.py`
  holds the apostrophe clean-up `post_process_text`, and builds a strategy's
  configuration from its hyperparameters and the parsed command line. It also
  registers one command-line flag per hyperparameter and assembles a
  paraphrased dataset.
- **Benchmark launcher.** `scripts/benchmark_launcher.py` builds, from
  insertion-ordered configuration tables, one `fibber.benchmark.benchmark`
  command per selected (dataset, strategy) pair.

Python's exceptions are modelled as `Result` failures (`common.dfy`). Python
dictionaries keep insertion order, which the launcher relies on, so they are
sequences of (key, value) pairs (`ordered_dict.dfy`). The Python text
operations the code relies on live in `pytext.dfy`:

- `"%d"` and `"%04d"`;
- `int()` on an optional sign followed by ASCII digits;
- `os.path.join` on POSIX;
- slicing with Python's clamping.

The training loop reads its batches from two streams, `nat -> Batch`. Each
batch is the observation of one forward pass: its size, the number it got
right, and its loss.

The file system is a set of existing paths. Networks, the fastText library,
and the caller-supplied `paraphrase_example` are function parameters.

Where the repository's documentation and its code disagree, the model follows
the code:

- `run_evaluate` always leaves the model in train mode. It does not restore
  the mode the model was in on entry.
- `robust_tune_step` compares the NUMBER of records with `text0` against the
  number with `text1`. It does not check that each record has both.
- Under LMAG, `predict_dist_batch` asserts `paraphrase_field == "text1"` only
  when the record has `text1`.
- A training budget below one step still runs one step. The loop body runs
  before `global_step >= bert_clf_steps` is evaluated.

## Model

| member | source | states |
|---|---|---|
| Checkpoints.GetOptimizer | fibber/metrics/bert_classifier.py:37-47 | exactly "adam", "sgd" and "adamw" succeed, each selecting its own algorithm with the given rate, decay and schedule length; every other name fails with the unknown-optimizer assertion |
| Checkpoints.SelectorRoundTrip | fibber/metrics/bert_classifier.py:37-44 | each algorithm's selector string selects that algorithm again |
| Checkpoints.LeafPerThousand | fibber/metrics/bert_classifier.py:137-138 | under one directory two step counts name the same checkpoint directory iff they fall in the same thousand (`//1000`, `%04d`) |
| Checkpoints.CheckpointPerThousand | fibber/metrics/bert_classifier.py:133-138 | two training budgets share a base checkpoint iff they fall in the same thousand |
| Checkpoints.RobustPerThousand | fibber/metrics/bert_classifier.py:415-425 | two fine-tuning steps share a robust-tuned snapshot iff they fall in the same thousand |
| Checkpoints.CheckpointLayout | fibber/metrics/bert_classifier.py:133-138 | with a plain root, dataset and model name the checkpoint is `<root>/bert_clf[_sem]/<dataset>/<model_init>-<4-digit thousands>k` |
| Checkpoints.SemCheckpointsApart | fibber/metrics/bert_classifier.py:133-136 | a SEM classifier never shares a checkpoint directory with a plain one, whatever the budgets |
| Checkpoints.RobustCheckpointApart | fibber/metrics/bert_classifier.py:415-425 | a robust-tuned snapshot with a non-empty description never overwrites a base checkpoint, with or without SEM |
| Training.RunEvaluate | fibber/metrics/bert_classifier.py:52-86 | the loop pools exactly the next `eval_steps` validation batches (equal to the declarative window), fails with ZeroDivisionError iff `eval_steps <= 0`, and leaves train mode |
| Training.SummaryPhase | fibber/metrics/bert_classifier.py:186-199 | the running counters hold exactly the batches since the last reset; on a multiple of the summary period one summary is written and both counters reset, otherwise the batch is added |
| Training.ValidationPhase | fibber/metrics/bert_classifier.py:201-203 | on a multiple of the validation period the next `val_steps` batches are evaluated and the cursor advances by that much; a non-positive `val_steps` raises at that step and only there |
| Training.TrainStep | fibber/metrics/bert_classifier.py:176-208 | one iteration keeps the counters and the validation cursor consistent and writes exactly its scheduled events, or raises ZeroDivisionError at the abort step without saving |
| Training.LoopIteration | fibber/metrics/bert_classifier.py:176-211 | one pass preserves the loop invariant: the log so far is the schedule of the steps taken, or the run stopped at its abort step |
| Training.StepKeepsInvariant | fibber/metrics/bert_classifier.py:176-211 | appending a step's scheduled events to the schedule of the earlier steps re-establishes the loop invariant |
| Training.AbortKeepsInvariant | fibber/metrics/bert_classifier.py:195-203 | a run stopped by ZeroDivisionError keeps the invariant of an aborted run |
| Training.AbortedAt | fibber/metrics/bert_classifier.py:195-208 | a failing step adds no checkpoint to the schedule of the steps before it |
| Training.TrainLoop | fibber/metrics/bert_classifier.py:174-212 | the loop succeeds iff no period is zero and no validation with `val_steps <= 0` comes due; then it stops at `max(bert_clf_steps, 1)` in eval mode with exactly the scheduled events; otherwise it fails at the abort step having written the earlier steps' events |
| Training.LoadOrTrain | fibber/metrics/bert_classifier.py:89-213 | an existing checkpoint is loaded in eval mode with the disk untouched; otherwise a trainset without a sized `label_mapping` fails (KeyError when it is missing) before anything else; otherwise an unknown optimizer fails; otherwise training succeeds iff the loop does not abort, and records `len(label_mapping)` labels, the full schedule, and exactly the checkpoints saved; the disk only grows, and a successful run with a positive budget leaves the looked-up checkpoint on disk |
| Dataset.LabelCount | fibber/metrics/bert_classifier.py:147 | `len(label_mapping)` fails iff the dataset has no label mapping (KeyError) or one without a length |
| Training.ModAbs | fibber/metrics/bert_classifier.py:195 | `g % p == 0` on a negative period agrees with the test on its absolute value, as Python's `%` does |
| Training.SummaryStep | fibber/metrics/bert_classifier.py:195-199 | the counter window moves to the current step exactly at multiples of the summary period |
| Training.ValidationStep | fibber/metrics/bert_classifier.py:201-203 | the validation cursor advances by `val_steps` exactly at multiples of the validation period |
| Training.FinalCheckpointSaved | fibber/metrics/bert_classifier.py:137-138 | a complete run always saves at its last step, and there at the very path looked up before training, so a second run loads it |
| Training.StepEventsActions | fibber/metrics/bert_classifier.py:195-208 | a step records a summary, validation or checkpoint exactly when that action's period guard holds |
| Training.ScheduleActions | fibber/metrics/bert_classifier.py:176-211 | over the first `t` steps each action falls on exactly the steps where its guard holds |
| Training.ScheduleOrdered | fibber/metrics/bert_classifier.py:176-211 | the event log is ordered by step and every step lies in `1..t` |
| Training.SummaryWindow | fibber/metrics/bert_classifier.py:186-199 | the summary at a multiple `s` of the period reports the last batch's loss and the error rate pooled over exactly the `q` batches `s-q .. s-1`, where `q` is the absolute period |
| Training.ValidationWindow | fibber/metrics/bert_classifier.py:201-203 | the `k`-th validation evaluates exactly the validation batches `(k-1)*val_steps .. k*val_steps-1` |
| BertClassifier.MakeClassifier | fibber/metrics/bert_classifier.py:240-300 | a missing `cased` flag raises KeyError with the disk untouched; otherwise the network is what `load_or_train_bert_clf` gives for the cased or uncased model: the existing checkpoint in eval mode, or, when there is none, success iff the label mapping is sized, the optimizer known and the loop does not abort, with the label count, the schedule and (for a positive step budget) the checkpoint on disk; a classifier starts untuned and in eval mode and keeps its dataset name, SEM and LMAG switches |
| BertClassifier.Rebuild | fibber/metrics/bert_classifier.py:282-298 | once a classifier was built with a positive step budget, building it again loads the saved checkpoint in eval mode and gives the same classifier apart from the network |
| BertClassifier.RobustTuneInit | fibber/metrics/bert_classifier.py:367-375 | a second initialisation fails; an unknown optimizer fails; an untuned classifier with `adam`, `sgd` or `adamw` succeeds; on success only the tuning state changes, to zero steps with the chosen algorithm, rate, decay and step budget |
| BertClassifier.TuneInitOnce | fibber/metrics/bert_classifier.py:367-375 | after a successful initialisation the classifier is tuning, and any further initialisation fails with "already initialized" |
| BertClassifier.CollectColumns | fibber/metrics/bert_classifier.py:386-391 | fails with KeyError("label") iff some record lacks a label; otherwise returns the `text0`, `text1` and `label` columns in record order |
| BertClassifier.ColumnOfFull | fibber/metrics/bert_classifier.py:386-391 | a column every record has holds one value per record, in order |
| BertClassifier.ColumnOfNone | fibber/metrics/bert_classifier.py:389-394 | a column no record has is empty, so `text1_list` becomes `None` |
| BertClassifier.Argmax | fibber/metrics/bert_classifier.py:413 | the index returned holds a maximal entry and is the first one that does |
| BertClassifier.RobustTuneStep | fibber/metrics/bert_classifier.py:377-413 | stepping before initialisation fails without change; a missing label, a `text1` count that differs from `text0`'s, an empty batch or empty `text0` column (the fast tokenizer's IndexError), a first `text0` or `text1` that is not a string (the tokenizer's ValueError) or a later one that is not (the encoder's TypeError) fails in train mode without stepping; a step succeeds iff the classifier is tuning and the records are trainable: the batch is non-empty, every record has a label and a string `text0`, `text1` is absent everywhere or a string everywhere, there are labels, and every label is an integer class index or the ignored target -100; it then counts one more optimizer step, returns to eval mode and predicts, per record, the argmax of the logits of its `text0` (paired with its `text1` when the batch has `text1`) |
| BertClassifier.ColumnFull | fibber/metrics/bert_classifier.py:386-391 | a column is as long as the batch exactly when every record has the key |
| BertClassifier.BadTarget | fibber/metrics/bert_classifier.py:400-405 | reports a target the cross-entropy loss rejects iff there is one |
| BertClassifier.CheckBatchTrainable | fibber/metrics/bert_classifier.py:386-405 | the count, tokenizer (non-empty batch, string texts), label-tensor and loss checks on the collected columns pass exactly when the records are trainable |
| BertClassifier.TallyAppend | fibber/metrics/bert_classifier.py:346-347 | one more vote for a label adds one to that label's tally and nothing elsewhere |
| BertClassifier.TallySum | fibber/metrics/bert_classifier.py:346-347 | the one-hot tallies of a group add up to its size |
| BertClassifier.VoteTalliesSum | fibber/metrics/bert_classifier.py:340-348 | the vote yields one tally per block of `repeat` labels, each with one entry per label, counting the votes of its own block and summing to `repeat` |
| BertClassifier.ArgmaxLabels | fibber/metrics/bert_classifier.py:344-345 | one label per row, each below the label count |
| BertClassifier.PredictDistBatch | fibber/metrics/bert_classifier.py:302-351 | the error paths (no record under LMAG, wrong field, missing `text0` context, no rows to tokenize, a non-string context) fail as the code raises them; without LMAG it succeeds iff the field and record give a string or no context and the SEM-rewritten list is non-empty, and row `i` is the log-softmax of the logits of SEM-rewritten paraphrase `i` after that context; with LMAG it succeeds iff the rewrite succeeds, the context is absent or a string, `view(n // repeat, repeat, -1)` fits the `n` rewritten rows of logits and every chunk's argmax is a label, and row `g` is the log-softmax of the tally of block `g` of those chunk labels |
| BertClassifier.LmagRowsAreVotes | fibber/metrics/bert_classifier.py:340-348 | every LMAG row is the log-softmax of a vote tally with one entry per label whose votes add up to `repeat` |
| BertClassifier.ViewShape | fibber/metrics/bert_classifier.py:343-345 | when the view fits, it has `(n // repeat) * repeat` chunks of one positive width that together cover all `n * numLabels` logits |
| BertClassifier.LmagLabels | fibber/metrics/bert_classifier.py:343-345 | the view yields `(n // repeat) * repeat` labels, grouping into `n // repeat` blocks |
| BertClassifier.LmagWholeBlocks | fibber/metrics/bert_classifier.py:340-348 | when the rewritten rows form whole blocks of `repeat`, the view fits and its labels are exactly each row's argmax label |
| BertClassifier.ChunkIsRow | fibber/metrics/bert_classifier.py:343-345 | laid end to end, rows of one width put row `k` at chunk `k` of that width |
| BertClassifier.PredictDistExample | fibber/metrics/bert_classifier.py:353-365 | the single-paraphrase prediction is the first row of the batch prediction and fails exactly when that does; without LMAG it is the log-softmax of the logits of the (SEM-rewritten) paraphrase after the field's context, and with neither SEM nor LMAG on `text0` it always succeeds with the paraphrase's own log-softmax |
| BertClassifier.ExampleIsBatchRow | fibber/metrics/bert_classifier.py:302-365 | without SEM or LMAG, predicting one paraphrase alone gives exactly its row of a successful batch prediction |
| BertClassifier.SaveRobust | fibber/metrics/bert_classifier.py:423-427 | after saving, a load at any step of the same thousand finds a snapshot, the existing directories remain, and the only new checkpoint directory is this step's |
| BertClassifier.LoadRobust | fibber/metrics/bert_classifier.py:415-421 | loading at a step succeeds iff the snapshot of any step in the same thousand exists, then replaces only the network, in eval mode, keeping the tuning state; otherwise it reports the missing snapshot |
| BertClassifier.SaveThenLoad | fibber/metrics/bert_classifier.py:415-427 | a snapshot saved at one step is found by a load at another step iff both fall in the same thousand |
| Fasttext.FormatRecord | fibber/metrics/fasttext_classifier.py:16-20 | a record is written iff it has no `text1`, has an integer or boolean label and a scalar `text0`; a `text1` raises before anything else is read |
| Fasttext.FormatRecords | fibber/metrics/fasttext_classifier.py:13-20 | the file is written iff every record is writable; any `text1` makes it fail |
| Fasttext.ChangeToFasttextFormat | fibber/metrics/fasttext_classifier.py:13-20 | a dataset without `data` raises KeyError and non-record `data` a TypeError; the file is written iff `data` is a list of records each of which can be written, and then holds exactly their lines in order |
| Fasttext.LabelRoundTrip | fibber/metrics/fasttext_classifier.py:20-81 | the class index written as `__label__%d` is read back exactly by `int(label[len("__label__"):])` |
| Fasttext.LineRoundTrip | fibber/metrics/fasttext_classifier.py:20 | a written line splits at its first space into the label, which parses back to the class, and the text |
| Fasttext.FileRoundTrip | fibber/metrics/fasttext_classifier.py:13-20 | the file holds one line per record, in order, and line `i` reads back as record `i`'s label and text, provided no text holds a newline |
| Fasttext.ModelFilenameInjective | fibber/metrics/fasttext_classifier.py:44-45 | two (ngram, epoch) settings share a cached model file name iff they are equal |
| Fasttext.Init | fibber/metrics/fasttext_classifier.py:39-64 | the model lives at the cache path; a cached file is loaded and succeeds iff the label mapping has a length; otherwise both files must be writable and the model is trained from them; either way the class count is the label mapping's size |
| Fasttext.ClassCountEitherPath | fibber/metrics/fasttext_classifier.py:47-64 | loading and training agree on the class count: a set-up that trains would load successfully with the same count |
| Fasttext.Slot | fibber/metrics/fasttext_classifier.py:81-82 | a label's slot is below the class count; negative indices count from the end and out-of-range ones raise IndexError |
| Fasttext.PredictDist | fibber/metrics/fasttext_classifier.py:78-83 | succeeds iff every label has a slot, otherwise fails with the first bad label's error; the vector has one entry per class, each holding the last probability written to it or 0 |
| Fasttext.LatestUntouched | fibber/metrics/fasttext_classifier.py:79 | a slot no prediction lands on keeps the zero of `np.zeros` |
| Fasttext.OneHot | fibber/metrics/fasttext_classifier.py:78-83 | one prediction for class `k`'s written label yields its probability at `k` and 0 elsewhere |
| StrategyBase.MatchAt | fibber/paraphrase_strategies/strategy_base.py:13-18 | the engine finds a match at an index exactly when some use of the two optional spaces fits there |
| StrategyBase.SpanUnique | fibber/paraphrase_strategies/strategy_base.py:13-18 | at most one use of the optional spaces fits at an index, so the greedy order never changes the match |
| StrategyBase.MatchApostrophes | fibber/paraphrase_strategies/strategy_base.py:13-18 | every match holds exactly one apostrophe |
| StrategyBase.SubFromApostrophes | fibber/paraphrase_strategies/strategy_base.py:23 | one substitution keeps the number of apostrophes |
| StrategyBase.PostProcessKeepsApostrophes | fibber/paraphrase_strategies/strategy_base.py:21-24 | the clean-up neither adds nor drops an apostrophe |
| StrategyBase.PostProcessNeverLonger | fibber/paraphrase_strategies/strategy_base.py:21-24 | the clean-up never makes the text longer |
| StrategyBase.PostProcessWithoutApostrophe | fibber/paraphrase_strategies/strategy_base.py:21-24 | text without an apostrophe is returned unchanged |
| StrategyBase.Configure | fibber/paraphrase_strategies/strategy_base.py:74-87 | succeeds iff the hyperparameter names are distinct and none is `strategy_name`, then has keys `strategy_name` followed by the names in order; otherwise fails the duplicate-name assertion |
| StrategyBase.ConfigContents | fibber/paraphrase_strategies/strategy_base.py:74-87 | with distinct names the configuration is the class name, then each hyperparameter's command-line value or else its default, in declaration order |
| StrategyBase.Init | fibber/paraphrase_strategies/strategy_base.py:52-95 | a duplicate name fails first, then a missing `strategy_gpu_id` raises KeyError; an id of -1 selects the CPU and any other integer that GPU |
| StrategyBase.ParserArguments | fibber/paraphrase_strategies/strategy_base.py:100-112 | one flag per hyperparameter, in order, with its default, whose argparse attribute is the key `__init__` reads with every leading `-` stripped and the other `-` turned into `_`; with an abbreviation that does not start with `-`, that is exactly the lookup key with `-` turned into `_` |
| StrategyBase.LStripDashesShape | fibber/paraphrase_strategies/strategy_base.py:110-112 | `lstrip("-")` removes a run of dashes at the front and keeps a suffix that does not start with one |
| StrategyBase.DestOfFlag | fibber/paraphrase_strategies/strategy_base.py:110-112 | the flag `--<abbr>_<name>` files under its key with both dashes gone, and under a strictly shorter name when the abbreviation starts with `-` |
| StrategyBase.FlagReachesLookup | fibber/paraphrase_strategies/strategy_base.py:79-112 | a flag's parsed value reaches `__init__`'s lookup iff neither the abbreviation nor the name holds a `-` |
| StrategyBase.ParseAt | fibber/paraphrase_strategies/strategy_base.py:110-112 | the first flag declared with an attribute, when no other flag with that attribute is given, leaves its given value or else its default there |
| StrategyBase.ParseGivenWins | fibber/paraphrase_strategies/strategy_base.py:110-112 | a given flag's value is what its attribute holds unless a later flag with that attribute is given too |
| StrategyBase.ParseFirstDefault | fibber/paraphrase_strategies/strategy_base.py:110-112 | with none of its flags given, an attribute holds the default of the first flag declared with it |
| StrategyBase.ParseOnlyDeclared | fibber/paraphrase_strategies/strategy_base.py:110-112 | an attribute no flag is declared with is not set |
| StrategyBase.ParsedSettings | fibber/paraphrase_strategies/strategy_base.py:78-112 | a strategy built from the parsed command line holds each dash-free hyperparameter's given value, or else its default |
| StrategyBase.ParaphraseRows | fibber/paraphrase_strategies/strategy_base.py:155-160 | an empty dataset never reads `paraphrase_field`; otherwise a missing field raises KeyError, and each record gets its paraphrases, truncated to `n`, under `<field>_paraphrases` |
| StrategyBase.AssembleLookup | fibber/paraphrase_strategies/strategy_base.py:149-151 | the result keeps every dataset entry except `data`, adds the strategy configuration, and holds the paraphrased records under `data` |
| StrategyBase.ParaphraseDataset | fibber/paraphrase_strategies/strategy_base.py:138-171 | a missing `data` raises KeyError; success iff `data` is a list of records and, when non-empty, the field is a string; the metadata and configuration are kept, `data` comes last and holds the paraphrased records |
| StrategyBase.ParaphrasedRecords | fibber/paraphrase_strategies/strategy_base.py:156-159 | every output record keeps all its original fields, gains a paraphrase list of at most `n` entries, and that list is a prefix of what `paraphrase_example` returned |
| OrderedDict.SetLookup | scripts/benchmark_launcher.py:197 | after `d[k] = v`, `k` reads `v` and every other key reads what it did |
| OrderedDict.UpdateOverrides | scripts/benchmark_launcher.py:221-222 | the overlay keeps the base keys in order, takes the variant's value for its keys and the base value for the rest, and adds no other keys |
| OrderedDict.WithoutLookup | fibber/paraphrase_strategies/strategy_base.py:149 | dropping `data` changes what no other key reads |
| Launcher.ToCommand | scripts/benchmark_launcher.py:174-180 | two tokens per entry |
| Launcher.PairsOfCommand | scripts/benchmark_launcher.py:174-180 | the tokens pair up again into each key and the text of its value, in dictionary order |
| Launcher.ToCommandConcat | scripts/benchmark_launcher.py:214-217 | the flags of concatenated configurations are the concatenation of their flags |
| Launcher.StrategyOverlay | scripts/benchmark_launcher.py:218-225 | an `asrs` variant's segment is the `asrs` base overlaid with the variant, `asrs` itself is the base, and any other strategy is its own configuration |
| Launcher.Selection | scripts/benchmark_launcher.py:199-207 | `all` selects every table key in order; anything else selects itself |
| Launcher.RobustTuningFlag | scripts/benchmark_launcher.py:196-197 | `--robust_tuning 1` sets that flag to "1" and changes no other flag or the order; any other value changes nothing |
| Launcher.HeadShape | scripts/benchmark_launcher.py:211-214 | every command starts with the module invocation, then `--load_robust_tuned_clf <desc>` when a description is given, then the common flags |
| Launcher.CommandTail | scripts/benchmark_launcher.py:215-225 | after the head a command is exactly the gpu, dataset, defense and strategy flags, in that order |
| Launcher.CommandAt | scripts/benchmark_launcher.py:209-226 | there are `#datasets * #strategies` commands, and the one for dataset `i` and strategy `j` sits at `i * #strategies + j` |
| Launcher.ResolveAt | scripts/benchmark_launcher.py:216 | entry `i` of the resolved configurations is the table's entry for name `i` |
| Launcher.ResolveStrategiesAt | scripts/benchmark_launcher.py:218-225 | entry `i` of the resolved strategies is strategy `i`'s effective configuration |
| Launcher.GridLoop | scripts/benchmark_launcher.py:209-226 | the nested loops produce the table's rows laid end to end |
| Launcher.Launch | scripts/benchmark_launcher.py:183-226 | an out-of-choice `--gpu`, `--dataset` or `--strategy` is rejected as an invalid choice naming an offending option; an unknown defense fails with KeyError exactly when some (dataset, strategy) pair is selected, and otherwise nothing is launched; nothing else fails; with a known defense the commands are the dataset-by-strategy grid of the composed commands |
| LauncherConfig.AsrsBaseExists | scripts/benchmark_launcher.py:88-171 | the strategy table holds the `asrs` base that the variants overlay |
| LauncherConfig.AsrsVariantsDistinct | scripts/benchmark_launcher.py:88-171 | each `asrs` variant sets each flag at most once |
| PyText.ParseFormat | fibber/metrics/fasttext_classifier.py:20-81 | `int("%d" % k) == k` |
| PyText.ParsePadded | fibber/metrics/bert_classifier.py:137-138 | a `%04d` numeral parses back to its number |
| PyText.PaddedInjective | fibber/metrics/bert_classifier.py:137-138 | distinct numbers give distinct `%04d` numerals |

## Left out

- Neural computation. BERT, the tokenizer, SEM's word map and LMAG's paraphrase generator are not modelled. Neither is fastText's training and prediction, nor the learning-rate schedule. Where their results matter they are opaque parameters.
- I/O. Tensorboard summaries are recorded as events. The file system is the set of existing paths. Logging, `os.makedirs` and the JSON dumps of `paraphrase_dataset` are not modelled, and neither is its 30-second save timer, because the timer reads the wall clock.
- `subprocess.call` is not modelled: `Launcher.Launch` returns the commands instead of running them.
- argparse internals: only choice validation for the launcher and the flag-to-attribute mapping for strategies are modelled. Help text and type conversion are not.
- Device placement. `torch.device`, `.to(device)` and GPU strings are left out. A strategy's device is `Cpu` or `Cuda(id)`.
- Floating point. Losses, learning rates and probabilities are `real`. The error rate's NaN for an empty count is `None`. A float `repr` is opaque text.
- `int()` is modelled only on an optional sign followed by ASCII digits. Whitespace, underscores and non-ASCII digits are not accepted.
- Python dynamic typing is narrowed to the value kinds fibber datasets hold:
  - Float GPU ids and labels are a TypeError.
  - A non-scalar `text0` is a TypeError.
  - A `data` entry that is not a list of records is a TypeError. Python would iterate whatever iterable it is.
- Exceptions raised inside a subclass's `paraphrase_example`, and its non-list results, are not modelled: `paraphrase_example` is a total function.
- Launcher.Launch: requires the strategy table to hold `asrs`. The tables are a parameter, and `LauncherConfig.AsrsBaseExists` shows that fibber's table does. A table without the `asrs` base would raise KeyError only for an `asrs` variant.
- BertClassifier.PredictDistBatch: the LMAG rewrite and the SEM rewrite are opaque functions of the network, so the number of LMAG rows is stated through that rewrite and not as `repeat` times the paraphrase count.
- BertClassifier.RobustTuneStep: a network with a single label is treated like any other. BERT switches to a regression loss for one label, and that loss is not modelled. A non-integer label fails as a TypeError whatever its kind; torch raises different exceptions for strings, floats and booleans. A first text that is a list of strings fails the input check here; the tokenizer takes it as a pre-split or paired input instead.
- StrategyBase.Parse: when two flags with the same attribute are both given, the one declared later wins. argparse keeps the one later on the command line, and the parsed arguments carry no command-line order.
- Launcher.Launch: which invalid option argparse names when several are invalid (the first in argv order) is not modelled, because the parsed arguments carry no argv order. Every value is treated as given on the command line; argparse does not check defaults, the launcher's `--gpu` and `--defense` defaults (`0` and `none`) are keys of its own tables, and `all` is always accepted.
- `predict_dist_example` of fastText: the paraphrase text and the `k=n_class` argument reach only the opaque prediction list.
- `ClassifierBase` (`fibber/metrics/classifier_base.py`) is not part of this model. Its batching wrappers around `predict_dist_example` are not modelled.

=== FILE: bert_classifier.dfy ===
/**
  The `BertClassifier` object (fibber/metrics/bert_classifier.py): how it is
  built, the one-shot robust fine-tuning lifecycle, the record bookkeeping of
  `robust_tune_step`, the LMAG majority vote in `predict_dist_batch`, and the
  robust-tuned snapshot paths.

  The network is abstract. `Network` gives, for a (context, text) pair, the
  logit of every label, and the library's `log_softmax`; the SEM and LMAG
  sentence rewriters are opaque functions of their inputs.
 */
module BertClassifier {
  import opened Common
  import opened Checkpoints
  import opened Training
  import opened OrderedDict
  import opened Dataset

  /** What the predictions depend on but the model does not look inside. */
  datatype Network = Network(
    numLabels: nat,
    logit: (Option<Value>, string, nat) -> real,
    logSoftmax: seq<real> -> seq<real>,
    semFix: seq<string> -> seq<string>,
    lmagFix: (seq<string>, Option<seq<Value>>) -> seq<string>)

  /** `_fine_tune_opt` and `_fine_tune_sche`: both `None`, or both set by `robust_tune_init`. */
  datatype TuneState = Untuned | Tuning(optimizer: Optimizer, stepsTaken: nat)

  datatype Classifier = Classifier(
    datasetName: string,
    modelInit: string,
    enableSem: bool,
    enableLmag: bool,
    model: BertModel,
    tune: TuneState)

  /** `self._lmag_repeat`: every paraphrase is rewritten into this many LMAG variants. */
  const LmagRepeat: nat := 10

  /** The constructor's arguments that reach the control logic. */
  datatype ClassifierArgs = ClassifierArgs(
    root: string,
    datasetName: string,
    trainset: Dict<Value>,
    steps: int,
    lr: real,
    optimizer: string,
    decay: real,
    periodSummary: int,
    periodVal: int,
    periodSave: int,
    valSteps: int,
    enableSem: bool,
    enableLmag: bool)

  function TrainConfigOf(args: ClassifierArgs, modelInit: string): TrainConfig {
    TrainConfig(args.root, args.datasetName, modelInit, args.enableSem, args.steps, args.optimizer,
                args.lr, args.decay, args.periodSummary, args.periodVal, args.periodSave, args.valSteps)
  }

  /** `trainset["cased"]` picks the pretrained model; a dataset without the flag raises. */
  function ModelInitOf(trainset: Dict<Value>): (r: Result<string>)
    ensures r.Failure? <==> "cased" !in Keys(trainset)
    ensures r.Failure? ==> r.error == KeyError("cased")
  {
    var cased: Option<Value> := Get(trainset, "cased");
    if cased.None? then Failure(KeyError("cased")) else Success(ModelInit(Truthy(cased.value)))
  }

  /**
    `BertClassifier.__init__`: choose the cased or uncased model from
    `trainset["cased"]`, then load or train the classifier; fine-tuning starts
    uninitialised. The constructor fails exactly when `load_or_train_bert_clf`
    does, and its model is the one that call loads or trains.
   */
  method MakeClassifier(args: ClassifierArgs, disk: set<string>, train: Stream, val: Stream)
    returns (r: Result<Classifier>, disk': set<string>)
    ensures ModelInitOf(args.trainset).Failure? ==> r == Failure(KeyError("cased")) && disk' == disk
    ensures ModelInitOf(args.trainset).Success? ==>
              var cfg := TrainConfigOf(args, ModelInitOf(args.trainset).value);
              && (LookupPath(cfg) in disk ==>
                    r.Success? && r.value.model == BertModel(Loaded(LookupPath(cfg)), Eval) && disk' == disk)
              && (LookupPath(cfg) !in disk ==>
                    (r.Success? <==>
                       && LabelCount(args.trainset).Success?
                       && GetOptimizer(cfg.optimizer, cfg.lr, cfg.decay, cfg.steps, DefaultWarmup).Success?
                       && !Aborts(cfg)))
              && (r.Success? && r.value.model.source.Trained? ==>
                    && LabelCount(args.trainset).Success?
                    && r.value.model.source.numLabels == LabelCount(args.trainset).value
                    && PeriodsNonZero(cfg)
                    && r.value.model.source.events == Schedule(cfg, train, val, Final(cfg)))
              && (r.Success? && args.steps >= 1 ==> LookupPath(cfg) in disk')
              && disk <= disk'
    ensures r.Success? ==>
              && ModelInitOf(args.trainset).Success?
              && r.value.modelInit == ModelInitOf(args.trainset).value
              && r.value.tune == Untuned
              && r.value.model.mode == Eval
              && r.value.datasetName == args.datasetName
              && r.value.enableSem == args.enableSem
              && r.value.enableLmag == args.enableLmag
  {
    var modelInit := ModelInitOf(args.trainset);
    if modelInit.Failure? {
      return Failure(modelInit.error), disk;
    }
    var m;
    m, disk' := LoadOrTrain(TrainConfigOf(args, modelInit.value), args.trainset, disk, train, val);
    if m.Failure? {
      return Failure(m.error), disk';
    }
    r := Success(Classifier(args.datasetName, modelInit.value, args.enableSem, args.enableLmag, m.value, Untuned));
  }

  /**
    Building the classifier a second time, on the disk the first build left,
    loads the checkpoint the first build trained and yields the same
    classifier otherwise, without writing anything.
   */
  method Rebuild(args: ClassifierArgs, disk: set<string>, train: Stream, val: Stream)
    returns (first: Result<Classifier>, second: Result<Classifier>, disk'': set<string>)
    ensures first.Success? && args.steps >= 1 ==>
              && second.Success?
              && second.value.model == BertModel(Loaded(LookupPath(TrainConfigOf(args, first.value.modelInit))), Eval)
              && second.value.(model := first.value.model) == first.value
  {
    var disk';
    first, disk' := MakeClassifier(args, disk, train, val);
    second, disk'' := MakeClassifier(args, disk', train, val);
  }

  // ----- robust fine-tuning lifecycle -----

  /**
    `robust_tune_init`: refuse a second initialisation, otherwise build the
    optimizer (which rejects an unknown name) and keep it for later steps.
   */
  function RobustTuneInit(clf: Classifier, optimizer: string, lr: real, decay: real, steps: int): (r: Result<Classifier>)
    ensures clf.tune.Tuning? ==> r == Failure(AlreadyInitialized)
    ensures clf.tune.Untuned? && optimizer !in {"adam", "sgd", "adamw"} ==> r == Failure(UnknownOptimizer)
    ensures clf.tune.Untuned? && optimizer in {"adam", "sgd", "adamw"} ==> r.Success?
    ensures r.Success? ==>
              && r.value == clf.(tune := r.value.tune)
              && r.value.tune.Tuning? && r.value.tune.stepsTaken == 0
              && AlgorithmName(r.value.tune.optimizer.algorithm) == optimizer
              && r.value.tune.optimizer.lr == lr && r.value.tune.optimizer.decay == decay
              && r.value.tune.optimizer.trainSteps == steps
  {
    if clf.tune.Tuning? then Failure(AlreadyInitialized)
    else
      match GetOptimizer(optimizer, lr, decay, steps, DefaultWarmup)
      case Failure(e) => Failure(e)
      case Success(opt) => Success(clf.(tune := Tuning(opt, 0)))
  }

  /** Fine-tuning is initialised at most once: after a successful initialisation every further one fails. */
  lemma TuneInitOnce(clf: Classifier, optimizer: string, lr: real, decay: real, steps: int,
                     optimizer2: string, lr2: real, decay2: real, steps2: int)
    requires RobustTuneInit(clf, optimizer, lr, decay, steps).Success?
    ensures clf.tune.Untuned?
    ensures RobustTuneInit(RobustTuneInit(clf, optimizer, lr, decay, steps).value, optimizer2, lr2, decay2, steps2)
         == Failure(AlreadyInitialized)
  {
  }

  /** The values a batch of records holds under `key`, in record order, skipping records without it. */
  function Column(records: seq<Record>, key: string): (col: seq<Value>)
    ensures |col| <= |records|
  {
    if records == [] then []
    else
      var last := records[|records| - 1];
      Column(records[..|records| - 1], key) + (if key in last then [last[key]] else [])
  }

  predicate AllHave(records: seq<Record>, key: string) {
    forall i :: 0 <= i < |records| ==> key in records[i]
  }

  /** The three lists `robust_tune_step` builds from its records. */
  datatype Columns = Columns(text0: seq<Value>, text1: seq<Value>, labels: seq<Value>)

  /**
    The record loop of `robust_tune_step`: each record contributes its `text0`
    and `text1` when present, and its `label`, which must be present.
   */
  method CollectColumns(records: seq<Record>) returns (r: Result<Columns>)
    ensures r.Failure? <==> !AllHave(records, "label")
    ensures r.Failure? ==> r.error == KeyError("label")
    ensures r.Success? ==> r.value == Columns(Column(records, "text0"), Column(records, "text1"), Column(records, "label"))
  {
    var text0, text1, labels := [], [], [];
    var i := 0;
    while i < |records|
      invariant 0 <= i <= |records|
      invariant AllHave(records[..i], "label")
      invariant text0 == Column(records[..i], "text0")
      invariant text1 == Column(records[..i], "text1")
      invariant labels == Column(records[..i], "label")
    {
      var rec := records[i];
      assert records[..i + 1][..i] == records[..i];
      if "text0" in rec {
        text0 := text0 + [rec["text0"]];
      }
      if "text1" in rec {
        text1 := text1 + [rec["text1"]];
      }
      if "label" !in rec {
        return Failure(KeyError("label"));
      }
      labels := labels + [rec["label"]];
      i := i + 1;
    }
    assert records[..i] == records;
    r := Success(Columns(text0, text1, labels));
  }

  /** A column of a batch in which every record has the key holds one value per record. */
  lemma {:induction false} ColumnOfFull(records: seq<Record>, key: string)
    requires AllHave(records, key)
    ensures |Column(records, key)| == |records|
    ensures forall i :: 0 <= i < |records| ==> Column(records, key)[i] == records[i][key]
  {
    if records != [] {
      var init := records[..|records| - 1];
      ColumnOfFull(init, key);
    }
  }

  /** A column of a batch in which no record has the key is empty. */
  lemma {:induction false} ColumnOfNone(records: seq<Record>, key: string)
    requires forall i :: 0 <= i < |records| ==> key !in records[i]
    ensures Column(records, key) == []
  {
    if records != [] {
      ColumnOfNone(records[..|records| - 1], key);
    }
  }

  /** `text1_list`, or `None` when no record has `text1`; a count that differs from `text0`'s raises. */
  function PairColumns(cols: Columns): Result<Option<seq<Value>>> {
    if |cols.text1| == 0 then Success(None)
    else if |cols.text1| != |cols.text0| then Failure(InconsistentRecords)
    else Success(Some(cols.text1))
  }

  /** The index of the first maximal entry: what `argmax` returns. */
  function Argmax(row: seq<real>): (k: nat)
    requires |row| > 0
    ensures k < |row|
    ensures forall j :: 0 <= j < |row| ==> row[j] <= row[k]
    ensures forall j :: 0 <= j < k ==> row[j] < row[k]
  {
    if |row| == 1 then 0
    else
      var k := Argmax(row[..|row| - 1]);
      if row[|row| - 1] > row[k] then |row| - 1 else k
  }

  /** The logits the network gives a (context, text) pair, one per label. */
  function Logits(net: Network, context: Option<Value>, text: string): (row: seq<real>)
    ensures |row| == net.numLabels
  {
    seq(net.numLabels, k requires 0 <= k < net.numLabels => net.logit(context, text, k))
  }

  /** The outcome of one fine-tuning step. */
  datatype TuneOutput = TuneOutput(predictions: seq<nat>, loss: real)

  /**
    The logits of one fine-tuning record: its `text0` alone, or `text0`
    followed by `text1` as the tokenizer's pair when the batch has `text1`.
   */
  function RecordLogits(net: Network, rec: Record, paired: bool): (row: seq<real>)
    requires "text0" in rec && rec["text0"].Str?
    requires paired ==> "text1" in rec && rec["text1"].Str?
    ensures |row| == net.numLabels
  {
    if paired then Logits(net, Some(rec["text0"]), rec["text1"].s)
    else Logits(net, None, rec["text0"].s)
  }

  /** A column is as long as the batch exactly when every record has the key. */
  lemma {:induction false} ColumnFull(records: seq<Record>, key: string)
    ensures |Column(records, key)| == |records| <==> AllHave(records, key)
  {
    if records != [] {
      var init := records[..|records| - 1];
      ColumnFull(init, key);
      assert AllHave(records, key) <==> AllHave(init, key) && key in records[|records| - 1] by {
        if AllHave(init, key) && key in records[|records| - 1] {
          forall i | 0 <= i < |records| ensures key in records[i] {
            if i < |records| - 1 {
              assert records[i] == init[i];
            }
          }
        }
      }
    }
  }

  /** Every value is a string: what the tokenizer's encoder accepts as a batch of texts. */
  predicate AllStr(values: seq<Value>) {
    forall i :: 0 <= i < |values| ==> values[i].Str?
  }

  /** What the tokenizer's input check inspects of a batch: its first entry only. */
  predicate FirstStr(values: seq<Value>) {
    values == [] || values[0].Str?
  }

  /** The tokenizer's input check failing: the first text of a batch is not a string. */
  const NotText := ValueError("text input must be of type str")

  /** The fast tokenizer's encoder failing on a later text that is not a string. */
  const NotEncodable := TypeError("TextEncodeInput")

  /** The fast tokenizer on a batch with no text reads the first of no encodings. */
  const EmptyTokens := IndexError(0)

  /** The target cross-entropy loss ignores. */
  const IgnoreIndex: int := -100

  /**
    A target BERT's cross-entropy loss accepts: a class index below the
    label count, or the ignored index.
   */
  predicate LossLabel(v: Value, numLabels: nat) {
    v.Int? && (0 <= v.i < numLabels || v.i == IgnoreIndex)
  }

  /** The first target the loss rejects, if any. */
  function BadTarget(labels: seq<Value>, numLabels: nat): (b: Option<Value>)
    ensures b.None? <==> forall k :: 0 <= k < |labels| ==> LossLabel(labels[k], numLabels)
    ensures b.Some? ==> b.value in labels && !LossLabel(b.value, numLabels)
  {
    if labels == [] then None
    else if !LossLabel(labels[0], numLabels) then Some(labels[0])
    else
      var rest := BadTarget(labels[1..], numLabels);
      assert forall k :: 1 <= k < |labels| ==> labels[k] == labels[1..][k - 1];
      rest
  }

  /**
    What happens to the collected columns before the optimizer step, in the
    order Python meets it: the `text1` count check, the tokenizer (a
    non-empty batch, a string as the first text of each list, then strings
    throughout), `torch.tensor(labels)` (integers only), then the loss (as
    many labels as inputs, a network with labels, every target in range).
    The result is `text1_list`.
   */
  function CheckBatch(c: Columns, numLabels: nat): (r: Result<Option<seq<Value>>>)
    ensures r.Success? ==> r.value == (if c.text1 == [] then None else Some(c.text1))
  {
    var text1 :- PairColumns(c);
    if c.text0 == [] then Failure(EmptyTokens)
    else if !FirstStr(c.text0) || !FirstStr(c.text1) then Failure(NotText)
    else if !AllStr(c.text0) || !AllStr(c.text1) then Failure(NotEncodable)
    else if exists k :: 0 <= k < |c.labels| && !c.labels[k].Int? then Failure(TypeError("label"))
    else if |c.text0| != |c.labels| || numLabels == 0 then Failure(ShapeError)
    else
      var bad := BadTarget(c.labels, numLabels);
      if bad.Some? then Failure(IndexError(bad.value.i)) else Success(text1)
  }

  /** The records `robust_tune_step` accepts: a non-empty batch, labelled, tokenizable, and with targets the loss takes. */
  predicate Trainable(records: seq<Record>, numLabels: nat) {
    && |records| > 0
    && AllHave(records, "label")
    && AllHave(records, "text0")
    && (forall i :: 0 <= i < |records| ==> records[i]["text0"].Str?)
    && (Column(records, "text1") == [] ||
          (AllHave(records, "text1") && forall i :: 0 <= i < |records| ==> records[i]["text1"].Str?))
    && numLabels > 0
    && (forall i :: 0 <= i < |records| ==> LossLabel(records[i]["label"], numLabels))
  }

  /** The column checks pass exactly on trainable records. */
  lemma CheckBatchTrainable(records: seq<Record>, numLabels: nat)
    requires AllHave(records, "label")
    ensures var c := Columns(Column(records, "text0"), Column(records, "text1"), Column(records, "label"));
            CheckBatch(c, numLabels).Success? <==> Trainable(records, numLabels)
  {
    var c := Columns(Column(records, "text0"), Column(records, "text1"), Column(records, "label"));
    ColumnFull(records, "text0");
    ColumnFull(records, "text1");
    ColumnOfFull(records, "label");
    if AllHave(records, "text0") {
      ColumnOfFull(records, "text0");
    }
    if AllHave(records, "text1") {
      ColumnOfFull(records, "text1");
    }
    if CheckBatch(c, numLabels).Success? {
      assert forall i :: 0 <= i < |records| ==> LossLabel(c.labels[i], numLabels);
    }
  }

  /**
    `robust_tune_step`: refuse to step before initialisation, switch to train
    mode, collect the records, check them (`CheckBatch`), run one optimizer
    step, and switch to eval mode. The loss is opaque; the predictions are
    the argmax of each input row's logits.
   */
  method RobustTuneStep(clf: Classifier, net: Network, records: seq<Record>, loss: real)
    returns (clf': Classifier, r: Result<TuneOutput>)
    ensures clf.tune.Untuned? ==> clf' == clf && r == Failure(NotInitialized)
    ensures clf.tune.Tuning? ==> clf'.(model := clf.model, tune := clf.tune) == clf && clf'.model.source == clf.model.source
    ensures r.Failure? ==> clf'.tune == clf.tune
    ensures clf.tune.Tuning? && r.Failure? ==> clf'.model.mode == Train
    ensures clf.tune.Tuning? && !AllHave(records, "label") ==> r == Failure(KeyError("label"))
    ensures clf.tune.Tuning? && AllHave(records, "label") ==>
              (r == Failure(InconsistentRecords) <==> 0 < |Column(records, "text1")| != |Column(records, "text0")|)
    ensures clf.tune.Tuning? && records == [] ==> r == Failure(EmptyTokens) && clf'.model.mode == Train
    ensures clf.tune.Tuning? && AllHave(records, "label") && !(0 < |Column(records, "text1")| != |Column(records, "text0")|) ==>
              (r == Failure(EmptyTokens) <==> Column(records, "text0") == [])
    ensures clf.tune.Tuning? && AllHave(records, "label") && 0 < |Column(records, "text0")| && !(0 < |Column(records, "text1")| != |Column(records, "text0")|) ==>
              && (r == Failure(NotText) <==> !FirstStr(Column(records, "text0")) || !FirstStr(Column(records, "text1")))
              && (r == Failure(NotEncodable) <==>
                    && FirstStr(Column(records, "text0")) && FirstStr(Column(records, "text1"))
                    && (!AllStr(Column(records, "text0")) || !AllStr(Column(records, "text1"))))
    ensures r.Success? <==> clf.tune.Tuning? && Trainable(records, net.numLabels)
    ensures r.Success? ==>
              && clf'.model.mode == Eval
              && clf.tune.Tuning?
              && clf'.tune == clf.tune.(stepsTaken := clf.tune.stepsTaken + 1)
              && |r.value.predictions| == |records|
              && (forall i :: 0 <= i < |records| ==>
                    r.value.predictions[i] == Argmax(RecordLogits(net, records[i], Column(records, "text1") != [])))
  {
    if clf.tune.Untuned? {
      return clf, Failure(NotInitialized);
    }
    clf' := clf.(model := clf.model.(mode := Train));
    var cols := CollectColumns(records);
    if cols.Failure? {
      return clf', Failure(cols.error);
    }
    var c := cols.value;
    CheckBatchTrainable(records, net.numLabels);
    var checked := CheckBatch(c, net.numLabels);
    if checked.Failure? {
      return clf', Failure(checked.error);
    }
    var paired := checked.value.Some?;
    var preds := seq(|records|, i requires 0 <= i < |records| => Argmax(RecordLogits(net, records[i], paired)));
    clf' := clf'.(model := clf'.model.(mode := Eval), tune := clf.tune.(stepsTaken := clf.tune.stepsTaken + 1));
    r := Success(TuneOutput(preds, loss));
  }

  // ----- LMAG majority vote -----

  /** How many times label `k` occurs in `labels`. */
  function Count(labels: seq<nat>, k: nat): nat {
    if labels == [] then 0
    else Count(labels[..|labels| - 1], k) + (if labels[|labels| - 1] == k then 1 else 0)
  }

  function Sum(xs: seq<nat>): nat {
    if xs == [] then 0 else Sum(xs[..|xs| - 1]) + xs[|xs| - 1]
  }

  /**
    `torch.sum(F.one_hot(group, num_labels), dim=0)`: the number of votes
    each label received within one group.
   */
  function Tally(group: seq<nat>, numLabels: nat): (t: seq<nat>)
    ensures |t| == numLabels
  {
    seq(numLabels, k requires 0 <= k < numLabels => Count(group, k))
  }

  predicate LabelsBelow(labels: seq<nat>, numLabels: nat) {
    forall i :: 0 <= i < |labels| ==> labels[i] < numLabels
  }

  /** Raising one entry by one raises the sum by one. */
  lemma {:induction false} SumIncrement(xs: seq<nat>, x: nat)
    requires x < |xs|
    ensures Sum(xs[x := xs[x] + 1]) == Sum(xs) + 1
  {
    var ys := xs[x := xs[x] + 1];
    if x < |xs| - 1 {
      assert ys[..|ys| - 1] == xs[..|xs| - 1][x := xs[x] + 1];
      SumIncrement(xs[..|xs| - 1], x);
    } else {
      assert ys[..|ys| - 1] == xs[..|xs| - 1];
    }
  }

  /** One more vote for `x` adds one to `x`'s tally and nothing elsewhere. */
  lemma TallyAppend(group: seq<nat>, x: nat, numLabels: nat)
    requires x < numLabels
    ensures Tally(group + [x], numLabels) == Tally(group, numLabels)[x := Tally(group, numLabels)[x] + 1]
  {
    assert (group + [x])[..|group|] == group;
  }

  /** Every vote of a group with labels in range is counted once: the tallies add up to the group size. */
  lemma {:induction false} TallySum(group: seq<nat>, numLabels: nat)
    requires LabelsBelow(group, numLabels)
    ensures Sum(Tally(group, numLabels)) == |group|
  {
    if group == [] {
      TallyZero(numLabels);
    } else {
      var init := group[..|group| - 1];
      var x := group[|group| - 1];
      assert group == init + [x];
      TallySum(init, numLabels);
      TallyAppend(init, x, numLabels);
      SumIncrement(Tally(init, numLabels), x);
    }
  }

  lemma {:induction false} TallyZero(numLabels: nat)
    ensures Sum(Tally([], numLabels)) == 0
  {
    if numLabels > 0 {
      assert Tally([], numLabels)[..numLabels - 1] == Tally([], numLabels - 1);
      TallyZero(numLabels - 1);
    }
  }

  lemma BlockBound(n: nat, repeat: nat, g: nat)
    requires repeat > 0 && g < n / repeat
    ensures (g + 1) * repeat <= n
  {
    var q := n / repeat;
    assert n == q * repeat + n % repeat;
    assert g + 1 <= q;
    MulMono(g + 1, q, repeat);
  }

  /** The `g`-th block of `repeat` consecutive labels. */
  function Block(labels: seq<nat>, repeat: nat, g: nat): (b: seq<nat>)
    requires repeat > 0 && g < |labels| / repeat
    ensures |b| == repeat
  {
    BlockBound(|labels|, repeat, g);
    labels[g * repeat..(g + 1) * repeat]
  }

  /**
    `one_hot(logits.view(n // repeat, repeat, -1).argmax(-1), C).sum(dim=1)`,
    on the argmax labels: one tally per block of `repeat` rows.
   */
  function VoteTallies(labels: seq<nat>, repeat: nat, numLabels: nat): (rows: seq<seq<nat>>)
    requires repeat > 0
  {
    seq(|labels| / repeat, g requires 0 <= g < |labels| / repeat => Tally(Block(labels, repeat, g), numLabels))
  }

  /**
    Every LMAG tally has one entry per label, counts the votes of its own
    block, and sums to `repeat`.
   */
  lemma VoteTalliesSum(labels: seq<nat>, repeat: nat, numLabels: nat)
    requires repeat > 0 && LabelsBelow(labels, numLabels)
    ensures var rows := VoteTallies(labels, repeat, numLabels);
            && |rows| == |labels| / repeat
            && (forall g :: 0 <= g < |rows| ==> |rows[g]| == numLabels)
            && (forall g, k :: 0 <= g < |rows| && 0 <= k < numLabels ==> rows[g][k] == Count(Block(labels, repeat, g), k))
            && (forall g :: 0 <= g < |rows| ==> Sum(rows[g]) == repeat)
  {
    var rows := VoteTallies(labels, repeat, numLabels);
    forall g | 0 <= g < |rows| ensures Sum(rows[g]) == repeat {
      var b := Block(labels, repeat, g);
      BlockBound(|labels|, repeat, g);
      assert LabelsBelow(b, numLabels) by {
        forall i | 0 <= i < |b| ensures b[i] < numLabels {
          assert b[i] == labels[g * repeat + i];
        }
      }
      TallySum(b, numLabels);
    }
  }

  // ----- the LMAG view -----

  /** The logit rows laid end to end: the storage `view` reshapes. */
  function Flatten(rows: seq<seq<real>>): seq<real> {
    if rows == [] then [] else Flatten(rows[..|rows| - 1]) + rows[|rows| - 1]
  }

  /** Rows of one width flatten to that many entries per row. */
  lemma {:induction false} FlattenLength(rows: seq<seq<real>>, width: nat)
    requires forall i :: 0 <= i < |rows| ==> |rows[i]| == width
    ensures |Flatten(rows)| == |rows| * width
  {
    if rows != [] {
      var n := |rows| - 1;
      FlattenLength(rows[..n], width);
      assert |rows| * width == n * width + width;
    }
  }

  /** Rows of one width put entry `j` of row `k` at offset `k * width + j`. */
  lemma {:induction false} FlattenAt(rows: seq<seq<real>>, width: nat, k: nat, j: nat)
    requires forall i :: 0 <= i < |rows| ==> |rows[i]| == width
    requires k < |rows| && j < width
    ensures |Flatten(rows)| == |rows| * width
    ensures k * width + j < |Flatten(rows)| && Flatten(rows)[k * width + j] == rows[k][j]
  {
    var n := |rows| - 1;
    FlattenLength(rows, width);
    FlattenLength(rows[..n], width);
    if k < n {
      FlattenAt(rows[..n], width, k, j);
    } else {
      assert |rows| * width == n * width + width;
    }
  }

  /** Chunk `k + 1` ends within `count` chunks. */
  lemma ChunkFits(k: nat, count: nat, width: nat)
    requires k < count
    ensures k * width + width <= count * width
  {
    MulMono(k + 1, count, width);
    assert (k + 1) * width == k * width + width;
  }

  /** The argmax of chunk `k` of `width` consecutive logits. */
  function ChunkArgmax(flat: seq<real>, count: nat, width: nat, k: nat): nat
    requires width > 0 && count * width == |flat| && k < count
  {
    ChunkFits(k, count, width);
    Argmax(flat[k * width..k * width + width])
  }

  /**
    `view(count // repeat, repeat, -1).argmax(-1)`, laid end to end: the
    flattened logits cut into `count` chunks of equal width, each reduced to
    the index of its first maximum.
   */
  function ViewLabels(flat: seq<real>, count: nat, width: nat): (labels: seq<nat>)
    requires width > 0 && count * width == |flat|
    ensures |labels| == count
  {
    seq(count, k requires 0 <= k < count => ChunkArgmax(flat, count, width, k))
  }

  /**
    `logits.view(n // repeat, repeat, -1)` on `n` rows of `numLabels` logits
    is defined: there is at least one whole block, and the `n * numLabels`
    entries split evenly over its `(n // repeat) * repeat` chunks.
   */
  predicate ViewFits(n: nat, numLabels: nat) {
    numLabels > 0 && n >= LmagRepeat && (n * numLabels) % ((n / LmagRepeat) * LmagRepeat) == 0
  }

  /** The number of chunks and their width when the view fits. */
  lemma ViewShape(n: nat, numLabels: nat)
    requires ViewFits(n, numLabels)
    ensures var count := (n / LmagRepeat) * LmagRepeat;
            && 0 < count <= n
            && (n * numLabels) / count > 0
            && count * ((n * numLabels) / count) == n * numLabels
            && count / LmagRepeat == n / LmagRepeat
  {
    var count := (n / LmagRepeat) * LmagRepeat;
    assert n == count + n % LmagRepeat;
    MulMono(1, numLabels, n);
    assert n * numLabels >= n;
    var q := (n * numLabels) / count;
    assert n * numLabels == count * q + (n * numLabels) % count;
  }

  /** The logit rows of the (context, text) pairs. */
  function LogitRows(net: Network, context: Option<Value>, texts: seq<string>): (rows: seq<seq<real>>)
    ensures |rows| == |texts|
    ensures forall i :: 0 <= i < |rows| ==> rows[i] == Logits(net, context, texts[i])
  {
    seq(|texts|, i requires 0 <= i < |texts| => Logits(net, context, texts[i]))
  }

  /** The labels the LMAG view votes with, one per chunk: `(n // repeat) * repeat` of them. */
  function LmagLabels(net: Network, context: Option<Value>, texts: seq<string>): (labels: seq<nat>)
    requires ViewFits(|texts|, net.numLabels)
    ensures |labels| == (|texts| / LmagRepeat) * LmagRepeat
    ensures |labels| / LmagRepeat == |texts| / LmagRepeat
  {
    var rows := LogitRows(net, context, texts);
    FlattenLength(rows, net.numLabels);
    ViewShape(|texts|, net.numLabels);
    var count := (|texts| / LmagRepeat) * LmagRepeat;
    ViewLabels(Flatten(rows), count, (|texts| * net.numLabels) / count)
  }

  /** With whole blocks the view has one chunk per row, as wide as a row. */
  lemma WholeBlocksShape(n: nat, w: nat)
    requires w > 0 && n > 0 && n % LmagRepeat == 0
    ensures ViewFits(n, w)
    ensures (n / LmagRepeat) * LmagRepeat == n && (n * w) / n == w
  {
    assert (n / LmagRepeat) * LmagRepeat == n;
    DivExact(n, w);
    MulMono(1, w, n);
  }

  /** A multiple of `n` divides by `n` exactly. */
  lemma DivExact(n: nat, w: nat)
    requires n > 0
    ensures (n * w) % n == 0 && (n * w) / n == w
  {
    var q := (n * w) / n;
    var rem := (n * w) % n;
    assert n * w == n * q + rem;
    if q < w {
      MulMono(q + 1, w, n);
    }
  }

  /** Rows of one width: the `k`-th chunk of that width is row `k`. */
  lemma ChunkIsRow(rows: seq<seq<real>>, w: nat, k: nat)
    requires forall i :: 0 <= i < |rows| ==> |rows[i]| == w
    requires k < |rows|
    ensures |Flatten(rows)| == |rows| * w
    ensures k * w + w <= |Flatten(rows)| && Flatten(rows)[k * w..k * w + w] == rows[k]
  {
    FlattenLength(rows, w);
    ChunkFits(k, |rows|, w);
    forall j | 0 <= j < w ensures Flatten(rows)[k * w..k * w + w][j] == rows[k][j] {
      FlattenAt(rows, w, k, j);
    }
  }

  /**
    When the rows form whole blocks, the view's chunks are the rows
    themselves and the LMAG labels are the argmax label of each row, all
    below the label count.
   */
  lemma LmagWholeBlocks(net: Network, context: Option<Value>, texts: seq<string>)
    requires net.numLabels > 0 && |texts| > 0 && |texts| % LmagRepeat == 0
    ensures ViewFits(|texts|, net.numLabels)
    ensures LmagLabels(net, context, texts) == ArgmaxLabels(net, context, texts)
  {
    var n := |texts|;
    var w := net.numLabels;
    WholeBlocksShape(n, w);
    var rows := LogitRows(net, context, texts);
    var labels := LmagLabels(net, context, texts);
    FlattenLength(rows, w);
    assert labels == ViewLabels(Flatten(rows), n, w);
    forall k | 0 <= k < n
      ensures labels[k] == Argmax(Logits(net, context, texts[k]))
    {
      ChunkIsRow(rows, w, k);
      assert labels[k] == ChunkArgmax(Flatten(rows), n, w, k);
    }
  }

  // ----- predict_dist_batch -----

  function ToReals(xs: seq<nat>): (r: seq<real>)
    ensures |r| == |xs|
  {
    seq(|xs|, i requires 0 <= i < |xs| => xs[i] as real)
  }

  /** The argmax label of each (context, text) row. */
  function ArgmaxLabels(net: Network, context: Option<Value>, texts: seq<string>): (labels: seq<nat>)
    requires net.numLabels > 0
    ensures |labels| == |texts|
    ensures LabelsBelow(labels, net.numLabels)
  {
    seq(|texts|, i requires 0 <= i < |texts| => Argmax(Logits(net, context, texts[i])))
  }

  /** The paraphrases after the optional SEM rewrite. */
  function SemTexts(clf: Classifier, net: Network, paraphrases: seq<string>): seq<string> {
    if clf.enableSem then net.semFix(paraphrases) else paraphrases
  }

  /**
    The LMAG rewrite of the paraphrases: `data_record` must be a record; when
    it has `text1`, the paraphrased field must be `text1` and the record's
    `text0` is the context of every paraphrase.
   */
  function LmagTexts(net: Network, texts: seq<string>, record: Option<Record>, field: string): Result<seq<string>> {
    if record.None? then Failure(TypeError("NoneType"))
    else if "text1" !in record.value then Success(net.lmagFix(texts, None))
    else if field != "text1" then Failure(AssertionFailed("paraphrase_field == \"text1\""))
    else if "text0" !in record.value then Failure(KeyError("text0"))
    else Success(net.lmagFix(texts, Some(seq(|texts|, _ => record.value["text0"]))))
  }

  /**
    What the tokenizer puts before each paraphrase: nothing for `text0`, the
    record's `text0` for `text1`; any other field fails the assertion.
   */
  function Context(record: Option<Record>, field: string): Result<Option<Value>> {
    if field == "text0" then Success(None)
    else if field != "text1" then Failure(AssertionFailed("paraphrase_field == \"text1\""))
    else if record.None? then Failure(TypeError("NoneType"))
    else if "text0" !in record.value then Failure(KeyError("text0"))
    else Success(Some(record.value["text0"]))
  }

  /** A context the tokenizer's input check lets through: none, or a string. */
  predicate TextContext(context: Option<Value>) {
    context.None? || context.value.Str?
  }

  /**
    `predict_dist_batch`: SEM rewrites the paraphrases first; LMAG rewrites
    them into `repeat` variants each; then the rows are scored alone
    (`text0`) or paired after the record's `text0` (`text1`); the tokenizer
    fails on no rows and on a context that is not a string. Without LMAG
    each result row is the log-softmax of its paraphrase's logits; with LMAG
    each block of `repeat` rows is reduced to the tally of its argmax labels
    first. `data_record` may be `None`.
   */
  function PredictDistBatch(clf: Classifier, net: Network, paraphrases: seq<string>, record: Option<Record>, field: string)
    : (r: Result<seq<seq<real>>>)
    ensures clf.enableLmag && record.None? ==> r == Failure(TypeError("NoneType"))
    ensures clf.enableLmag && record.Some? && "text1" in record.value && field != "text1" ==>
              r == Failure(AssertionFailed("paraphrase_field == \"text1\""))
    ensures !clf.enableLmag && field != "text0" && field != "text1" ==>
              r == Failure(AssertionFailed("paraphrase_field == \"text1\""))
    ensures !clf.enableLmag && field == "text1" && record.None? ==> r == Failure(TypeError("NoneType"))
    ensures !clf.enableLmag && field == "text1" && record.Some? && "text0" !in record.value ==> r == Failure(KeyError("text0"))
    ensures Context(record, field).Success? && SemTexts(clf, net, paraphrases) == [] && !clf.enableLmag ==> r == Failure(EmptyTokens)
    ensures !clf.enableLmag ==>
              (r.Success? <==> Context(record, field).Success? && TextContext(Context(record, field).value) && |SemTexts(clf, net, paraphrases)| > 0)
    ensures !clf.enableLmag && r.Success? ==>
              && |r.value| == |SemTexts(clf, net, paraphrases)|
              && forall i :: 0 <= i < |r.value| ==>
                   r.value[i] == net.logSoftmax(Logits(net, Context(record, field).value, SemTexts(clf, net, paraphrases)[i]))
    ensures clf.enableLmag ==>
              (r.Success? <==>
                 && LmagTexts(net, SemTexts(clf, net, paraphrases), record, field).Success?
                 && Context(record, field).Success?
                 && TextContext(Context(record, field).value)
                 && ViewFits(|LmagTexts(net, SemTexts(clf, net, paraphrases), record, field).value|, net.numLabels)
                 && LabelsBelow(LmagLabels(net, Context(record, field).value,
                                           LmagTexts(net, SemTexts(clf, net, paraphrases), record, field).value), net.numLabels))
    ensures clf.enableLmag && r.Success? ==>
              var rows := LmagTexts(net, SemTexts(clf, net, paraphrases), record, field).value;
              var labels := LmagLabels(net, Context(record, field).value, rows);
              && |r.value| == |rows| / LmagRepeat
              && forall g :: 0 <= g < |r.value| ==>
                   r.value[g] == net.logSoftmax(ToReals(Tally(Block(labels, LmagRepeat, g), net.numLabels)))
  {
    var texts := SemTexts(clf, net, paraphrases);
    var rows :- if clf.enableLmag then LmagTexts(net, texts, record, field) else Success(texts);
    var context :- Context(record, field);
    if rows == [] then Failure(EmptyTokens)
    else if !TextContext(context) then Failure(NotText)
    else if !clf.enableLmag then
      Success(seq(|rows|, i requires 0 <= i < |rows| => net.logSoftmax(Logits(net, context, rows[i]))))
    else if !ViewFits(|rows|, net.numLabels) then Failure(ShapeError)
    else
      var labels := LmagLabels(net, context, rows);
      if !LabelsBelow(labels, net.numLabels) then Failure(ClassOutOfRange)
      else
        var tallies := VoteTallies(labels, LmagRepeat, net.numLabels);
        Success(seq(|tallies|, g requires 0 <= g < |tallies| => net.logSoftmax(ToReals(tallies[g]))))
  }

  /** A row that is the log-softmax of a vote tally: one entry per label, `repeat` votes in all. */
  ghost predicate VoteRow(net: Network, row: seq<real>) {
    exists t: seq<nat> :: |t| == net.numLabels && Sum(t) == LmagRepeat && row == net.logSoftmax(ToReals(t))
  }

  /** Every LMAG row is the log-softmax of a vote tally whose votes add up to `repeat`. */
  lemma LmagRowsAreVotes(clf: Classifier, net: Network, paraphrases: seq<string>, record: Option<Record>, field: string)
    requires clf.enableLmag && PredictDistBatch(clf, net, paraphrases, record, field).Success?
    ensures var r := PredictDistBatch(clf, net, paraphrases, record, field).value;
            && |r| > 0
            && forall g :: 0 <= g < |r| ==> VoteRow(net, r[g])
  {
    var r := PredictDistBatch(clf, net, paraphrases, record, field).value;
    var rows := LmagTexts(net, SemTexts(clf, net, paraphrases), record, field).value;
    var labels := LmagLabels(net, Context(record, field).value, rows);
    var tallies := VoteTallies(labels, LmagRepeat, net.numLabels);
    VoteTalliesSum(labels, LmagRepeat, net.numLabels);
    assert |r| == |tallies|;
    forall g | 0 <= g < |r|
      ensures VoteRow(net, r[g])
    {
      var t := tallies[g];
      assert |t| == net.numLabels && Sum(t) == LmagRepeat;
      assert r[g] == net.logSoftmax(ToReals(t));
    }
  }

  /**
    `predict_dist_example`: the first row of the batch prediction for a
    single paraphrase. Without LMAG it is the log-softmax of that
    paraphrase's own (SEM-rewritten) logits.
   */
  function PredictDistExample(clf: Classifier, net: Network, paraphrase: string, record: Option<Record>, field: string)
    : (r: Result<seq<real>>)
    ensures r.Success? <==> PredictDistBatch(clf, net, [paraphrase], record, field).Success? && |PredictDistBatch(clf, net, [paraphrase], record, field).value| > 0
    ensures !clf.enableLmag ==>
              (r.Success? <==> Context(record, field).Success? && TextContext(Context(record, field).value) && |SemTexts(clf, net, [paraphrase])| > 0)
    ensures !clf.enableLmag && r.Success? ==>
              r.value == net.logSoftmax(Logits(net, Context(record, field).value, SemTexts(clf, net, [paraphrase])[0]))
    ensures !clf.enableSem && !clf.enableLmag && field == "text0" ==> r == Success(net.logSoftmax(Logits(net, None, paraphrase)))
    ensures clf.enableLmag ==> (r.Success? <==> PredictDistBatch(clf, net, [paraphrase], record, field).Success?)
  {
    var batch := PredictDistBatch(clf, net, [paraphrase], record, field);
    if batch.Failure? then Failure(batch.error)
    else if |batch.value| == 0 then Failure(IndexError(0))
    else Success(batch.value[0])
  }

  /**
    Without SEM or LMAG, scoring one paraphrase alone gives the same row as
    scoring it within a batch.
   */
  lemma ExampleIsBatchRow(clf: Classifier, net: Network, paraphrases: seq<string>, record: Option<Record>, field: string, i: nat)
    requires !clf.enableSem && !clf.enableLmag && i < |paraphrases|
    requires PredictDistBatch(clf, net, paraphrases, record, field).Success?
    ensures PredictDistExample(clf, net, paraphrases[i], record, field)
         == Success(PredictDistBatch(clf, net, paraphrases, record, field).value[i])
  {
  }

  // ----- robust-tuned snapshots -----

  /** The directory `save_robust_tuned_model` and `load_robust_tuned_model` both use. */
  function RobustPath(clf: Classifier, root: string, desc: string, step: int): string {
    RobustCheckpointPath(root, clf.datasetName, desc, clf.modelInit, step)
  }

  /** Every step of the same thousand names the same snapshot directory. */
  lemma SameThousand(clf: Classifier, root: string, desc: string, step: int)
    ensures forall s :: s / 1000 == step / 1000 ==> RobustPath(clf, root, desc, s) == RobustPath(clf, root, desc, step)
  {
    forall s | s / 1000 == step / 1000
      ensures RobustPath(clf, root, desc, s) == RobustPath(clf, root, desc, step)
    {
      RobustPerThousand(root, clf.datasetName, desc, clf.modelInit, s, step);
    }
  }

  /**
    `save_robust_tuned_model`: afterwards the snapshot every step of the same
    thousand names exists, and no other checkpoint directory was created.
   */
  function SaveRobust(clf: Classifier, root: string, disk: set<string>, desc: string, step: int): (disk': set<string>)
    ensures disk <= disk'
    ensures forall s :: s / 1000 == step / 1000 ==> RobustPath(clf, root, desc, s) in disk'
    ensures forall p :: p in disk' && p !in disk ==> p == RobustPath(clf, root, desc, step)
  {
    SameThousand(clf, root, desc, step);
    disk + {RobustPath(clf, root, desc, step)}
  }

  /**
    `load_robust_tuned_model`: replace the network by the snapshot of the
    step's thousand and switch to eval mode; everything else, including the
    fine-tuning state, is kept.
   */
  function LoadRobust(clf: Classifier, root: string, disk: set<string>, desc: string, step: int): (r: Result<Classifier>)
    ensures forall s :: s / 1000 == step / 1000 ==> (r.Success? <==> RobustPath(clf, root, desc, s) in disk)
    ensures r.Failure? ==> r.error == MissingCheckpoint(RobustPath(clf, root, desc, step))
    ensures r.Success? ==>
              && r.value.(model := clf.model) == clf
              && r.value.model.mode == Eval
              && r.value.model.source == Loaded(RobustPath(clf, root, desc, step))
  {
    SameThousand(clf, root, desc, step);
    var path := RobustPath(clf, root, desc, step);
    if path in disk then Success(clf.(model := BertModel(Loaded(path), Eval))) else Failure(MissingCheckpoint(path))
  }

  /**
    A snapshot saved at one step is found again by a load at any step of the
    same thousand, and (if the directory did not exist before) only then.
   */
  lemma SaveThenLoad(clf: Classifier, root: string, disk: set<string>, desc: string, saved: int, loaded: int)
    requires RobustPath(clf, root, desc, loaded) !in disk
    ensures LoadRobust(clf, root, SaveRobust(clf, root, disk, desc, saved), desc, loaded).Success?
        <==> saved / 1000 == loaded / 1000
  {
    RobustPerThousand(root, clf.datasetName, desc, clf.modelInit, saved, loaded);
  }
}

=== FILE: checkpoints.dfy ===
/**
  The checkpoint store of the BERT classifier (fibber/metrics/bert_classifier.py):
  the optimizer selector, the pretrained-model choice, and the deterministic
  directory names of base and robust-tuned checkpoints.
 */
module Checkpoints {
  import opened Common
  import opened PyText

  datatype Algorithm = Adam | Sgd | AdamW

  /** The selector string `get_optimizer` accepts for each algorithm. */
  function AlgorithmName(a: Algorithm): string {
    match a
    case Adam => "adam"
    case Sgd => "sgd"
    case AdamW => "adamw"
  }

  /** `get_optimizer`'s default number of warm-up steps. */
  const DefaultWarmup: int := 1000

  /**
    An optimizer bound to the model parameters, with its linear warm-up/decay
    schedule; the floating-point hyper-parameters are carried, not interpreted.
   */
  datatype Optimizer = Optimizer(algorithm: Algorithm, lr: real, decay: real, trainSteps: int, warmup: int)

  /**
    `get_optimizer`: "adam", "sgd" and "adamw" select an algorithm; every other
    name fails the `assert 0, "unkown optimizer"`.
   */
  function GetOptimizer(name: string, lr: real, decay: real, trainSteps: int, warmup: int): (r: Result<Optimizer>)
    ensures r.Success? <==> name == "adam" || name == "sgd" || name == "adamw"
    ensures r.Success? ==> AlgorithmName(r.value.algorithm) == name
    ensures r.Success? ==> r.value.lr == lr && r.value.decay == decay
    ensures r.Success? ==> r.value.trainSteps == trainSteps && r.value.warmup == warmup
    ensures r.Failure? ==> r.error == UnknownOptimizer
  {
    if name == "adam" then Success(Optimizer(Adam, lr, decay, trainSteps, warmup))
    else if name == "sgd" then Success(Optimizer(Sgd, lr, decay, trainSteps, warmup))
    else if name == "adamw" then Success(Optimizer(AdamW, lr, decay, trainSteps, warmup))
    else Failure(UnknownOptimizer)
  }

  /** Each algorithm's name selects exactly that algorithm. */
  lemma SelectorRoundTrip(a: Algorithm, lr: real, decay: real, trainSteps: int, warmup: int)
    ensures GetOptimizer(AlgorithmName(a), lr, decay, trainSteps, warmup)
         == Success(Optimizer(a, lr, decay, trainSteps, warmup))
  {
  }

  /** `BertClassifier.__init__`: the pretrained model follows the dataset's casing flag. */
  function ModelInit(cased: bool): string {
    if cased then "bert-base-cased" else "bert-base-uncased"
  }

  const BaseDirName: string := "bert_clf"
  const SemDirName: string := "bert_clf_sem"

  /** The defence tag directory: SEM-preprocessed classifiers live apart. */
  function DefenseDir(enableSem: bool): string {
    if enableSem then SemDirName else BaseDirName
  }

  /** `model_init + "-%04dk" % (steps // 1000)`; Dafny's `/` by a positive divisor floors like `//`. */
  function CheckpointLeaf(modelInit: string, steps: int): string {
    modelInit + "-" + FormatPadded(steps / 1000, 4) + "k"
  }

  /** `<root>/bert_clf[_sem]/<dataset>`. */
  function ModelDir(root: string, enableSem: bool, dataset: string): string {
    Join(Join(root, DefenseDir(enableSem)), dataset)
  }

  /** `<root>/bert_clf[_sem]/<dataset>/<model_init>-%04dk`. */
  function CheckpointPath(root: string, enableSem: bool, dataset: string, modelInit: string, steps: int): string {
    Join(ModelDir(root, enableSem, dataset), CheckpointLeaf(modelInit, steps))
  }

  /**
    `load_robust_tuned_model` and `save_robust_tuned_model` both use
    `<root>/bert_clf/<dataset>/<desc>/<model_init>-%04dk`, whether or not SEM is on.
   */
  function RobustCheckpointPath(root: string, dataset: string, desc: string, modelInit: string, step: int): string {
    Join(Join(Join(Join(root, BaseDirName), dataset), desc), CheckpointLeaf(modelInit, step))
  }

  // ----- path lemmas -----

  /** The separator `Join` puts after `a` before a relative component. */
  function Sep(a: string): string {
    if a == "" || a[|a| - 1] == '/' then "" else "/"
  }

  lemma JoinRelative(a: string, b: string)
    requires Relative(b)
    ensures Join(a, b) == a + Sep(a) + b
  {
  }

  /** Appending the same relative component to one directory is injective. */
  lemma JoinCancel(a: string, b1: string, b2: string)
    requires Relative(b1) && Relative(b2)
    requires Join(a, b1) == Join(a, b2)
    ensures b1 == b2
  {
    var p := a + Sep(a);
    assert Join(a, b1) == p + b1 && Join(a, b2) == p + b2;
    assert b1 == (p + b1)[|p|..];
    assert b2 == (p + b2)[|p|..];
  }

  predicate NoSlash(s: string) {
    forall i :: 0 <= i < |s| ==> s[i] != '/'
  }

  lemma NoSlashConcat(a: string, b: string)
    requires NoSlash(a) && NoSlash(b)
    ensures NoSlash(a + b)
  {
    forall i | |a| <= i < |a + b| ensures (a + b)[i] != '/' {
      assert (a + b)[i] == b[i - |a|];
    }
  }

  /** A zero-padded numeral is digits after an optional minus sign. */
  lemma PaddedNoSlash(i: int, width: nat)
    ensures NoSlash(FormatPadded(i, width))
  {
    PaddedBody(i, width);
    var body := Zeros(PadFill(i, width)) + Decimal(Abs(i));
    assert NoSlash(body);
    NoSlashConcat(Sign(i), body);
  }

  lemma LeafHasNoSlash(modelInit: string, steps: int)
    requires NoSlash(modelInit)
    ensures NoSlash(CheckpointLeaf(modelInit, steps))
    ensures Relative(CheckpointLeaf(modelInit, steps))
  {
    PaddedNoSlash(steps / 1000, 4);
    NoSlashConcat(modelInit, "-");
    NoSlashConcat(modelInit + "-", FormatPadded(steps / 1000, 4));
    NoSlashConcat(modelInit + "-" + FormatPadded(steps / 1000, 4), "k");
  }

  /**
    Under one directory, two step counts name the same checkpoint exactly when
    they fall in the same thousand: `"%04d" % (steps // 1000)` is the only
    step-dependent part of the leaf.
   */
  lemma LeafPerThousand(dir: string, modelInit: string, s1: int, s2: int)
    ensures Join(dir, CheckpointLeaf(modelInit, s1)) == Join(dir, CheckpointLeaf(modelInit, s2))
        <==> s1 / 1000 == s2 / 1000
  {
    var l1 := CheckpointLeaf(modelInit, s1);
    var l2 := CheckpointLeaf(modelInit, s2);
    if Join(dir, l1) == Join(dir, l2) {
      assert l1[0] == l2[0] by {
        if |modelInit| > 0 {
          assert l1[0] == modelInit[0] && l2[0] == modelInit[0];
        } else {
          assert l1[0] == '-' && l2[0] == '-';
        }
      }
      if l1[0] == '/' {
        assert l1 == l2;
      } else {
        JoinCancel(dir, l1, l2);
      }
      var k := |modelInit| + 1;
      assert FormatPadded(s1 / 1000, 4) == l1[k..|l1| - 1];
      assert FormatPadded(s2 / 1000, 4) == l2[k..|l2| - 1];
      PaddedInjective(s1 / 1000, s2 / 1000, 4);
    }
  }

  /** Two step budgets share a base checkpoint exactly when they fall in the same thousand. */
  lemma CheckpointPerThousand(root: string, enableSem: bool, dataset: string, modelInit: string, s1: int, s2: int)
    ensures CheckpointPath(root, enableSem, dataset, modelInit, s1) == CheckpointPath(root, enableSem, dataset, modelInit, s2)
        <==> s1 / 1000 == s2 / 1000
  {
    LeafPerThousand(ModelDir(root, enableSem, dataset), modelInit, s1, s2);
  }

  /** Two steps share a robust-tuned snapshot exactly when they fall in the same thousand. */
  lemma RobustPerThousand(root: string, dataset: string, desc: string, modelInit: string, s1: int, s2: int)
    ensures RobustCheckpointPath(root, dataset, desc, modelInit, s1) == RobustCheckpointPath(root, dataset, desc, modelInit, s2)
        <==> s1 / 1000 == s2 / 1000
  {
    LeafPerThousand(Join(Join(Join(root, BaseDirName), dataset), desc), modelInit, s1, s2);
  }

  /**
    With a plain root, dataset and model name the checkpoint sits at
    `<root>/<defence tag>/<dataset>/<model_init>-<step thousands, 4 digits>k`.
   */
  lemma CheckpointLayout(root: string, enableSem: bool, dataset: string, modelInit: string, steps: int)
    requires root != "" && root[|root| - 1] != '/'
    requires dataset != "" && dataset[0] != '/' && dataset[|dataset| - 1] != '/'
    requires NoSlash(modelInit)
    ensures CheckpointPath(root, enableSem, dataset, modelInit, steps)
         == root + "/" + DefenseDir(enableSem) + "/" + dataset + "/" + modelInit + "-" + FormatPadded(steps / 1000, 4) + "k"
  {
    LeafHasNoSlash(modelInit, steps);
    var leaf := CheckpointLeaf(modelInit, steps);
    var a := Join(root, DefenseDir(enableSem));
    JoinPlain(root, DefenseDir(enableSem));
    var md := Join(a, dataset);
    JoinPlain(a, dataset);
    assert md[|md| - 1] == dataset[|dataset| - 1];
    JoinPlain(md, leaf);
    var pad := FormatPadded(steps / 1000, 4);
    var dir := md + "/";
    calc {
      CheckpointPath(root, enableSem, dataset, modelInit, steps);
      dir + (modelInit + "-" + pad + "k");
      { Assoc(dir, modelInit + "-" + pad, "k"); }
      dir + (modelInit + "-" + pad) + "k";
      { Assoc(dir, modelInit + "-", pad); }
      dir + (modelInit + "-") + pad + "k";
      { Assoc(dir, modelInit, "-"); }
      dir + modelInit + "-" + pad + "k";
    }
  }

  lemma Assoc(a: string, b: string, c: string)
    ensures a + (b + c) == a + b + c
  {
  }

  /** A SEM classifier and a plain classifier never share a checkpoint. */
  lemma SemCheckpointsApart(root: string, dataset: string, modelInit: string, s1: int, s2: int)
    requires Relative(dataset)
    requires NoSlash(modelInit)
    ensures CheckpointPath(root, true, dataset, modelInit, s1) != CheckpointPath(root, false, dataset, modelInit, s2)
  {
    SemMarker(root, dataset, modelInit, s1);
    PlainMarker(root, dataset, modelInit, s2);
  }

  lemma CharOfPrefix(p: string, q: string, i: nat)
    requires i < |p|
    ensures (p + q)[i] == p[i]
  {
  }

  /** Right after `<root>/bert_clf` a SEM checkpoint path continues with `_`. */
  lemma SemMarker(root: string, dataset: string, modelInit: string, steps: int)
    requires Relative(dataset) && NoSlash(modelInit)
    ensures var a := Join(root, BaseDirName);
            var path := CheckpointPath(root, true, dataset, modelInit, steps);
            |a| < |path| && path[|a|] == '_'
  {
    LeafHasNoSlash(modelInit, steps);
    var a := Join(root, BaseDirName);
    var b := Join(root, SemDirName);
    assert b == a + "_sem";
    var semDir := Join(b, dataset);
    assert semDir == b + "/" + dataset;
    JoinRelative(semDir, CheckpointLeaf(modelInit, steps));
    CharOfPrefix(semDir + Sep(semDir), CheckpointLeaf(modelInit, steps), |a|);
    CharOfPrefix(semDir, Sep(semDir), |a|);
    CharOfPrefix(b + "/", dataset, |a|);
    CharOfPrefix(b, "/", |a|);
  }

  /** Right after `<root>/bert_clf` a plain checkpoint path continues with `/`. */
  lemma PlainMarker(root: string, dataset: string, modelInit: string, steps: int)
    requires Relative(dataset) && NoSlash(modelInit)
    ensures var a := Join(root, BaseDirName);
            var path := CheckpointPath(root, false, dataset, modelInit, steps);
            |a| < |path| && path[|a|] == '/'
  {
    LeafHasNoSlash(modelInit, steps);
    var a := Join(root, BaseDirName);
    var plainDir := Join(a, dataset);
    assert plainDir == a + "/" + dataset;
    JoinRelative(plainDir, CheckpointLeaf(modelInit, steps));
    CharOfPrefix(plainDir + Sep(plainDir), CheckpointLeaf(modelInit, steps), |a|);
    CharOfPrefix(plainDir, Sep(plainDir), |a|);
    CharOfPrefix(a + "/", dataset, |a|);
  }

  /** A path that still holds a separator after a shared prefix differs from one that does not. */
  lemma SlashAfterPrefix(p: string, desc: string, sep: string, leaf: string, baseLeaf: string)
    requires desc != []
    requires sep == "/" || (sep == "" && desc[|desc| - 1] == '/')
    requires NoSlash(baseLeaf)
    ensures p + desc + sep + leaf != p + baseLeaf
  {
    var robust := p + desc + sep + leaf;
    var i := if sep == "/" then |p| + |desc| else |p| + |desc| - 1;
    assert robust[i] == '/';
  }

  /**
    A robust-tuned snapshot (non-empty relative `desc`) is never written over a
    base checkpoint, with or without SEM, whatever the two step counts.
   */
  lemma RobustCheckpointApart(root: string, enableSem: bool, dataset: string, desc: string, modelInit: string, step: int, steps: int)
    requires Relative(dataset)
    requires desc != [] && desc[0] != '/'
    requires NoSlash(modelInit)
    ensures RobustCheckpointPath(root, dataset, desc, modelInit, step) != CheckpointPath(root, enableSem, dataset, modelInit, steps)
  {
    LeafHasNoSlash(modelInit, step);
    LeafHasNoSlash(modelInit, steps);
    var a := Join(root, BaseDirName);
    var md := Join(a, dataset);
    assert md == a + "/" + dataset;
    var robustDir := Join(md, desc);
    JoinRelative(md, desc);
    var leaf := CheckpointLeaf(modelInit, step);
    var robust := Join(robustDir, leaf);
    JoinRelative(robustDir, leaf);
    if enableSem {
      RobustApartFromSem(root, dataset, modelInit, steps, robust, a, md);
    } else {
      var baseLeaf := CheckpointLeaf(modelInit, steps);
      JoinRelative(md, baseLeaf);
      var p := md + Sep(md);
      assert robust == p + desc + Sep(robustDir) + leaf;
      assert Sep(robustDir) == "" ==> robustDir[|robustDir| - 1] == desc[|desc| - 1];
      SlashAfterPrefix(p, desc, Sep(robustDir), leaf, baseLeaf);
    }
  }

  lemma RobustApartFromSem(root: string, dataset: string, modelInit: string, steps: int, robust: string, a: string, md: string)
    requires Relative(dataset) && NoSlash(modelInit)
    requires a == Join(root, BaseDirName) && md == a + "/" + dataset
    requires md <= robust
    ensures robust != CheckpointPath(root, true, dataset, modelInit, steps)
  {
    SemMarker(root, dataset, modelInit, steps);
    CharOfPrefix(a + "/", dataset, |a|);
    assert robust[|a|] == md[|a|] == '/';
  }
}

=== FILE: common.dfy ===
/**
  Shared vocabulary of the fibber model: the failure-carrying result type,
  the Python exceptions the modelled code raises, the loosely typed values
  that fibber keeps in its dictionaries, and the train/eval mode of a model.
 */
module Common {

  datatype Option<+T> = None | Some(value: T)

  /** The exceptions raised by the modelled code, one constructor per cause. */
  datatype Error =
    | UnknownOptimizer                  // `assert 0, "unkown optimizer"`
    | ZeroDivision                      // `x % 0` or `0 / 0` on Python ints
    | AlreadyInitialized                // robust_tune_init called twice
    | NotInitialized                    // robust_tune_step before robust_tune_init
    | InconsistentRecords               // text1 count differs from text0 count
    | KeyError(key: string)             // a missing dictionary key
    | AssertionFailed(what: string)     // a failing `assert` statement
    | TypeError(what: string)           // an operand of the wrong Python type
    | ValueError(text: string)          // `int(text)` on a non-numeral; the tokenizer's input check
    | IndexError(index: int)            // an index outside the array
    | ShapeError                        // a tensor view whose shape does not fit
    | ClassOutOfRange                   // `one_hot` on a class value not below `num_classes`
    | InvalidChoice(option: string)     // argparse rejected a command-line choice
    | Text1NotSupported                 // fastText format cannot hold text1
    | MissingCheckpoint(path: string)   // from_pretrained on a directory that does not exist

  datatype Result<+T> = Success(value: T) | Failure(error: Error) {
    predicate IsFailure() {
      Failure?
    }

    function PropagateFailure<U>(): Result<U>
      requires Failure?
    {
      Failure(error)
    }

    function Extract(): T
      requires Success?
    {
      value
    }
  }

  /**
    A value stored in one of fibber's dictionaries (a data record, a dataset's
    metadata, a command-line configuration). Floating-point constants are kept
    as the text Python's `str` prints for them.
   */
  datatype Value =
    | Str(s: string)
    | Int(i: int)
    | Bool(b: bool)
    | Float(repr: string)
    | StrList(items: seq<string>)
    | Entries(entries: seq<(string, Value)>)
    | Records(rows: seq<map<string, Value>>)

  /** A data record: the dictionary `{"text0": ..., "text1": ..., "label": ..., ...}`. */
  type Record = map<string, Value>

  /** The fields the classifiers read have the types the dataset format promises. */
  predicate WellFormedRecord(r: Record) {
    && ("text0" in r ==> r["text0"].Str?)
    && ("text1" in r ==> r["text1"].Str?)
    && ("label" in r ==> r["label"].Int?)
  }

  predicate WellFormedRecords(rs: seq<Record>) {
    forall i :: 0 <= i < |rs| ==> WellFormedRecord(rs[i])
  }

  /** Python truthiness of a stored value. */
  predicate Truthy(v: Value) {
    match v
    case Str(s) => s != ""
    case Int(i) => i != 0
    case Bool(b) => b
    case Float(repr) => repr != "0.0" && repr != "-0.0"
    case StrList(items) => items != []
    case Entries(entries) => entries != []
    case Records(rows) => rows != []
  }

  /** `model.train()` / `model.eval()`. */
  datatype Mode = Train | Eval

  function Abs(x: int): nat {
    if x < 0 then -x else x
  }

  function Max(a: int, b: int): int {
    if a < b then b else a
  }

  function Min(a: int, b: int): int {
    if a < b then a else b
  }

  /** Multiplying by the same factor keeps the order. */
  lemma MulMono(a: nat, b: nat, m: nat)
    requires a <= b
    ensures a * m <= b * m
  {
  }
}

=== FILE: dataset.dfy ===
/**
  A fibber dataset as the classifiers receive it: an insertion-ordered
  dictionary whose entries include `label_mapping`, `cased` and `data`.
 */
module Dataset {
  import opened Common
  import opened OrderedDict

  /** `len(dataset["label_mapping"])`: the number of classes a dataset declares. */
  function LabelCount(dataset: Dict<Value>): (r: Result<nat>)
    ensures r.Failure? <==> Get(dataset, "label_mapping").None? || !Sized(Get(dataset, "label_mapping").value)
    ensures Get(dataset, "label_mapping").None? ==> r == Failure(KeyError("label_mapping"))
  {
    var mapping: Option<Value> := Get(dataset, "label_mapping");
    match mapping
    case None => Failure(KeyError("label_mapping"))
    case Some(StrList(items)) => Success(|items|)
    case Some(Entries(entries)) => Success(|entries|)
    case Some(Records(rows)) => Success(|rows|)
    case Some(Str(s)) => Success(|s|)
    case Some(_) => Failure(TypeError("the label mapping has no len()"))
  }

  /** The values Python's `len` accepts. */
  predicate Sized(v: Value) {
    v.StrList? || v.Entries? || v.Records? || v.Str?
  }
}

=== FILE: fasttext.dfy ===
/**
  fibber/metrics/fasttext_classifier.py: the adapter between fibber's
  datasets and fastText. Records are written as `__label__<k> <text0>` lines,
  the trained model is cached under a file name built from its
  hyperparameters, and fastText's `__label__<k>` answers are read back into
  a dense distribution vector. fastText itself (training, prediction, files)
  enters only as parameters: the set of existing files and the list of
  (label, probability) pairs a prediction returns.
 */
module Fasttext {
  import opened Common
  import opened PyText
  import opened OrderedDict
  import opened Dataset

  // ----- change_to_fasttext_format -----

  /** `"__label__%d" % k`. */
  function LabelToken(k: int): string {
    "__label__" + FormatInt(k)
  }

  /** `int(label[len("__label__"):])`: the class index fastText's label text stands for. */
  function LabelIndex(token: string): Result<int> {
    ParseInt(Drop(token, |"__label__"|))
  }

  /** `"%d" % v` on a record's label; booleans print as 1 and 0. */
  function LabelNumber(v: Value): Result<int> {
    match v
    case Int(i) => Success(i)
    case Bool(b) => Success(if b then 1 else 0)
    case _ => Failure(TypeError("%d format: a number is required"))
  }

  /** `str(v)` for the scalar values a `text0` field may hold. */
  function PrintText(v: Value): Result<string> {
    match v
    case Str(s) => Success(s)
    case Int(i) => Success(FormatInt(i))
    case Bool(b) => Success(if b then "True" else "False")
    case Float(repr) => Success(repr)
    case _ => Failure(TypeError("text0 is not a scalar"))
  }

  /** A record `change_to_fasttext_format` can write: no `text1`, a numeric label and a printable `text0`. */
  predicate Writable(item: Record) {
    && "text1" !in item
    && "label" in item && LabelNumber(item["label"]).Success?
    && "text0" in item && PrintText(item["text0"]).Success?
  }

  /**
    `print("__label__%d" % item["label"], item["text0"], file=f)`: the label
    token, a space, the text and a newline. A record with `text1` is refused
    before anything else is looked at.
   */
  function FormatRecord(item: Record): (r: Result<string>)
    ensures r.Success? <==> Writable(item)
    ensures "text1" in item ==> r == Failure(Text1NotSupported)
  {
    if "text1" in item then Failure(Text1NotSupported)
    else if "label" !in item then Failure(KeyError("label"))
    else
      var k :- LabelNumber(item["label"]);
      if "text0" !in item then Failure(KeyError("text0"))
      else
        var text :- PrintText(item["text0"]);
        Success(LabelToken(k) + " " + text + "\n")
  }

  /** The lines for `rows`, in order; the first record that cannot be written stops the file. */
  function FormatRecords(rows: seq<Record>): (r: Result<string>)
    ensures r.Success? <==> forall i :: 0 <= i < |rows| ==> Writable(rows[i])
    ensures (exists i :: 0 <= i < |rows| && "text1" in rows[i]) ==> r.Failure?
  {
    if rows == [] then Success("")
    else
      var line :- FormatRecord(rows[0]);
      var rest :- FormatRecords(rows[1..]);
      assert forall i :: 1 <= i < |rows| ==> rows[i] == rows[1..][i - 1];
      Success(line + rest)
  }

  /** `change_to_fasttext_format(dataset, filename)`: the text written to `filename`. */
  function ChangeToFasttextFormat(dataset: Dict<Value>): (r: Result<string>)
    ensures Get(dataset, "data").None? ==> r == Failure(KeyError("data"))
    ensures r.Success? <==>
              && Get(dataset, "data").Some?
              && Get(dataset, "data").value.Records?
              && forall i :: 0 <= i < |Get(dataset, "data").value.rows| ==> Writable(Get(dataset, "data").value.rows[i])
    ensures Get(dataset, "data").Some? && !Get(dataset, "data").value.Records? ==> r.Failure? && r.error.TypeError?
    ensures r.Success? ==> r.value == FormatRecords(Get(dataset, "data").value.rows).value
  {
    var data: Option<Value> := Get(dataset, "data");
    match data
    case None => Failure(KeyError("data"))
    case Some(Records(rows)) => FormatRecords(rows)
    case Some(_) => Failure(TypeError("the data is not a list of records"))
  }

  // ----- reading the file back -----

  /** The first index of `c` in `s`. */
  function FirstIndex(s: string, c: char): (r: Option<nat>)
    ensures r.Some? ==> r.value < |s| && s[r.value] == c && c !in s[..r.value]
    ensures r.None? ==> c !in s
  {
    if s == [] then None
    else if s[0] == c then Some(0)
    else
      match FirstIndex(s[1..], c)
      case None => None
      case Some(k) =>
        assert s[..k + 1] == [s[0]] + s[1..][..k];
        Some(k + 1)
  }

  /** The lines of a text file, each without its newline. */
  function SplitLines(s: string): seq<string>
    decreases |s|
  {
    match FirstIndex(s, '\n')
    case None => if s == [] then [] else [s]
    case Some(k) => [s[..k]] + SplitLines(s[k + 1..])
  }

  /** How fastText reads a training line: the label token up to the first space, then the text. */
  function ParseLine(line: string): Option<(Result<int>, string)> {
    match FirstIndex(line, ' ')
    case None => None
    case Some(k) => Some((LabelIndex(line[..k]), line[k + 1..]))
  }

  lemma FirstIndexAt(s: string, c: char, k: nat)
    requires k < |s| && s[k] == c && c !in s[..k]
    ensures FirstIndex(s, c) == Some(k)
  {
  }

  lemma SplitLinesCons(line: string, rest: string)
    requires '\n' !in line
    ensures SplitLines(line + "\n" + rest) == [line] + SplitLines(rest)
  {
    var s := line + "\n" + rest;
    assert s[..|line|] == line;
    FirstIndexAt(s, '\n', |line|);
    assert s[|line| + 1..] == rest;
  }

  /** A label token never holds a space. */
  lemma TokenHasNoSpace(k: int)
    ensures ' ' !in LabelToken(k)
  {
    FormatIntChars(k);
    var t := LabelToken(k);
    forall j | 0 <= j < |t| ensures t[j] != ' ' {
      if j >= 9 {
        assert t[j] == FormatInt(k)[j - 9];
      }
    }
  }

  /** The label written by `"__label__%d"` is recovered exactly by `int(label[len("__label__"):])`. */
  lemma LabelRoundTrip(k: int)
    ensures LabelIndex(LabelToken(k)) == Success(k)
  {
    assert Drop(LabelToken(k), 9) == FormatInt(k);
    ParseFormat(k);
  }

  /** A written line reads back as its label and its text. */
  lemma LineRoundTrip(k: int, text: string)
    ensures ParseLine(LabelToken(k) + " " + text) == Some((Success(k), text))
  {
    var line := LabelToken(k) + " " + text;
    TokenHasNoSpace(k);
    assert line[..|LabelToken(k)|] == LabelToken(k);
    FirstIndexAt(line, ' ', |LabelToken(k)|);
    assert line[|LabelToken(k)| + 1..] == text;
    LabelRoundTrip(k);
  }

  /** The label and the text a writable record is written with. */
  function Written(item: Record): (int, string)
    requires Writable(item)
  {
    (LabelNumber(item["label"]).value, PrintText(item["text0"]).value)
  }

  /**
    The file holds one line per record, in order, and each line reads back as
    the record's label and text, as long as no text holds a newline.
   */
  lemma {:induction false} FileRoundTrip(rows: seq<Record>, i: nat)
    requires FormatRecords(rows).Success?
    requires forall k :: 0 <= k < |rows| ==> '\n' !in Written(rows[k]).1
    requires i < |rows|
    ensures |SplitLines(FormatRecords(rows).value)| == |rows|
    ensures ParseLine(SplitLines(FormatRecords(rows).value)[i]) == Some((Success(Written(rows[i]).0), Written(rows[i]).1))
  {
    FirstLine(rows);
    if i == 0 {
      LineRoundTrip(Written(rows[0]).0, Written(rows[0]).1);
      if |rows| > 1 {
        FileRoundTrip(rows[1..], 0);
      }
    } else {
      assert rows[i] == rows[1..][i - 1];
      FileRoundTrip(rows[1..], i - 1);
    }
  }

  /** The first line of a file is the first record's line. */
  lemma FirstLine(rows: seq<Record>)
    requires rows != [] && FormatRecords(rows).Success?
    requires '\n' !in Written(rows[0]).1
    ensures FormatRecords(rows[1..]).Success?
    ensures SplitLines(FormatRecords(rows).value) ==
              [LabelToken(Written(rows[0]).0) + " " + Written(rows[0]).1] + SplitLines(FormatRecords(rows[1..]).value)
  {
    var w := Written(rows[0]);
    FormatRecordsCons(rows);
    LineHasNoNewline(w.0, w.1);
    SplitLinesCons(LabelToken(w.0) + " " + w.1, FormatRecords(rows[1..]).value);
  }

  /** A successful file is the first record's line followed by the rest. */
  lemma FormatRecordsCons(rows: seq<Record>)
    requires rows != [] && FormatRecords(rows).Success?
    ensures Writable(rows[0]) && FormatRecords(rows[1..]).Success?
    ensures FormatRecords(rows).value ==
              (LabelToken(Written(rows[0]).0) + " " + Written(rows[0]).1) + "\n" + FormatRecords(rows[1..]).value
  {
  }

  lemma LineHasNoNewline(k: int, text: string)
    requires '\n' !in text
    ensures '\n' !in LabelToken(k) + " " + text
  {
    FormatIntChars(k);
    var line := LabelToken(k) + " " + text;
    forall j | 0 <= j < |line| ensures line[j] != '\n' {
      if 9 <= j < |LabelToken(k)| {
        assert line[j] == FormatInt(k)[j - 9];
      } else if j > |LabelToken(k)| {
        assert line[j] == text[j - |LabelToken(k)| - 1];
      }
    }
  }

  // ----- the model file and n_class -----

  /** `"fasttext_model_ngram_%d_epoch_%d.bin" % (ngram, epoch)`. */
  function ModelFilename(ngram: int, epoch: int): string {
    "fasttext_model_ngram_" + (FormatInt(ngram) + ("_epoch_" + (FormatInt(epoch) + ".bin")))
  }

  /** `os.path.join(get_root_dir(), "fasttext_clf", dataset_name, <model file name>)`. */
  function ModelPath(root: string, datasetName: string, ngram: int, epoch: int): string {
    Join(Join(Join(root, "fasttext_clf"), datasetName), ModelFilename(ngram, epoch))
  }

  lemma FormatHasNoUnderscore(i: int)
    ensures '_' !in FormatInt(i)
  {
    FormatIntChars(i);
  }

  /** Cutting at the first `_` recovers both halves. */
  lemma SplitAtUnderscore(a: string, b: string, c: string, d: string)
    requires '_' !in a && '_' !in c
    requires a + b == c + d
    requires |b| > 0 && b[0] == '_' && |d| > 0 && d[0] == '_'
    ensures a == c && b == d
  {
    assert a == (a + b)[..|a|] && c == (c + d)[..|c|];
    assert b == (a + b)[|a|..] && d == (c + d)[|c|..];
  }

  lemma PrefixCancel(p: string, x: string, y: string)
    requires p + x == p + y
    ensures x == y
  {
    assert x == (p + x)[|p|..] && y == (p + y)[|p|..];
  }

  lemma SuffixCancel(x: string, y: string, t: string)
    requires x + t == y + t
    ensures x == y
  {
    assert x == (x + t)[..|x|] && y == (y + t)[..|y|];
  }

  /** Different (ngram, epoch) settings never share a cached model file. */
  lemma ModelFilenameInjective(n1: int, e1: int, n2: int, e2: int)
    ensures ModelFilename(n1, e1) == ModelFilename(n2, e2) <==> n1 == n2 && e1 == e2
  {
    if ModelFilename(n1, e1) == ModelFilename(n2, e2) {
      var t1 := FormatInt(e1) + ".bin";
      var t2 := FormatInt(e2) + ".bin";
      PrefixCancel("fasttext_model_ngram_", FormatInt(n1) + ("_epoch_" + t1), FormatInt(n2) + ("_epoch_" + t2));
      FormatHasNoUnderscore(n1);
      FormatHasNoUnderscore(n2);
      SplitAtUnderscore(FormatInt(n1), "_epoch_" + t1, FormatInt(n2), "_epoch_" + t2);
      FormatInjective(n1, n2);
      PrefixCancel("_epoch_", t1, t2);
      SuffixCancel(FormatInt(e1), FormatInt(e2), ".bin");
      FormatInjective(e1, e2);
    }
  }

  /** Where the classifier's model came from: the cache, or training on the two files written. */
  datatype Origin = Loaded | Trained(trainFile: string, testFile: string)

  datatype FasttextModel = FasttextModel(nClass: nat, path: string, origin: Origin)

  /**
    `FasttextClassifier.__init__`: load the cached model if its file exists,
    otherwise write the training and test files, train and save. Either way
    the class count is the size of the training set's label mapping. `disk`
    is the set of files that exist.
   */
  function Init(root: string, datasetName: string, trainset: Dict<Value>, testset: Dict<Value>,
                ngram: int, epoch: int, disk: set<string>): (r: Result<FasttextModel>)
    ensures r.Success? ==> LabelCount(trainset).Success? && r.value.nClass == LabelCount(trainset).value
    ensures r.Success? ==> r.value.path == ModelPath(root, datasetName, ngram, epoch)
    ensures ModelPath(root, datasetName, ngram, epoch) in disk ==>
              (r.Success? <==> LabelCount(trainset).Success?) && (r.Success? ==> r.value.origin == Loaded)
    ensures ModelPath(root, datasetName, ngram, epoch) !in disk ==>
              (r.Success? <==> ChangeToFasttextFormat(trainset).Success? && ChangeToFasttextFormat(testset).Success?
                               && LabelCount(trainset).Success?)
    ensures ModelPath(root, datasetName, ngram, epoch) !in disk && r.Success? ==>
              r.value.origin == Trained(ChangeToFasttextFormat(trainset).value, ChangeToFasttextFormat(testset).value)
  {
    var path := ModelPath(root, datasetName, ngram, epoch);
    if path in disk then
      var n :- LabelCount(trainset);
      Success(FasttextModel(n, path, Loaded))
    else
      var trainFile :- ChangeToFasttextFormat(trainset);
      var testFile :- ChangeToFasttextFormat(testset);
      var n :- LabelCount(trainset);
      Success(FasttextModel(n, path, Trained(trainFile, testFile)))
  }

  /** Loading and training agree on the class count: whichever path runs, it is the label mapping's size. */
  lemma ClassCountEitherPath(root: string, datasetName: string, trainset: Dict<Value>, testset: Dict<Value>,
                             ngram: int, epoch: int, cached: set<string>, uncached: set<string>)
    requires ModelPath(root, datasetName, ngram, epoch) in cached
    requires ModelPath(root, datasetName, ngram, epoch) !in uncached
    requires Init(root, datasetName, trainset, testset, ngram, epoch, uncached).Success?
    ensures Init(root, datasetName, trainset, testset, ngram, epoch, cached).Success?
    ensures Init(root, datasetName, trainset, testset, ngram, epoch, cached).value.nClass ==
            Init(root, datasetName, trainset, testset, ngram, epoch, uncached).value.nClass
  {
  }

  // ----- predict_dist_example -----

  /**
    The vector slot `ret[idx]` writes for a label: numpy counts a negative
    index from the end, and an index outside `-n_class..n_class-1` raises.
   */
  function Slot(nClass: nat, token: string): (r: Result<nat>)
    ensures r.Success? ==> r.value < nClass
  {
    var idx :- LabelIndex(token);
    if 0 <= idx < nClass then Success(idx)
    else if idx < 0 && idx + nClass >= 0 then
      var wrapped: nat := idx + nClass;
      Success(wrapped)
    else Failure(IndexError(idx))
  }

  /**
    What slot `j` of the vector holds after `predictions` have been written:
    the probability of the last prediction that lands on it, 0 if none does.
   */
  function Latest(nClass: nat, predictions: seq<(string, real)>, j: nat): real {
    if predictions == [] then 0.0
    else
      var last := predictions[|predictions| - 1];
      if Slot(nClass, last.0) == Success(j) then last.1 else Latest(nClass, predictions[..|predictions| - 1], j)
  }

  /**
    `predict_dist_example`: `predictions` are the (label, probability) pairs
    `self._model.predict(paraphrase, k=self._n_class)` returns; each label's
    probability is written into a zero vector of length `n_class`.
   */
  method PredictDist(nClass: nat, predictions: seq<(string, real)>) returns (r: Result<seq<real>>)
    ensures r.Success? <==> forall i :: 0 <= i < |predictions| ==> Slot(nClass, predictions[i].0).Success?
    ensures r.Failure? ==>
              exists i :: 0 <= i < |predictions| && Slot(nClass, predictions[i].0).Failure? &&
                r.error == Slot(nClass, predictions[i].0).error &&
                forall k :: 0 <= k < i ==> Slot(nClass, predictions[k].0).Success?
    ensures r.Success? ==> |r.value| == nClass
    ensures r.Success? ==> forall j :: 0 <= j < nClass ==> r.value[j] == Latest(nClass, predictions, j)
  {
    var ret := seq(nClass, _ => 0.0);
    var i := 0;
    while i < |predictions|
      invariant 0 <= i <= |predictions|
      invariant |ret| == nClass
      invariant forall k :: 0 <= k < i ==> Slot(nClass, predictions[k].0).Success?
      invariant forall j :: 0 <= j < nClass ==> ret[j] == Latest(nClass, predictions[..i], j)
    {
      var slot := Slot(nClass, predictions[i].0);
      if slot.Failure? {
        return Failure(slot.error);
      }
      assert predictions[..i + 1][..i] == predictions[..i];
      ret := ret[slot.value := predictions[i].1];
      i := i + 1;
    }
    assert predictions[..i] == predictions;
    return Success(ret);
  }

  /** A slot no prediction lands on stays 0. */
  lemma {:induction false} LatestUntouched(nClass: nat, predictions: seq<(string, real)>, j: nat)
    requires forall i :: 0 <= i < |predictions| ==> Slot(nClass, predictions[i].0) != Success(j)
    ensures Latest(nClass, predictions, j) == 0.0
  {
    if predictions != [] {
      var n := |predictions| - 1;
      assert forall i :: 0 <= i < n ==> predictions[..n][i] == predictions[i];
      LatestUntouched(nClass, predictions[..n], j);
    }
  }

  /**
    The label encode/decode round trip: one prediction for the label token of
    class `k` yields the vector that holds its probability at `k` and 0 elsewhere.
   */
  lemma OneHot(nClass: nat, k: nat, p: real, j: nat)
    requires k < nClass
    ensures Slot(nClass, LabelToken(k)) == Success(k)
    ensures Latest(nClass, [(LabelToken(k), p)], j) == (if j == k then p else 0.0)
  {
    LabelRoundTrip(k);
    assert [(LabelToken(k), p)][..0] == [];
  }
}

=== FILE: launcher.dfy ===
/**
  scripts/benchmark_launcher.py: the benchmark command lines for every
  (dataset, strategy) pair, assembled segment by segment from fixed
  configuration dictionaries. Running the commands is not modelled; the
  launcher's result is the list of commands it would run, in order.
 */
module Launcher {
  import opened Common
  import opened PyText
  import opened OrderedDict

  /** The scalars the configuration dictionaries hold; a float keeps the text `str` prints for it. */
  datatype Scalar = SStr(s: string) | SInt(i: int) | SFloat(repr: string)

  /** `str(v)`. */
  function PyStr(v: Scalar): string {
    match v
    case SStr(s) => s
    case SInt(i) => FormatInt(i)
    case SFloat(repr) => repr
  }

  type Config = Dict<Scalar>

  // ----- to_command -----

  /** `to_command`: every entry becomes its key followed by `str(value)`, in dictionary order. */
  function ToCommand(args: Config): (tokens: seq<string>)
    ensures |tokens| == 2 * |args|
  {
    if args == [] then [] else [args[0].0, PyStr(args[0].1)] + ToCommand(args[1..])
  }

  /** Reads a command-line fragment back as (flag, value text) pairs. */
  function Pairs(tokens: seq<string>): seq<(string, string)>
    decreases |tokens|
  {
    if |tokens| < 2 then [] else [(tokens[0], tokens[1])] + Pairs(tokens[2..])
  }

  /** `to_command` loses nothing but the value types: its tokens pair up into the dictionary's keys and value texts. */
  lemma {:induction false} PairsOfCommand(args: Config)
    ensures Pairs(ToCommand(args)) == seq(|args|, i requires 0 <= i < |args| => (args[i].0, PyStr(args[i].1)))
  {
    if args != [] {
      PairsOfCommand(args[1..]);
      assert ToCommand(args)[2..] == ToCommand(args[1..]);
    }
  }

  // ----- the asrs overlay -----

  /**
    The five tables `main` reads. The launcher's own tables are
    `LauncherConfig.LauncherTables`; the operations below take the tables as a parameter so
    that their proofs do not depend on the tables' contents.
   */
  datatype Tables = Tables(common: Config, gpu: Dict<Config>, dataset: Dict<Config>, defense: Dict<Config>, strategy: Dict<Config>)

  /** `strategy[:4] == "asrs"`. */
  predicate IsAsrs(strategy: string) {
    Take(strategy, 4) == "asrs"
  }

  /**
    The strategy segment: a strategy whose name starts with `asrs` gets a copy
    of the `asrs` configuration with the variant's entries written over it;
    any other strategy gets its own configuration.
   */
  function EffectiveStrategy(t: Tables, strategy: string): Config
    requires "asrs" in Keys(t.strategy) && strategy in Keys(t.strategy)
  {
    var own := Get(t.strategy, strategy).value;
    if IsAsrs(strategy) then
      var base := Get(t.strategy, "asrs").value;
      if strategy != "asrs" then Update(base, own) else base
    else own
  }

  /**
    An `asrs` variant's effective configuration keeps every base key in its
    place, takes the variant's value for the keys the variant sets, keeps the
    base value for the rest, and has no other keys; any other strategy's
    segment is its own configuration.
   */
  lemma StrategyOverlay(t: Tables, strategy: string)
    requires "asrs" in Keys(t.strategy) && strategy in Keys(t.strategy)
    requires DistinctKeys(Get(t.strategy, strategy).value)
    ensures var own := Get(t.strategy, strategy).value;
            var base := Get(t.strategy, "asrs").value;
            var eff := EffectiveStrategy(t, strategy);
            && (!IsAsrs(strategy) ==> eff == own)
            && (strategy == "asrs" ==> eff == base)
            && (IsAsrs(strategy) && strategy != "asrs" ==>
                  && Keys(base) <= Keys(eff)
                  && (forall k :: k in Keys(own) ==> Get(eff, k) == Get(own, k))
                  && (forall k :: k !in Keys(own) ==> Get(eff, k) == Get(base, k))
                  && (forall k :: k in Keys(eff) <==> k in Keys(base) || k in Keys(own)))
  {
    if IsAsrs(strategy) && strategy != "asrs" {
      UpdateOverrides(Get(t.strategy, "asrs").value, Get(t.strategy, strategy).value);
    }
  }

  // ----- main -----

  /** The parsed command line of `main`. */
  datatype LaunchArgs = LaunchArgs(
    gpu: string,
    dataset: string,
    strategy: string,
    robustDesc: Option<string>,
    robustTuning: string,
    defense: string)

  /** `"all"` expands to every key of the table, in order; anything else is itself. */
  function Selection(choice: string, table: Dict<Config>): (names: seq<string>)
    ensures choice == "all" ==> names == Keys(table)
    ensures choice != "all" ==> names == [choice]
  {
    if choice == "all" then Keys(table) else [choice]
  }

  const Prefix: seq<string> := ["python3", "-m", "fibber.benchmark.benchmark"]

  /** The common flags after `main` has applied `--robust_tuning 1`. */
  function CommonFor(common: Config, robustTuning: string): Config {
    if robustTuning == "1" then Set(common, "--robust_tuning", SStr("1")) else common
  }

  /**
    `--robust_tuning 1` sets that one flag to "1" and leaves every other flag
    and the flags' order alone; any other value changes nothing.
   */
  lemma RobustTuningFlag(common: Config, robustTuning: string)
    ensures robustTuning == "1" ==> Get(CommonFor(common, robustTuning), "--robust_tuning") == Some(SStr("1"))
    ensures robustTuning != "1" ==> CommonFor(common, robustTuning) == common
    ensures forall k :: k != "--robust_tuning" ==> Get(CommonFor(common, robustTuning), k) == Get(common, k)
    ensures "--robust_tuning" in Keys(common) ==> Keys(CommonFor(common, robustTuning)) == Keys(common)
  {
    if robustTuning == "1" {
      SetLookup(common, "--robust_tuning", SStr("1"));
    }
  }

  /** The segment `--load_robust_tuned_clf <desc>`, present only when a description was given. */
  function RobustSegment(desc: Option<string>): seq<string> {
    if desc.Some? then ToCommand([("--load_robust_tuned_clf", SStr(desc.value))]) else []
  }

  /** The part every command of one launch shares: the invocation, the robust-model flag and the common flags. */
  function Head(common: Config, args: LaunchArgs): seq<string> {
    Prefix + RobustSegment(args.robustDesc) + ToCommand(CommonFor(common, args.robustTuning))
  }

  /**
    The head starts with the module invocation, then the robust-model flag and
    its value when a description is given, then the common flags and nothing else.
   */
  lemma HeadShape(common: Config, args: LaunchArgs)
    ensures var h := Head(common, args);
            var k := if args.robustDesc.Some? then 5 else 3;
            && |h| >= k
            && h[..3] == Prefix
            && (args.robustDesc.Some? ==> h[3] == "--load_robust_tuned_clf" && h[4] == args.robustDesc.value)
            && h[k..] == ToCommand(CommonFor(common, args.robustTuning))
  {
    var h := Head(common, args);
    var r := RobustSegment(args.robustDesc);
    assert |r| == if args.robustDesc.Some? then 2 else 0;
    assert h[..3] == Prefix;
    assert h[|Prefix + r|..] == ToCommand(CommonFor(common, args.robustTuning));
  }

  /** One command: the shared head, then the gpu, dataset, defense and strategy flags. */
  function Command(head: seq<string>, gpu: Config, dataset: Config, defense: Config, strategy: Config): seq<string> {
    head + ToCommand(gpu) + ToCommand(dataset) + ToCommand(defense) + ToCommand(strategy)
  }

  /** After the head, a command is exactly the flags of the four configurations, in that order. */
  lemma CommandTail(head: seq<string>, gpu: Config, dataset: Config, defense: Config, strategy: Config)
    ensures var c := Command(head, gpu, dataset, defense, strategy);
            |c| >= |head| && c[..|head|] == head && c[|head|..] == ToCommand(gpu + dataset + defense + strategy)
  {
    var a, b, c, d := ToCommand(gpu), ToCommand(dataset), ToCommand(defense), ToCommand(strategy);
    ToCommandConcat(gpu + dataset + defense, strategy);
    ToCommandConcat(gpu + dataset, defense);
    ToCommandConcat(gpu, dataset);
    assert ToCommand(gpu + dataset + defense + strategy) == a + b + c + d;
    Assoc4(head, a, b, c, d);
  }

  lemma Assoc4<T>(h: seq<T>, a: seq<T>, b: seq<T>, c: seq<T>, d: seq<T>)
    ensures var all := h + a + b + c + d;
            |all| >= |h| && all[..|h|] == h && all[|h|..] == a + b + c + d
  {
    var all := h + a + b + c + d;
    assert all == h + (a + b + c + d);
  }

  /** `to_command` of a concatenation is the concatenation of the `to_command`s. */
  lemma {:induction false} ToCommandConcat(a: Config, b: Config)
    ensures ToCommand(a + b) == ToCommand(a) + ToCommand(b)
  {
    if a == [] {
      assert a + b == b;
    } else {
      assert (a + b)[1..] == a[1..] + b;
      ToCommandConcat(a[1..], b);
    }
  }

  /** One dataset's commands, one per strategy configuration, in order. */
  function Row(head: seq<string>, gpu: Config, dataset: Config, defense: Config, strategies: seq<Config>): (row: seq<seq<string>>)
    ensures |row| == |strategies|
  {
    if strategies == [] then []
    else
      var n := |strategies| - 1;
      Row(head, gpu, dataset, defense, strategies[..n]) + [Command(head, gpu, dataset, defense, strategies[n])]
  }

  /** One row per dataset configuration, in order. */
  function Table(head: seq<string>, gpu: Config, datasets: seq<Config>, defense: Config, strategies: seq<Config>): (rows: seq<seq<seq<string>>>)
    ensures |rows| == |datasets|
  {
    if datasets == [] then []
    else
      var n := |datasets| - 1;
      Table(head, gpu, datasets[..n], defense, strategies) + [Row(head, gpu, datasets[n], defense, strategies)]
  }

  /**
    The commands `main` runs, in order: for the `i`-th selected dataset and the
    `j`-th selected strategy, the command with their configurations sits at
    `i * |strategies| + j`, and there are no others.
   */
  lemma {:induction false} CommandAt(head: seq<string>, gpu: Config, datasets: seq<Config>, defense: Config,
                                     strategies: seq<Config>, i: nat, j: nat)
    requires i < |datasets| && j < |strategies|
    ensures |Concat(Table(head, gpu, datasets, defense, strategies))| == |datasets| * |strategies|
    ensures i * |strategies| + j < |Concat(Table(head, gpu, datasets, defense, strategies))|
    ensures Concat(Table(head, gpu, datasets, defense, strategies))[i * |strategies| + j]
         == Command(head, gpu, datasets[i], defense, strategies[j])
  {
    var rows := Table(head, gpu, datasets, defense, strategies);
    forall k | 0 <= k < |rows| ensures rows[k] == Row(head, gpu, datasets[k], defense, strategies) {
      TableAt(head, gpu, datasets, defense, strategies, k);
    }
    ConcatLength(rows, |strategies|);
    ConcatAt(rows, |strategies|, i, j);
    RowAt(head, gpu, datasets[i], defense, strategies, j);
  }

  lemma {:induction false} RowAt(head: seq<string>, gpu: Config, dataset: Config, defense: Config, strategies: seq<Config>, j: nat)
    requires j < |strategies|
    ensures Row(head, gpu, dataset, defense, strategies)[j] == Command(head, gpu, dataset, defense, strategies[j])
  {
    var n := |strategies| - 1;
    if j < n {
      RowAt(head, gpu, dataset, defense, strategies[..n], j);
    }
  }

  lemma {:induction false} TableAt(head: seq<string>, gpu: Config, datasets: seq<Config>, defense: Config, strategies: seq<Config>, i: nat)
    requires i < |datasets|
    ensures Table(head, gpu, datasets, defense, strategies)[i] == Row(head, gpu, datasets[i], defense, strategies)
  {
    var n := |datasets| - 1;
    if i < n {
      TableAt(head, gpu, datasets[..n], defense, strategies, i);
    }
  }

  /** The configurations of the named entries, in order. */
  function Resolve(table: Dict<Config>, names: seq<string>): (configs: seq<Config>)
    ensures |configs| == |names|
  {
    if names == [] then []
    else
      var n := |names| - 1;
      Resolve(table, names[..n]) + [match Get(table, names[n]) case Some(c) => c case None => []]
  }

  /** Entry `i` of the resolved configurations is what the table holds under name `i`. */
  lemma {:induction false} ResolveAt(table: Dict<Config>, names: seq<string>, i: nat)
    requires i < |names| && names[i] in Keys(table)
    ensures Get(table, names[i]) == Some(Resolve(table, names)[i])
  {
    var n := |names| - 1;
    if i < n {
      ResolveAt(table, names[..n], i);
    }
  }

  /** The effective strategy configurations of the named strategies, in order. */
  function ResolveStrategies(t: Tables, names: seq<string>): (configs: seq<Config>)
    ensures |configs| == |names|
  {
    if names == [] then []
    else
      var n := |names| - 1;
      var last := if "asrs" in Keys(t.strategy) && names[n] in Keys(t.strategy) then EffectiveStrategy(t, names[n]) else [];
      ResolveStrategies(t, names[..n]) + [last]
  }

  /** Entry `i` of the resolved strategies is the effective configuration of strategy `i`. */
  lemma {:induction false} ResolveStrategiesAt(t: Tables, names: seq<string>, i: nat)
    requires "asrs" in Keys(t.strategy)
    requires i < |names| && names[i] in Keys(t.strategy)
    ensures ResolveStrategies(t, names)[i] == EffectiveStrategy(t, names[i])
  {
    var n := |names| - 1;
    if i < n {
      ResolveStrategiesAt(t, names[..n], i);
    }
  }

  /** Some `--gpu`, `--dataset` or `--strategy` value lies outside argparse's choices. */
  predicate InvalidArgs(t: Tables, args: LaunchArgs) {
    || args.gpu !in Keys(t.gpu)
    || (args.dataset != "all" && args.dataset !in Keys(t.dataset))
    || (args.strategy != "all" && args.strategy !in Keys(t.strategy))
  }

  /**
    `main`: argparse rejects a `--gpu`, `--dataset` or `--strategy` outside
    its choices, naming one of the offending options; otherwise the commands
    are the rows of the table laid end to end, one row per selected dataset
    and, within a row, one command per selected strategy (`CommandAt` gives
    the index of each). The defense is looked up inside the loops, so an
    unknown one fails only when there is at least one (dataset, strategy)
    pair, and otherwise nothing is launched.
   */
  method Launch(t: Tables, args: LaunchArgs) returns (r: Result<seq<seq<string>>>)
    requires "asrs" in Keys(t.strategy)
    ensures InvalidArgs(t, args) ==> r.Failure? && r.error.InvalidChoice?
    ensures r.Failure? && r.error.InvalidChoice? ==>
              || (r.error.option == "--gpu" && args.gpu !in Keys(t.gpu))
              || (r.error.option == "--dataset" && args.dataset != "all" && args.dataset !in Keys(t.dataset))
              || (r.error.option == "--strategy" && args.strategy != "all" && args.strategy !in Keys(t.strategy))
    ensures r.Failure? <==>
              || InvalidArgs(t, args)
              || (args.defense !in Keys(t.defense)
                  && Selection(args.dataset, t.dataset) != []
                  && Selection(args.strategy, t.strategy) != [])
    ensures r.Failure? && !InvalidArgs(t, args) ==> r.error == KeyError(args.defense)
    ensures r.Success? && args.defense !in Keys(t.defense) ==> r.value == []
    ensures r.Success? && args.defense in Keys(t.defense) ==>
              && args.gpu in Keys(t.gpu)
              && r.value == Concat(Table(Head(t.common, args),
                                         Get(t.gpu, args.gpu).value,
                                         Resolve(t.dataset, Selection(args.dataset, t.dataset)),
                                         Get(t.defense, args.defense).value,
                                         ResolveStrategies(t, Selection(args.strategy, t.strategy))))
  {
    if args.gpu !in Keys(t.gpu) {
      return Failure(InvalidChoice("--gpu"));
    }
    if args.dataset != "all" && args.dataset !in Keys(t.dataset) {
      return Failure(InvalidChoice("--dataset"));
    }
    if args.strategy != "all" && args.strategy !in Keys(t.strategy) {
      return Failure(InvalidChoice("--strategy"));
    }
    var ds := Selection(args.dataset, t.dataset);
    var ss := Selection(args.strategy, t.strategy);
    if args.defense !in Keys(t.defense) {
      if ds != [] && ss != [] {
        return Failure(KeyError(args.defense));
      }
      return Success([]);
    }
    var head := Head(t.common, args);
    var gpu := Get(t.gpu, args.gpu).value;
    var defense := Get(t.defense, args.defense).value;
    var dsc := Resolve(t.dataset, ds);
    var ssc := ResolveStrategies(t, ss);
    var commands := GridLoop(head, gpu, dsc, defense, ssc);
    r := Success(commands);
  }

  /** The two nested loops of `main`. */
  method GridLoop(head: seq<string>, gpu: Config, datasets: seq<Config>, defense: Config, strategies: seq<Config>)
    returns (commands: seq<seq<string>>)
    ensures commands == Concat(Table(head, gpu, datasets, defense, strategies))
  {
    commands := [];
    var i := 0;
    while i < |datasets|
      invariant 0 <= i <= |datasets|
      invariant commands == Concat(Table(head, gpu, datasets[..i], defense, strategies))
    {
      var row := [];
      var j := 0;
      while j < |strategies|
        invariant 0 <= j <= |strategies|
        invariant row == Row(head, gpu, datasets[i], defense, strategies[..j])
      {
        assert strategies[..j + 1][..j] == strategies[..j];
        row := row + [Command(head, gpu, datasets[i], defense, strategies[j])];
        j := j + 1;
      }
      assert strategies[..j] == strategies;
      assert datasets[..i + 1][..i] == datasets[..i];
      commands := commands + row;
      i := i + 1;
    }
    assert datasets[..i] == datasets;
  }

  /** The rows laid end to end. */
  function Concat<T>(rows: seq<seq<T>>): seq<T> {
    if rows == [] then [] else Concat(rows[..|rows| - 1]) + rows[|rows| - 1]
  }

  lemma Distribute(n: nat, m: nat)
    ensures (n + 1) * m == n * m + m
  {
  }

  lemma {:induction false} ConcatLength<T>(rows: seq<seq<T>>, m: nat)
    requires forall k :: 0 <= k < |rows| ==> |rows[k]| == m
    ensures |Concat(rows)| == |rows| * m
  {
    if rows != [] {
      ConcatLength(rows[..|rows| - 1], m);
      Distribute(|rows| - 1, m);
    }
  }

  /** In rows of equal length `m`, element `j` of row `i` sits at `i * m + j` of the concatenation. */
  lemma {:induction false} ConcatAt<T>(rows: seq<seq<T>>, m: nat, i: nat, j: nat)
    requires forall k :: 0 <= k < |rows| ==> |rows[k]| == m
    requires i < |rows| && j < m
    ensures i * m + j < |Concat(rows)| && Concat(rows)[i * m + j] == rows[i][j]
  {
    var n := |rows| - 1;
    ConcatLength(rows, m);
    ConcatLength(rows[..n], m);
    if i < n {
      MulBound(i, j, n, m);
      ConcatAt(rows[..n], m, i, j);
    }
  }

  lemma MulBound(i: nat, j: nat, n: nat, m: nat)
    requires i < n && j < m
    ensures i * m + j < n * m
  {
    Distribute(i, m);
    MulMono(i + 1, n, m);
  }
}

=== FILE: launcher_config.dfy ===
/** The configuration tables at the top of scripts/benchmark_launcher.py, in their insertion order. */
module LauncherConfig {
  import opened OrderedDict
  import opened Launcher

  const CommonConfig: Config := [
    ("--subsample_testset", SInt(1000)),
    ("--num_paraphrases_per_text", SInt(50)),
    ("--robust_tuning", SStr("0")),
    ("--robust_tuning_steps", SInt(5000))]

  const DefenseConfig: Dict<Config> := [
    ("none", []),
    ("sem", [("--bert_clf_enable_sem", SStr("1"))]),
    ("lmag", [("--bert_clf_enable_lmag", SStr("1"))])]

  const GpuConfig: Dict<Config> := [
    ("0", [("--bert_gpu_id", SInt(0)), ("--use_gpu_id", SInt(0)), ("--gpt2_gpu_id", SInt(0)),
           ("--strategy_gpu_id", SInt(0)), ("--ce_gpu_id", SInt(0))]),
    ("1", [("--bert_gpu_id", SInt(1)), ("--use_gpu_id", SInt(1)), ("--gpt2_gpu_id", SInt(1)),
           ("--ce_gpu_id", SInt(1)), ("--strategy_gpu_id", SInt(1))])]

  function DatasetEntry(name: string, steps: int): (string, Config) {
    (name, [("--dataset", SStr(name)), ("--output_dir", SStr("exp-" + name)), ("--bert_clf_steps", SInt(steps))])
  }

  const DatasetConfig: Dict<Config> := [
    DatasetEntry("ag_no_title", 20000),
    DatasetEntry("mr", 5000),
    DatasetEntry("imdb", 5000),
    DatasetEntry("yelp", 20000),
    DatasetEntry("snli", 20000),
    DatasetEntry("mnli", 20000),
    DatasetEntry("mnli_mis", 20000),
    DatasetEntry("sst2", 20000),
    DatasetEntry("qnli", 20000)]

  const AsrsConfig: Config := [
    ("--strategy", SStr("ASRSStrategy")),
    ("--asrs_enforcing_dist", SStr("wpe")),
    ("--asrs_wpe_threshold", SFloat("1.0")),
    ("--asrs_wpe_weight", SInt(1000)),
    ("--asrs_sim_threshold", SFloat("0.95")),
    ("--asrs_sim_weight", SInt(500)),
    ("--asrs_ppl_weight", SInt(5)),
    ("--asrs_sampling_steps", SInt(200)),
    ("--asrs_burnin_steps", SInt(100)),
    ("--asrs_clf_weight", SInt(3)),
    ("--asrs_window_size", SInt(3)),
    ("--asrs_accept_criteria", SStr("joint_weighted_criteria")),
    ("--asrs_burnin_enforcing_schedule", SStr("1")),
    ("--asrs_burnin_criteria_schedule", SStr("1")),
    ("--asrs_seed_option", SStr("dynamic_len")),
    ("--asrs_split_sentence", SStr("1")),
    ("--asrs_lm_option", SStr("finetune")),
    ("--asrs_stanza_port", SInt(9001)),
    ("--asrs_sim_metric", SStr("CESimilarityMetric")),
    ("--robust_tune_num_attack_per_step", SInt(5))]

  const StrategyConfig: Dict<Config> := [
    ("identity", [("--strategy", SStr("IdentityStrategy"))]),
    ("random", [("--strategy", SStr("RandomStrategy"))]),
    ("textfooler", [("--strategy", SStr("TextAttackStrategy")), ("--ta_recipe", SStr("TextFoolerJin2019")),
                    ("--robust_tune_num_attack_per_step", SInt(20))]),
    ("pso", [("--strategy", SStr("OpenAttackStrategy")), ("--ta_recipe", SStr("PSOAttacker")),
             ("--robust_tune_num_attack_per_step", SInt(5))]),
    ("bertattack", [("--strategy", SStr("OpenAttackStrategy")), ("--oa_recipe", SStr("BERTAttacker")),
                    ("--robust_tune_num_attack_per_step", SInt(5))]),
    ("bae", [("--strategy", SStr("OpenAttackStrategy")), ("--oa_recipe", SStr("BAEAttacker")),
             ("--robust_tune_num_attack_per_step", SInt(5))]),
    ("scpn", [("--strategy", SStr("OpenAttackStrategy")), ("--oa_recipe", SStr("SCPNAttacker")),
              ("--robust_tune_num_attack_per_step", SInt(5))]),
    ("gsa", [("--strategy", SStr("TextAttackStrategy")), ("--ta_recipe", SStr("Kuleshov2017")),
             ("--robust_tune_num_attack_per_step", SInt(5))]),
    ("pwws", [("--strategy", SStr("TextAttackStrategy")), ("--ta_recipe", SStr("PWWSRen2019")),
              ("--robust_tune_num_attack_per_step", SInt(5))]),
    ("asrs", AsrsConfig),
    ("fu", [("--strategy", SStr("FudgeStrategy"))]),
    ("asrs-nli", [("--asrs_sim_weight", SInt(100)), ("--asrs_ppl_weight", SInt(3)), ("--asrs_clf_weight", SInt(3))]),
    ("asrs-u", [("--asrs_sim_metric", SStr("USESimilarityMetric")),
                ("--best_adv_metric_name", SStr("USESimilarityMetric"))]),
    ("asrs-u-nli", [("--asrs_sim_weight", SInt(100)), ("--asrs_ppl_weight", SInt(3)), ("--asrs_clf_weight", SInt(3)),
                    ("--asrs_sim_metric", SStr("USESimilarityMetric")),
                    ("--best_adv_metric_name", SStr("USESimilarityMetric"))])]

  const LauncherTables: Tables := Tables(CommonConfig, GpuConfig, DatasetConfig, DefenseConfig, StrategyConfig)

  /** The `asrs` base the variants build on exists. */
  lemma AsrsBaseExists()
    ensures "asrs" in Keys(StrategyConfig)
  {
    assert StrategyConfig[9].0 == "asrs";
  }

  /** Each `asrs` variant sets each flag once, so its overlay is well defined. */
  lemma AsrsVariantsDistinct()
    ensures DistinctKeys(StrategyConfig[11].1) && DistinctKeys(StrategyConfig[12].1) && DistinctKeys(StrategyConfig[13].1)
    ensures StrategyConfig[11].0 == "asrs-nli" && StrategyConfig[12].0 == "asrs-u" && StrategyConfig[13].0 == "asrs-u-nli"
  {
  }
}

=== FILE: ordered_dict.dfy ===
/**
  Python's `dict` keeps its keys in insertion order, and fibber relies on that
  order when it flattens a configuration into command-line tokens. A dictionary
  is therefore modelled as a sequence of (key, value) entries.
 */
module OrderedDict {
  import opened Common

  type Dict<V> = seq<(string, V)>

  /** `list(d.keys())`. */
  function Keys<V>(d: Dict<V>): (ks: seq<string>)
    ensures |ks| == |d|
    ensures forall i :: 0 <= i < |d| ==> ks[i] == d[i].0
  {
    if d == [] then [] else [d[0].0] + Keys(d[1..])
  }

  lemma KeysAppend<V>(d: Dict<V>, k: string, v: V)
    ensures Keys(d + [(k, v)]) == Keys(d) + [k]
  {
  }

  /** Python dictionaries never hold a key twice. */
  predicate DistinctKeys<V>(d: Dict<V>) {
    forall i, j :: 0 <= i < j < |d| ==> d[i].0 != d[j].0
  }

  /** `d.get(k)`: the value stored under `k`, if any. */
  function Get<V>(d: Dict<V>, k: string): (r: Option<V>)
    ensures r.Some? <==> k in Keys(d)
  {
    if d == [] then None
    else if d[0].0 == k then Some(d[0].1)
    else Get(d[1..], k)
  }

  /**
    `d[k] = v`: an existing key keeps its position and takes the new value;
    a new key is appended at the end.
   */
  function Set<V>(d: Dict<V>, k: string, v: V): (r: Dict<V>)
    ensures k in Keys(d) ==> Keys(r) == Keys(d)
    ensures k !in Keys(d) ==> r == d + [(k, v)]
  {
    if d == [] then [(k, v)]
    else if d[0].0 == k then [(k, v)] + d[1..]
    else
      var rest := Set(d[1..], k, v);
      assert ([d[0]] + rest)[1..] == rest;
      [d[0]] + rest
  }

  /** After `d[k] = v`, `k` reads back `v` and every other key reads what it read before. */
  lemma {:induction false} SetLookup<V>(d: Dict<V>, k: string, v: V)
    ensures Get(Set(d, k, v), k) == Some(v)
    ensures forall k' :: k' != k ==> Get(Set(d, k, v), k') == Get(d, k')
  {
    if d != [] && d[0].0 != k {
      SetLookup(d[1..], k, v);
      assert Set(d, k, v)[1..] == Set(d[1..], k, v);
    }
  }

  /**
    `for k, v in e.items(): d[k] = v`, the overlay of `e` onto `d`.
   */
  function Update<V>(d: Dict<V>, e: Dict<V>): Dict<V>
    decreases |e|
  {
    if e == [] then d else Update(Set(d, e[0].0, e[0].1), e[1..])
  }

  lemma KeysOfTail<V>(e: Dict<V>)
    requires e != []
    ensures Keys(e) == [e[0].0] + Keys(e[1..])
    ensures DistinctKeys(e) ==> DistinctKeys(e[1..]) && e[0].0 !in Keys(e[1..])
  {
  }

  /**
    The overlay keeps `d`'s keys first and in order, adds the keys only `e`
    has, takes `e`'s value for every key `e` holds, and keeps `d`'s value for
    every other key.
   */
  lemma {:induction false} UpdateOverrides<V>(d: Dict<V>, e: Dict<V>)
    requires DistinctKeys(e)
    ensures forall k :: k in Keys(e) ==> Get(Update(d, e), k) == Get(e, k)
    ensures forall k :: k !in Keys(e) ==> Get(Update(d, e), k) == Get(d, k)
    ensures forall k :: k in Keys(Update(d, e)) <==> k in Keys(d) || k in Keys(e)
    ensures Keys(d) <= Keys(Update(d, e))
    decreases |e|
  {
    if e != [] {
      var d' := Set(d, e[0].0, e[0].1);
      SetLookup(d, e[0].0, e[0].1);
      KeysOfTail(e);
      UpdateOverrides(d', e[1..]);
      assert Keys(d) <= Keys(d') by {
        if e[0].0 !in Keys(d) {
          assert Keys(d') == Keys(d + [e[0]]);
        }
      }
    }
  }

  /** `dict((k2, v) for k2, v in d.items() if k2 != k)`: the entries without key `k`, in order. */
  function Without<V>(d: Dict<V>, k: string): (r: Dict<V>)
    ensures k !in Keys(r)
    ensures |r| <= |d|
  {
    if d == [] then []
    else if d[0].0 == k then Without(d[1..], k)
    else [d[0]] + Without(d[1..], k)
  }

  /** Leaving out `k` changes what no other key reads. */
  lemma {:induction false} WithoutLookup<V>(d: Dict<V>, k: string, k': string)
    requires k' != k
    ensures Get(Without(d, k), k') == Get(d, k')
  {
    if d != [] {
      WithoutLookup(d[1..], k, k');
      if d[0].0 != k {
        assert ([d[0]] + Without(d[1..], k))[1..] == Without(d[1..], k);
      }
    }
  }
}

=== FILE: pytext.dfy ===
/**
  The handful of Python string primitives that fibber's file names, command
  lines and label tokens are built from: `"%d"`, `"%04d"`, `int(...)`,
  `posixpath.join` and sequence slicing with Python's clamping rules.
 */
module PyText {
  import opened Common

  predicate IsDigit(c: char) {
    '0' <= c <= '9'
  }

  predicate AllDigits(s: string) {
    forall i :: 0 <= i < |s| ==> IsDigit(s[i])
  }

  function DigitValue(c: char): nat
    requires IsDigit(c)
  {
    (c as int) - ('0' as int)
  }

  function DigitChar(d: nat): (c: char)
    requires d < 10
    ensures IsDigit(c) && DigitValue(c) == d
  {
    (('0' as int) + d) as char
  }

  /** The decimal numeral of `n`, most significant digit first. */
  function Decimal(n: nat): (s: string)
    ensures 1 <= |s|
    ensures AllDigits(s)
    decreases n
  {
    if n < 10 then [DigitChar(n)] else Decimal(n / 10) + [DigitChar(n % 10)]
  }

  /** The number a string of decimal digits denotes (leading zeros allowed). */
  function NumeralValue(s: string): nat
    requires AllDigits(s)
  {
    if s == [] then 0 else 10 * NumeralValue(s[..|s| - 1]) + DigitValue(s[|s| - 1])
  }

  /** `"%d" % i`, which is also `str(i)`. */
  function FormatInt(i: int): string {
    if i < 0 then "-" + Decimal(-i) else Decimal(i)
  }

  function Zeros(k: nat): (s: string)
    ensures |s| == k
    ensures forall j :: 0 <= j < k ==> s[j] == '0'
  {
    seq(k, _ => '0')
  }

  /**
    `"%0<width>d" % i`: the sign, then as many zeros as bring the text up to
    `width` characters, then the digits of `|i|`; never truncated.
   */
  function FormatPadded(i: int, width: nat): (s: string)
    ensures |s| == Max(width, |FormatInt(i)|)
    ensures i >= 0 ==> AllDigits(s)
  {
    Sign(i) + (Zeros(PadFill(i, width)) + Decimal(Abs(i)))
  }

  function Sign(i: int): string {
    if i < 0 then "-" else ""
  }

  /** How many zeros `"%0<width>d"` inserts between the sign and the digits. */
  function PadFill(i: int, width: nat): nat {
    var used := |Sign(i)| + |Decimal(Abs(i))|;
    if used < width then width - used else 0
  }

  /**
    `int(s)` for the numerals fibber produces: an optional `-` or `+` followed
    by at least one ASCII digit; anything else raises `ValueError`.
   */
  function ParseInt(s: string): Result<int> {
    if |s| > 0 && (s[0] == '-' || s[0] == '+') then
      var body := s[1..];
      if |body| > 0 && AllDigits(body) then
        var magnitude: int := NumeralValue(body);
        Success(if s[0] == '-' then -magnitude else magnitude)
      else
        Failure(ValueError(s))
    else if |s| > 0 && AllDigits(s) then
      Success(NumeralValue(s))
    else
      Failure(ValueError(s))
  }

  /** `posixpath.join(a, b)`: an absolute `b` replaces `a`; one separator otherwise. */
  function Join(a: string, b: string): string {
    if |b| > 0 && b[0] == '/' then b
    else if a == "" || a[|a| - 1] == '/' then a + b
    else a + "/" + b
  }

  /** A path component that `Join` appends rather than lets replace the path. */
  predicate Relative(b: string) {
    |b| > 0 ==> b[0] != '/'
  }

  /** `s[:n]` with Python's clamping (a negative `n` counts from the end). */
  function Take<T>(s: seq<T>, n: int): (r: seq<T>)
    ensures r <= s
    ensures n >= 0 ==> |r| == Min(n, |s|)
    ensures n < 0 ==> |r| == Max(|s| + n, 0)
  {
    if n >= 0 then s[..Min(n, |s|)] else s[..Max(|s| + n, 0)]
  }

  /** `s[n:]` for a non-negative `n`, clamped to the length. */
  function Drop<T>(s: seq<T>, n: nat): (r: seq<T>)
    ensures |r| == Max(|s| - n, 0)
    ensures n <= |s| ==> s == s[..n] + r
  {
    s[Min(n, |s|)..]
  }

  // ----- lemmas -----

  lemma {:induction false} NumeralOfDecimal(n: nat)
    ensures NumeralValue(Decimal(n)) == n
    decreases n
  {
    if n >= 10 {
      var s := Decimal(n);
      assert s[..|s| - 1] == Decimal(n / 10);
      NumeralOfDecimal(n / 10);
    }
  }

  lemma {:induction false} NumeralOfZeros(k: nat)
    ensures NumeralValue(Zeros(k)) == 0
  {
    if k > 0 {
      assert Zeros(k)[..k - 1] == Zeros(k - 1);
      NumeralOfZeros(k - 1);
    }
  }

  /** Leading zeros do not change the value of a numeral. */
  lemma {:induction false} NumeralIgnoresLeadingZeros(k: nat, s: string)
    requires AllDigits(s)
    ensures AllDigits(Zeros(k) + s)
    ensures NumeralValue(Zeros(k) + s) == NumeralValue(s)
    decreases |s|
  {
    var t := Zeros(k) + s;
    assert AllDigits(t) by {
      forall j | 0 <= j < |t| ensures IsDigit(t[j]) {
        if j >= k { assert t[j] == s[j - k]; }
      }
    }
    if s == [] {
      assert t == Zeros(k);
      NumeralOfZeros(k);
    } else {
      assert t[..|t| - 1] == Zeros(k) + s[..|s| - 1];
      NumeralIgnoresLeadingZeros(k, s[..|s| - 1]);
    }
  }

  /** A numeral of digits only parses to its value. */
  lemma ParseDigits(s: string)
    requires |s| > 0 && AllDigits(s)
    ensures ParseInt(s) == Success(NumeralValue(s))
  {
    assert IsDigit(s[0]);
  }

  /** A minus sign followed by digits parses to the negated value. */
  lemma ParseNegative(body: string)
    requires |body| > 0 && AllDigits(body)
    ensures ParseInt("-" + body) == Success(0 - NumeralValue(body) as int)
  {
    assert ("-" + body)[1..] == body;
  }

  /** The digits after the sign of `"%0<width>d" % i` denote `|i|`. */
  lemma PaddedBody(i: int, width: nat)
    ensures var body := Zeros(PadFill(i, width)) + Decimal(Abs(i));
            && FormatPadded(i, width) == Sign(i) + body
            && |body| > 0 && AllDigits(body) && NumeralValue(body) == Abs(i)
  {
    NumeralOfDecimal(Abs(i));
    NumeralIgnoresLeadingZeros(PadFill(i, width), Decimal(Abs(i)));
  }

  /** `int("%0<width>d" % i) == i` for every integer and every width. */
  lemma ParsePadded(i: int, width: nat)
    ensures ParseInt(FormatPadded(i, width)) == Success(i)
  {
    var body := Zeros(PadFill(i, width)) + Decimal(Abs(i));
    PaddedBody(i, width);
    if i < 0 {
      ParseNegative(body);
    } else {
      assert FormatPadded(i, width) == body;
      ParseDigits(body);
    }
  }

  /** Round trip of the label and step numerals: `int("%d" % i) == i`. */
  lemma ParseFormat(i: int)
    ensures ParseInt(FormatInt(i)) == Success(i)
  {
    assert FormatPadded(i, 0) == FormatInt(i);
    ParsePadded(i, 0);
  }

  /** Two integers print to the same zero-padded text exactly when they are equal. */
  lemma PaddedInjective(i: int, j: int, width: nat)
    ensures FormatPadded(i, width) == FormatPadded(j, width) <==> i == j
  {
    ParsePadded(i, width);
    ParsePadded(j, width);
  }

  lemma FormatInjective(i: int, j: int)
    ensures FormatInt(i) == FormatInt(j) <==> i == j
  {
    ParseFormat(i);
    ParseFormat(j);
  }

  /** The numeral of an integer is made of digits and at most a leading minus sign. */
  lemma FormatIntChars(i: int)
    ensures forall k :: 0 <= k < |FormatInt(i)| ==> IsDigit(FormatInt(i)[k]) || (k == 0 && FormatInt(i)[k] == '-')
  {
    if i < 0 {
      var d := Decimal(-i);
      forall k | 0 <= k < |FormatInt(i)|
        ensures IsDigit(FormatInt(i)[k]) || (k == 0 && FormatInt(i)[k] == '-')
      {
        if k > 0 { assert FormatInt(i)[k] == d[k - 1]; }
      }
    }
  }

  /** Joining a relative component onto a directory that does not end in `/` inserts one separator. */
  lemma JoinPlain(a: string, b: string)
    requires a != [] && a[|a| - 1] != '/'
    requires Relative(b)
    ensures Join(a, b) == a + "/" + b
  {
  }
}

=== FILE: strategy_base.dfy ===
/**
  fibber/paraphrase_strategies/strategy_base.py: the bookkeeping every
  paraphrase strategy shares. It covers the regular-expression clean-up of
  contractions, the strategy configuration assembled from command-line
  arguments, the command-line flags a strategy declares, and the shape of
  the paraphrased dataset. The paraphrasing itself (`paraphrase_example`) is
  left to subclasses and enters the model as a function parameter.
 */
module StrategyBase {
  import opened Common
  import opened PyText
  import opened OrderedDict

  // ----- post_process_text -----

  /** The regular-expression class `\s` on a `str` pattern: the characters for which `str.isspace()` holds. */
  predicate IsSpace(c: char) {
    var x := c as int;
    || 9 <= x <= 13
    || 28 <= x <= 32
    || x == 0x85 || x == 0xA0 || x == 0x1680
    || 0x2000 <= x <= 0x200A
    || x == 0x2028 || x == 0x2029 || x == 0x202F || x == 0x205F || x == 0x3000
  }

  /** The contraction endings of `POST_PROCESSING_PATTERN`, in the order they are applied. */
  const Endings: seq<string> := ["t", "s", "ve", "ll"]

  /** The replacement text of the pattern for `ending`: `'t `, `'s `, `'ve `, `'ll `. */
  function Repl(ending: string): string {
    "'" + ending + " "
  }

  /**
    How a match of `\s?'\s?<ending>\s` uses its two optional spaces: `lead` is
    the `\s?` before the apostrophe, `gap` the one after it.
   */
  datatype Span = Span(lead: bool, gap: bool)

  function Width(b: bool): nat {
    if b then 1 else 0
  }

  /** The index just past a match that starts at `i` and has the shape `sp`. */
  function End(i: nat, sp: Span, ending: string): nat {
    i + Width(sp.lead) + 1 + Width(sp.gap) + |ending| + 1
  }

  /** The pattern `\s?'\s?<ending>\s`, with its optional spaces used as `sp` says, matches `text` at `i`. */
  predicate Fits(text: string, i: nat, ending: string, sp: Span) {
    var q := i + Width(sp.lead);
    var a := q + 1 + Width(sp.gap);
    && End(i, sp, ending) <= |text|
    && (sp.lead ==> IsSpace(text[i]))
    && text[q] == '\''
    && (sp.gap ==> IsSpace(text[q + 1]))
    && text[a..a + |ending|] == ending
    && IsSpace(text[a + |ending|])
  }

  function Try(text: string, i: nat, ending: string, sp: Span): Option<Span> {
    if Fits(text, i, ending, sp) then Some(sp) else None
  }

  function First(a: Option<Span>, b: Option<Span>): Option<Span> {
    if a.Some? then a else b
  }

  /**
    The regular-expression engine trying the pattern at `i`: each greedy `\s?`
    first tries to take a space and backtracks to taking none. It finds a
    match exactly when some use of the optional spaces fits.
   */
  function MatchAt(text: string, i: nat, ending: string): (r: Option<Span>)
    ensures r.Some? ==> Fits(text, i, ending, r.value)
    ensures r.None? ==> forall sp :: !Fits(text, i, ending, sp)
  {
    First(
      First(Try(text, i, ending, Span(true, true)), Try(text, i, ending, Span(true, false))),
      First(Try(text, i, ending, Span(false, true)), Try(text, i, ending, Span(false, false))))
  }

  /** `re.sub` from index `i` on: scan left to right, replace each match and resume after it. */
  function SubFrom(text: string, i: nat, ending: string): string
    decreases |text| - i
  {
    if i >= |text| then []
    else
      match MatchAt(text, i, ending)
      case Some(sp) => Repl(ending) + SubFrom(text, End(i, sp, ending), ending)
      case None => [text[i]] + SubFrom(text, i + 1, ending)
  }

  /** `re.sub(r"\s?'\s?<ending>\s", "'<ending> ", text)`. */
  function Sub(text: string, ending: string): string {
    SubFrom(text, 0, ending)
  }

  /** Applies the patterns for `endings` one after another. */
  function SubAll(text: string, endings: seq<string>): string
    decreases |endings|
  {
    if endings == [] then text else SubAll(Sub(text, endings[0]), endings[1..])
  }

  /** `post_process_text`. */
  function PostProcess(text: string): string {
    SubAll(text, Endings)
  }

  /** The number of apostrophes in `s`. */
  function Apostrophes(s: string): nat {
    if s == [] then 0 else (if s[0] == '\'' then 1 else 0) + Apostrophes(s[1..])
  }

  /** An ending the patterns can use: it is neither empty, nor starts with a space, nor holds an apostrophe. */
  predicate PlainEnding(ending: string) {
    && |ending| > 0
    && !IsSpace(ending[0])
    && '\'' !in ending
  }

  lemma EndingsPlain()
    ensures forall k :: 0 <= k < |Endings| ==> PlainEnding(Endings[k])
  {
    assert PlainEnding(Endings[0]) && PlainEnding(Endings[1]);
    assert PlainEnding(Endings[2]) && PlainEnding(Endings[3]);
  }

  /**
    The optional spaces never make the engine backtrack: at any index at most
    one use of them fits, since a space can be neither the apostrophe nor the
    ending's first letter.
   */
  lemma SpanUnique(text: string, i: nat, ending: string, sp1: Span, sp2: Span)
    requires PlainEnding(ending)
    requires Fits(text, i, ending, sp1) && Fits(text, i, ending, sp2)
    ensures sp1 == sp2
  {
    assert !IsSpace('\'');
    if sp1.lead != sp2.lead {
      assert false;
    }
    if sp1.gap != sp2.gap {
      assert false;
    }
  }

  lemma {:induction false} ApostrophesAppend(a: string, b: string)
    ensures Apostrophes(a + b) == Apostrophes(a) + Apostrophes(b)
  {
    if a != [] {
      ApostrophesAppend(a[1..], b);
      assert (a + b)[1..] == a[1..] + b;
    } else {
      assert a + b == b;
    }
  }

  lemma {:induction false} NoApostrophes(s: string)
    requires '\'' !in s
    ensures Apostrophes(s) == 0
  {
    if s != [] {
      NoApostrophes(s[1..]);
    }
  }

  /** A string whose only apostrophe sits at `q`. */
  lemma SingleApostrophe(s: string, q: nat)
    requires q < |s| && s[q] == '\''
    requires forall k :: 0 <= k < |s| && k != q ==> s[k] != '\''
    ensures Apostrophes(s) == 1
  {
    assert s == s[..q] + ([s[q]] + s[q + 1..]);
    NoApostrophes(s[..q]);
    NoApostrophes(s[q + 1..]);
    ApostrophesAppend([s[q]], s[q + 1..]);
    ApostrophesAppend(s[..q], [s[q]] + s[q + 1..]);
  }

  /** A match holds exactly one apostrophe, the one in the pattern. */
  lemma MatchApostrophes(text: string, i: nat, ending: string, sp: Span)
    requires PlainEnding(ending)
    requires Fits(text, i, ending, sp)
    ensures Apostrophes(text[i..End(i, sp, ending)]) == 1
  {
    var q := i + Width(sp.lead);
    var a := q + 1 + Width(sp.gap);
    var m := text[i..End(i, sp, ending)];
    assert !IsSpace('\'');
    forall k | 0 <= k < |m| && k != q - i
      ensures m[k] != '\''
    {
      if a <= i + k < a + |ending| {
        assert m[k] == text[a..a + |ending|][i + k - a] == ending[i + k - a];
      }
    }
    SingleApostrophe(m, q - i);
  }

  /** The replacement puts back exactly the one apostrophe. */
  lemma ReplApostrophes(ending: string)
    requires '\'' !in ending
    ensures Apostrophes(Repl(ending)) == 1
  {
    assert Repl(ending) == ['\''] + (ending + " ");
    NoApostrophes(ending + " ");
    ApostrophesAppend(['\''], ending + " ");
  }

  lemma {:induction false} SubFromApostrophes(text: string, i: nat, ending: string)
    requires PlainEnding(ending)
    requires i <= |text|
    ensures Apostrophes(SubFrom(text, i, ending)) == Apostrophes(text[i..])
    decreases |text| - i
  {
    if i < |text| {
      match MatchAt(text, i, ending)
      case Some(sp) =>
        var e := End(i, sp, ending);
        SubFromApostrophes(text, e, ending);
        MatchApostrophes(text, i, ending, sp);
        assert text[i..] == text[i..e] + text[e..];
        ApostrophesAppend(text[i..e], text[e..]);
        ApostrophesAppend(Repl(ending), SubFrom(text, e, ending));
        ReplApostrophes(ending);
      case None =>
        SubFromApostrophes(text, i + 1, ending);
        assert text[i..] == [text[i]] + text[i + 1..];
        ApostrophesAppend([text[i]], text[i + 1..]);
        ApostrophesAppend([text[i]], SubFrom(text, i + 1, ending));
    }
  }

  lemma {:induction false} SubFromShorter(text: string, i: nat, ending: string)
    requires i <= |text|
    ensures |SubFrom(text, i, ending)| <= |text| - i
    decreases |text| - i
  {
    if i < |text| {
      match MatchAt(text, i, ending)
      case Some(sp) => SubFromShorter(text, End(i, sp, ending), ending);
      case None => SubFromShorter(text, i + 1, ending);
    }
  }

  lemma {:induction false} SubFromWithoutApostrophe(text: string, i: nat, ending: string)
    requires i <= |text|
    requires '\'' !in text
    ensures SubFrom(text, i, ending) == text[i..]
    decreases |text| - i
  {
    if i < |text| {
      SubFromWithoutApostrophe(text, i + 1, ending);
      assert text[i..] == [text[i]] + text[i + 1..];
    }
  }

  /** The clean-up moves apostrophes but never adds or drops one. */
  lemma {:induction false} PostProcessKeepsApostrophes(text: string)
    ensures Apostrophes(PostProcess(text)) == Apostrophes(text)
  {
    EndingsPlain();
    SubAllApostrophes(text, Endings);
  }

  lemma {:induction false} SubAllApostrophes(text: string, endings: seq<string>)
    requires forall k :: 0 <= k < |endings| ==> PlainEnding(endings[k])
    ensures Apostrophes(SubAll(text, endings)) == Apostrophes(text)
    decreases |endings|
  {
    if endings != [] {
      SubFromApostrophes(text, 0, endings[0]);
      assert text[0..] == text;
      SubAllApostrophes(Sub(text, endings[0]), endings[1..]);
    }
  }

  /** Each replacement is no longer than what it replaces, so the text never grows. */
  lemma {:induction false} PostProcessNeverLonger(text: string)
    ensures |PostProcess(text)| <= |text|
  {
    SubAllShorter(text, Endings);
  }

  lemma {:induction false} SubAllShorter(text: string, endings: seq<string>)
    ensures |SubAll(text, endings)| <= |text|
    decreases |endings|
  {
    if endings != [] {
      SubFromShorter(text, 0, endings[0]);
      SubAllShorter(Sub(text, endings[0]), endings[1..]);
    }
  }

  /** Text without an apostrophe passes through unchanged. */
  lemma {:induction false} PostProcessWithoutApostrophe(text: string)
    requires '\'' !in text
    ensures PostProcess(text) == text
  {
    SubAllWithoutApostrophe(text, Endings);
  }

  lemma {:induction false} SubAllWithoutApostrophe(text: string, endings: seq<string>)
    requires '\'' !in text
    ensures SubAll(text, endings) == text
    decreases |endings|
  {
    if endings != [] {
      SubFromWithoutApostrophe(text, 0, endings[0]);
      assert text[0..] == text;
      SubAllWithoutApostrophe(Sub(text, endings[0]), endings[1..]);
    }
  }

  // ----- the strategy configuration -----

  /** One entry of `__hyperparameters__`: `(name, type, default, help)`; the type and help only concern argparse. */
  datatype Hyperparameter = Hyperparameter(name: string, default: Value)

  /** A strategy class: its `__repr__` (the class name), `__abbr__` and `__hyperparameters__`. */
  datatype StrategyClass = StrategyClass(className: string, abbr: string, hyperparameters: seq<Hyperparameter>)

  /** `torch.device("cpu")` or `torch.device("cuda:%d" % id)`. */
  datatype Device = Cpu | Cuda(index: int)

  /** A constructed strategy: `self._strategy_config` and `self._device`. */
  datatype Strategy = Strategy(config: Dict<Value>, device: Device)

  /** `"%s_%s" % (abbr, name)`: the key `__init__` looks a hyperparameter up under. */
  function ArgName(abbr: string, name: string): string {
    abbr + "_" + name
  }

  function Names(hps: seq<Hyperparameter>): (names: seq<string>)
    ensures |names| == |hps|
    ensures forall i :: 0 <= i < |hps| ==> names[i] == hps[i].name
  {
    if hps == [] then [] else Names(hps[..|hps| - 1]) + [hps[|hps| - 1].name]
  }

  /** No two hyperparameters share a name and none is called `strategy_name`. */
  predicate UniqueNames(hps: seq<Hyperparameter>) {
    && (forall i :: 0 <= i < |hps| ==> hps[i].name != "strategy_name")
    && (forall i, j :: 0 <= i < j < |hps| ==> hps[i].name != hps[j].name)
  }

  /** The value `__init__` gives a hyperparameter: the argument if `arg_dict` has it, the default otherwise. */
  function Setting(abbr: string, hp: Hyperparameter, argDict: Record): Value {
    var key := ArgName(abbr, hp.name);
    if key in argDict then argDict[key] else hp.default
  }

  /**
    The loop of `__init__` over the first hyperparameters: the configuration
    starts with `strategy_name` and gains one entry per hyperparameter; the
    `assert` fails on the first name the configuration already holds.
   */
  function Configure(cls: StrategyClass, hps: seq<Hyperparameter>, argDict: Record): (r: Result<Dict<Value>>)
    ensures r.Success? <==> UniqueNames(hps)
    ensures r.Success? ==> Keys(r.value) == ["strategy_name"] + Names(hps)
    ensures r.Failure? ==> r.error == AssertionFailed("p_name not in self._strategy_config")
    decreases |hps|
  {
    if hps == [] then Success([("strategy_name", Str(cls.className))])
    else
      var n := |hps| - 1;
      var hp := hps[n];
      UniqueSnoc(hps);
      match Configure(cls, hps[..n], argDict)
      case Failure(e) => Failure(e)
      case Success(config) =>
        if hp.name in Keys(config) then Failure(AssertionFailed("p_name not in self._strategy_config"))
        else
          var r := Set(config, hp.name, Setting(cls.abbr, hp, argDict));
          KeysAppend(config, hp.name, Setting(cls.abbr, hp, argDict));
          Success(r)
  }

  /** A list of hyperparameters is unique when its prefix is and the last name is new. */
  lemma UniqueSnoc(hps: seq<Hyperparameter>)
    requires hps != []
    ensures UniqueNames(hps) <==>
              && UniqueNames(hps[..|hps| - 1])
              && hps[|hps| - 1].name !in ["strategy_name"] + Names(hps[..|hps| - 1])
  {
    var n := |hps| - 1;
    var names := ["strategy_name"] + Names(hps[..n]);
    if hps[n].name in names {
      var k :| 0 <= k < |names| && names[k] == hps[n].name;
      if k > 0 {
        assert hps[k - 1].name == hps[n].name;
      }
    }
    if UniqueNames(hps[..n]) && hps[n].name !in names {
      forall i, j | 0 <= i < j < |hps| ensures hps[i].name != hps[j].name {
        if j == n {
          assert names[i + 1] == hps[i].name;
        } else {
          assert hps[..n][i] == hps[i] && hps[..n][j] == hps[j];
        }
      }
    }
    if UniqueNames(hps) {
      assert forall i, j :: 0 <= i < j < n ==> hps[..n][i] == hps[i] && hps[..n][j] == hps[j];
    }
  }

  /**
    `StrategyBase.__init__`: the configuration, then the device from
    `arg_dict["strategy_gpu_id"]` (-1 selects the CPU).
   */
  function Init(cls: StrategyClass, argDict: Record): (r: Result<Strategy>)
    ensures !UniqueNames(cls.hyperparameters) ==> r == Failure(AssertionFailed("p_name not in self._strategy_config"))
    ensures UniqueNames(cls.hyperparameters) && "strategy_gpu_id" !in argDict ==> r == Failure(KeyError("strategy_gpu_id"))
    ensures r.Success? <==>
              && UniqueNames(cls.hyperparameters)
              && "strategy_gpu_id" in argDict
              && (argDict["strategy_gpu_id"].Int? || argDict["strategy_gpu_id"].Bool?)
    ensures r.Success? && argDict["strategy_gpu_id"] == Int(-1) ==> r.value.device == Cpu
    ensures r.Success? && argDict["strategy_gpu_id"].Int? && argDict["strategy_gpu_id"].i != -1 ==>
              r.value.device == Cuda(argDict["strategy_gpu_id"].i)
  {
    var config :- Configure(cls, cls.hyperparameters, argDict);
    if "strategy_gpu_id" !in argDict then Failure(KeyError("strategy_gpu_id"))
    else
      match argDict["strategy_gpu_id"]
      case Int(id) => Success(Strategy(config, if id == -1 then Cpu else Cuda(id)))
      case Bool(b) => Success(Strategy(config, Cuda(if b then 1 else 0)))
      case _ => Failure(TypeError("%d format: a number is required"))
  }

  /**
    The configuration `__init__` is meant to build: the class name under
    `strategy_name`, then every hyperparameter in declaration order with the
    command-line value if there is one and the default otherwise.
   */
  function ExpectedConfig(cls: StrategyClass, hps: seq<Hyperparameter>, argDict: Record): Dict<Value> {
    [("strategy_name", Str(cls.className))] +
    seq(|hps|, i requires 0 <= i < |hps| => (hps[i].name, Setting(cls.abbr, hps[i], argDict)))
  }

  lemma ExpectedSnoc(cls: StrategyClass, hps: seq<Hyperparameter>, argDict: Record)
    requires hps != []
    ensures ExpectedConfig(cls, hps, argDict) ==
              ExpectedConfig(cls, hps[..|hps| - 1], argDict) + [(hps[|hps| - 1].name, Setting(cls.abbr, hps[|hps| - 1], argDict))]
  {
    var n := |hps| - 1;
    assert forall i :: 0 <= i < n ==> hps[..n][i] == hps[i];
  }

  /** With unique names, `__init__` builds exactly the intended configuration. */
  lemma {:induction false} ConfigContents(cls: StrategyClass, hps: seq<Hyperparameter>, argDict: Record)
    requires UniqueNames(hps)
    ensures Configure(cls, hps, argDict) == Success(ExpectedConfig(cls, hps, argDict))
    decreases |hps|
  {
    if hps == [] {
      assert ExpectedConfig(cls, hps, argDict) == [("strategy_name", Str(cls.className))];
    } else {
      ConfigureSnoc(cls, hps, argDict);
      ConfigContents(cls, hps[..|hps| - 1], argDict);
      ExpectedSnoc(cls, hps, argDict);
    }
  }

  /** With unique names, each hyperparameter appends one entry to the configuration. */
  lemma ConfigureSnoc(cls: StrategyClass, hps: seq<Hyperparameter>, argDict: Record)
    requires hps != [] && UniqueNames(hps)
    ensures UniqueNames(hps[..|hps| - 1])
    ensures Configure(cls, hps, argDict).value ==
              Configure(cls, hps[..|hps| - 1], argDict).value + [(hps[|hps| - 1].name, Setting(cls.abbr, hps[|hps| - 1], argDict))]
  {
    var n := |hps| - 1;
    UniqueSnoc(hps);
    var config := Configure(cls, hps[..n], argDict).value;
    assert hps[n].name !in Keys(config);
  }

  // ----- add_parser_args -----

  /** One `parser.add_argument(flag, type=..., default=..., help=...)` call. */
  datatype Argument = Argument(flag: string, default: Value)

  /** `"--%s_%s" % (abbr, name)`. */
  function Flag(abbr: string, name: string): string {
    "--" + ArgName(abbr, name)
  }

  /**
    `add_parser_args`: one flag per hyperparameter, in declaration order.
    argparse files each under its flag with the leading dashes stripped, which
    is the lookup key with `-` turned into `_` unless the abbreviation itself
    starts with a dash.
   */
  function ParserArguments(cls: StrategyClass): (args: seq<Argument>)
    ensures |args| == |cls.hyperparameters|
    ensures forall i :: 0 <= i < |args| ==>
              && Dest(args[i].flag) == Underscored(LStripDashes(ArgName(cls.abbr, cls.hyperparameters[i].name)))
              && args[i].default == cls.hyperparameters[i].default
    ensures cls.abbr == [] || cls.abbr[0] != '-' ==>
              forall i :: 0 <= i < |args| ==> Dest(args[i].flag) == Underscored(ArgName(cls.abbr, cls.hyperparameters[i].name))
  {
    DestsOfFlags(cls);
    seq(|cls.hyperparameters|, i requires 0 <= i < |cls.hyperparameters| =>
      Argument(Flag(cls.abbr, cls.hyperparameters[i].name), cls.hyperparameters[i].default))
  }

  lemma DestsOfFlags(cls: StrategyClass)
    ensures forall i :: 0 <= i < |cls.hyperparameters| ==>
              Dest(Flag(cls.abbr, cls.hyperparameters[i].name)) == Underscored(LStripDashes(ArgName(cls.abbr, cls.hyperparameters[i].name)))
    ensures cls.abbr == [] || cls.abbr[0] != '-' ==>
              forall i :: 0 <= i < |cls.hyperparameters| ==>
                Dest(Flag(cls.abbr, cls.hyperparameters[i].name)) == Underscored(ArgName(cls.abbr, cls.hyperparameters[i].name))
  {
    forall i | 0 <= i < |cls.hyperparameters| {
      DestOfFlag(cls.abbr, cls.hyperparameters[i].name);
    }
  }

  /** `s.replace("-", "_")`. */
  function Underscored(s: string): (r: string)
    ensures |r| == |s|
    ensures forall k :: 0 <= k < |s| ==> r[k] == (if s[k] == '-' then '_' else s[k])
  {
    seq(|s|, k requires 0 <= k < |s| => if s[k] == '-' then '_' else s[k])
  }

  /** `s.lstrip("-")`: `s` without its leading dashes. */
  function LStripDashes(s: string): string {
    if s != [] && s[0] == '-' then LStripDashes(s[1..]) else s
  }

  /** What `lstrip` removes is a run of dashes at the front, and what it keeps does not start with one. */
  lemma {:induction false} LStripDashesShape(s: string)
    ensures var r := LStripDashes(s);
            && |r| <= |s| && r == s[|s| - |r|..]
            && (forall k :: 0 <= k < |s| - |r| ==> s[k] == '-')
            && (r == [] || r[0] != '-')
  {
    if s != [] && s[0] == '-' {
      LStripDashesShape(s[1..]);
    }
  }

  /** argparse's attribute name for a long option: the flag without its leading `-`s, with `-` turned into `_`. */
  function Dest(flag: string): string {
    Underscored(LStripDashes(flag))
  }

  /**
    The flag `--<abbr>_<name>` loses exactly its two dashes unless the
    abbreviation starts with one, in which case argparse strips more.
   */
  lemma DestOfFlag(abbr: string, name: string)
    ensures Dest(Flag(abbr, name)) == Underscored(LStripDashes(ArgName(abbr, name)))
    ensures abbr == [] || abbr[0] != '-' ==> Dest(Flag(abbr, name)) == Underscored(ArgName(abbr, name))
    ensures abbr != [] && abbr[0] == '-' ==> |Dest(Flag(abbr, name))| < |ArgName(abbr, name)|
  {
    var key := ArgName(abbr, name);
    var flag := Flag(abbr, name);
    assert flag == "--" + key;
    StripTwoDashes(key);
    if abbr == [] || abbr[0] != '-' {
      assert key[0] != '-';
      assert LStripDashes(key) == key;
    } else {
      assert key[0] == '-';
      LStripDashesShape(key);
      assert LStripDashes(key) != key;
    }
  }

  lemma StripTwoDashes(key: string)
    ensures LStripDashes("--" + key) == LStripDashes(key)
  {
    assert ("--" + key)[1..] == "-" + key;
    assert ("-" + key)[1..] == key;
  }

  /**
    A hyperparameter's flag is parsed into exactly the key `__init__` looks it
    up under if and only if neither the abbreviation nor the name holds a `-`;
    otherwise argparse stores the value under a different key and `__init__`
    falls back to the default.
   */
  lemma FlagReachesLookup(abbr: string, name: string)
    ensures Dest(Flag(abbr, name)) == ArgName(abbr, name) <==> '-' !in abbr && '-' !in name
  {
    var key := ArgName(abbr, name);
    DestOfFlag(abbr, name);
    if abbr != [] && abbr[0] == '-' {
      assert abbr[0] in abbr;
    } else if '-' in abbr {
      var k :| 0 <= k < |abbr| && abbr[k] == '-';
      assert key[k] == '-' && Dest(Flag(abbr, name))[k] == '_';
    } else if '-' in name {
      var k :| 0 <= k < |name| && name[k] == '-';
      assert key[|abbr| + 1 + k] == '-' && Dest(Flag(abbr, name))[|abbr| + 1 + k] == '_';
    } else {
      forall k | 0 <= k < |key| ensures key[k] != '-' {
        if k < |abbr| {
          assert key[k] == abbr[k];
        } else if k > |abbr| {
          assert key[k] == name[k - |abbr| - 1];
        }
      }
    }
  }

  /**
    The values argparse produces for `arguments`. Every attribute starts at
    the default of the first flag declared with it (argparse sets a default
    only when the attribute is not there yet); a flag given on the command
    line (keyed by flag) then overwrites its attribute.
   */
  function Parse(arguments: seq<Argument>, given: map<string, Value>): (ns: Record)
    ensures forall i :: 0 <= i < |arguments| ==> Dest(arguments[i].flag) in ns
    decreases |arguments|
  {
    if arguments == [] then map[]
    else
      var n := |arguments| - 1;
      var a := arguments[n];
      var ns := Parse(arguments[..n], given);
      var d := Dest(a.flag);
      if a.flag in given then ns[d := given[a.flag]]
      else if d in ns then ns
      else ns[d := a.default]
  }

  /** An attribute no flag is declared with is not set. */
  lemma {:induction false} ParseOnlyDeclared(arguments: seq<Argument>, given: map<string, Value>, key: string)
    requires forall j :: 0 <= j < |arguments| ==> Dest(arguments[j].flag) != key
    ensures key !in Parse(arguments, given)
    decreases |arguments|
  {
    if arguments != [] {
      var n := |arguments| - 1;
      ParseOnlyDeclared(arguments[..n], given, key);
    }
  }

  /**
    A given flag's value survives unless a later flag with the same
    attribute is given too.
   */
  lemma {:induction false} ParseGivenWins(arguments: seq<Argument>, given: map<string, Value>, i: nat)
    requires i < |arguments| && arguments[i].flag in given
    requires forall j :: i < j < |arguments| && Dest(arguments[j].flag) == Dest(arguments[i].flag) ==> arguments[j].flag !in given
    ensures Parse(arguments, given)[Dest(arguments[i].flag)] == given[arguments[i].flag]
    decreases |arguments|
  {
    var n := |arguments| - 1;
    if i < n {
      ParseGivenWins(arguments[..n], given, i);
    }
  }

  /**
    With none of its flags given, an attribute holds the default of the first
    flag declared with it, whatever later flags with the same attribute say.
   */
  lemma {:induction false} ParseFirstDefault(arguments: seq<Argument>, given: map<string, Value>, i: nat)
    requires i < |arguments|
    requires forall j :: 0 <= j < i ==> Dest(arguments[j].flag) != Dest(arguments[i].flag)
    requires forall j :: 0 <= j < |arguments| && Dest(arguments[j].flag) == Dest(arguments[i].flag) ==> arguments[j].flag !in given
    ensures Parse(arguments, given)[Dest(arguments[i].flag)] == arguments[i].default
    decreases |arguments|
  {
    var n := |arguments| - 1;
    if i < n {
      ParseFirstDefault(arguments[..n], given, i);
    } else {
      ParseOnlyDeclared(arguments[..n], given, Dest(arguments[i].flag));
    }
  }

  /**
    The first flag declared with an attribute, when no other flag with that
    attribute is given, leaves there its given value or else its default.
   */
  lemma ParseAt(arguments: seq<Argument>, given: map<string, Value>, i: nat)
    requires i < |arguments|
    requires forall j :: 0 <= j < |arguments| && j != i && Dest(arguments[j].flag) == Dest(arguments[i].flag) ==>
               i < j && arguments[j].flag !in given
    ensures Parse(arguments, given)[Dest(arguments[i].flag)] ==
              (if arguments[i].flag in given then given[arguments[i].flag] else arguments[i].default)
  {
    if arguments[i].flag in given {
      ParseGivenWins(arguments, given, i);
    } else {
      ParseFirstDefault(arguments, given, i);
    }
  }

  lemma ArgNameInjective(abbr: string, a: string, b: string)
    requires ArgName(abbr, a) == ArgName(abbr, b)
    ensures a == b
  {
    assert a == ArgName(abbr, a)[|abbr| + 1..];
    assert b == ArgName(abbr, b)[|abbr| + 1..];
  }

  /**
    With dash-free names, a strategy built from the parsed command line holds
    each hyperparameter's command-line value when one was given and its
    default otherwise. `argDict` is the parser's full result: it agrees with
    what the strategy's own flags parse to and may hold other options too.
   */
  lemma ParsedSettings(cls: StrategyClass, given: map<string, Value>, argDict: Record)
    requires UniqueNames(cls.hyperparameters)
    requires '-' !in cls.abbr
    requires forall i :: 0 <= i < |cls.hyperparameters| ==> '-' !in cls.hyperparameters[i].name
    requires forall k :: k in Parse(ParserArguments(cls), given) ==>
               k in argDict && argDict[k] == Parse(ParserArguments(cls), given)[k]
    ensures forall i :: 0 <= i < |cls.hyperparameters| ==>
              var hp := cls.hyperparameters[i];
              var flag := Flag(cls.abbr, hp.name);
              Setting(cls.abbr, hp, argDict) == (if flag in given then given[flag] else hp.default)
  {
    var hps := cls.hyperparameters;
    var args := ParserArguments(cls);
    forall i | 0 <= i < |hps|
      ensures Setting(cls.abbr, hps[i], argDict) ==
                (if Flag(cls.abbr, hps[i].name) in given then given[Flag(cls.abbr, hps[i].name)] else hps[i].default)
    {
      forall j | 0 <= j < |args| && j != i ensures Dest(args[j].flag) != Dest(args[i].flag) {
        FlagReachesLookup(cls.abbr, hps[i].name);
        FlagReachesLookup(cls.abbr, hps[j].name);
        if Dest(args[j].flag) == Dest(args[i].flag) {
          ArgNameInjective(cls.abbr, hps[i].name, hps[j].name);
        }
      }
      ParseAt(args, given, i);
      FlagReachesLookup(cls.abbr, hps[i].name);
    }
  }

  // ----- paraphrase_dataset -----

  /** The field a record's paraphrases are stored under: `<field>_paraphrases`. */
  function ParaphraseKey(field: string): string {
    field + "_paraphrases"
  }

  /**
    `outs` is `rows` in order, each record extended with at most `n` of the
    paraphrases `paraphrase` returns for it (Python's `[:n]`).
   */
  predicate Paraphrased(rows: seq<Record>, outs: seq<Record>, field: string, n: int,
                        paraphrase: (Record, string, int) -> seq<string>) {
    && |outs| == |rows|
    && forall i :: 0 <= i < |rows| ==>
         outs[i] == rows[i][ParaphraseKey(field) := StrList(Take(paraphrase(rows[i], field, n), n))]
  }

  /**
    The loop of `paraphrase_dataset`: every record in order, each one given its
    paraphrases. `field` is what `paraphrase_set["paraphrase_field"]` reads,
    looked up again for every record, so an empty dataset never looks at it.
   */
  method ParaphraseRows(field: Option<Value>, rows: seq<Record>, n: int,
                        paraphrase: (Record, string, int) -> seq<string>)
    returns (r: Result<seq<Record>>)
    ensures rows == [] ==> r == Success([])
    ensures rows != [] && field.None? ==> r == Failure(KeyError("paraphrase_field"))
    ensures r.Success? <==> rows == [] || (field.Some? && field.value.Str?)
    ensures r.Success? && rows != [] ==> Paraphrased(rows, r.value, field.value.s, n, paraphrase)
  {
    var outs: seq<Record> := [];
    var i := 0;
    while i < |rows|
      invariant 0 <= i <= |rows|
      invariant i > 0 ==> field.Some? && field.value.Str? && Paraphrased(rows[..i], outs, field.value.s, n, paraphrase)
      invariant i == 0 ==> outs == []
    {
      if field.None? {
        return Failure(KeyError("paraphrase_field"));
      }
      if !field.value.Str? {
        return Failure(TypeError("the paraphrase field is not a string"));
      }
      var name := field.value.s;
      var record := rows[i][ParaphraseKey(name) := StrList(Take(paraphrase(rows[i], name, n), n))];
      outs := outs + [record];
      i := i + 1;
      assert rows[..i][i - 1] == rows[i - 1];
    }
    assert rows[..i] == rows;
    return Success(outs);
  }

  /**
    The dictionary `paraphrase_dataset` returns: the dataset's entries other
    than `data`, in order, then `strategy_config`, then `data`.
   */
  function Assemble(config: Dict<Value>, paraphraseSet: Dict<Value>, outs: seq<Record>): (d: Dict<Value>)
    ensures |d| > 0 && Keys(d)[|d| - 1] == "data"
  {
    var meta := Set(Without(paraphraseSet, "data"), "strategy_config", Entries(config));
    assert "data" !in Keys(meta);
    Set(meta, "data", Records(outs))
  }

  /** The result reads the dataset's own entries, the configuration, and the paraphrased records. */
  lemma AssembleLookup(config: Dict<Value>, paraphraseSet: Dict<Value>, outs: seq<Record>)
    ensures forall k :: k != "data" && k != "strategy_config" ==>
              Get(Assemble(config, paraphraseSet, outs), k) == Get(paraphraseSet, k)
    ensures Get(Assemble(config, paraphraseSet, outs), "strategy_config") == Some(Entries(config))
    ensures Get(Assemble(config, paraphraseSet, outs), "data") == Some(Records(outs))
  {
    var meta := Set(Without(paraphraseSet, "data"), "strategy_config", Entries(config));
    SetLookup(Without(paraphraseSet, "data"), "strategy_config", Entries(config));
    SetLookup(meta, "data", Records(outs));
    forall k | k != "data" && k != "strategy_config"
      ensures Get(Assemble(config, paraphraseSet, outs), k) == Get(paraphraseSet, k)
    {
      WithoutLookup(paraphraseSet, "data", k);
    }
  }

  /**
    `paraphrase_dataset`: a copy of the dataset's metadata with the strategy
    configuration and the paraphrased records. `paraphrase` stands for the
    subclass's `paraphrase_example`; the periodic saving to a file is not
    modelled.
   */
  method ParaphraseDataset(s: Strategy, paraphraseSet: Dict<Value>, n: int,
                           paraphrase: (Record, string, int) -> seq<string>)
    returns (r: Result<Dict<Value>>)
    ensures Get(paraphraseSet, "data").None? ==> r == Failure(KeyError("data"))
    ensures Get(paraphraseSet, "data").Some? && !Get(paraphraseSet, "data").value.Records? ==>
              r.Failure? && r.error.TypeError?
    ensures Get(paraphraseSet, "data").Some? && Get(paraphraseSet, "data").value.Records? &&
            Get(paraphraseSet, "data").value.rows != [] && Get(paraphraseSet, "paraphrase_field").None? ==>
              r == Failure(KeyError("paraphrase_field"))
    ensures r.Success? <==>
              && Get(paraphraseSet, "data").Some?
              && Get(paraphraseSet, "data").value.Records?
              && (Get(paraphraseSet, "data").value.rows == [] ||
                  (Get(paraphraseSet, "paraphrase_field").Some? && Get(paraphraseSet, "paraphrase_field").value.Str?))
    ensures r.Success? ==>
              && (forall k :: k != "data" && k != "strategy_config" ==> Get(r.value, k) == Get(paraphraseSet, k))
              && Get(r.value, "strategy_config") == Some(Entries(s.config))
              && Keys(r.value)[|r.value| - 1] == "data"
              && Get(r.value, "data").Some? && Get(r.value, "data").value.Records?
    ensures r.Success? && Get(paraphraseSet, "data").value.rows == [] ==> Get(r.value, "data") == Some(Records([]))
    ensures r.Success? && Get(paraphraseSet, "data").value.rows != [] ==>
              Paraphrased(Get(paraphraseSet, "data").value.rows, Get(r.value, "data").value.rows,
                          Get(paraphraseSet, "paraphrase_field").value.s, n, paraphrase)
  {
    var data := Get(paraphraseSet, "data");
    if data.None? {
      return Failure(KeyError("data"));
    }
    if !data.value.Records? {
      return Failure(TypeError("the data is not a list of records"));
    }
    var outs :- ParaphraseRows(Get(paraphraseSet, "paraphrase_field"), data.value.rows, n, paraphrase);
    AssembleLookup(s.config, paraphraseSet, outs);
    return Success(Assemble(s.config, paraphraseSet, outs));
  }

  /**
    Every paraphrased record keeps all its fields, gains the paraphrase list,
    and holds no more than `n` paraphrases.
   */
  lemma ParaphrasedRecords(rows: seq<Record>, outs: seq<Record>, field: string, n: int,
                           paraphrase: (Record, string, int) -> seq<string>, i: nat)
    requires Paraphrased(rows, outs, field, n, paraphrase)
    requires i < |rows|
    ensures forall k :: k in rows[i] && k != ParaphraseKey(field) ==> k in outs[i] && outs[i][k] == rows[i][k]
    ensures ParaphraseKey(field) in outs[i] && outs[i][ParaphraseKey(field)].StrList?
    ensures n >= 0 ==> |outs[i][ParaphraseKey(field)].items| <= n
    ensures outs[i][ParaphraseKey(field)].items <= paraphrase(rows[i], field, n)
  {
  }
}

=== FILE: training.dfy ===
/**
  `run_evaluate` and `load_or_train_bert_clf` (fibber/metrics/bert_classifier.py):
  the training loop as a step-counter state machine with three independent
  periodic actions (summary flush, validation, checkpoint save), proved equal
  to a declarative schedule of the events it emits.

  The neural network is not modelled. A `Batch` is what one forward pass over
  one batch yields: how many examples it held, how many the argmax labelled
  correctly, and the (opaque) loss. The training and validation data loaders
  are infinite streams of such observations, indexed by the order in which
  they are drawn; each index is drawn once, so its observation can already
  reflect the parameters the model had at that moment.
 */
module Training {
  import opened Common
  import opened Checkpoints
  import opened OrderedDict
  import opened Dataset

  datatype Batch = Batch(size: nat, correct: nat, loss: real)

  type Stream = nat -> Batch

  /** Total size of the `n` batches `f(lo)`, ..., `f(lo + n - 1)`. */
  function SumSize(f: Stream, lo: nat, n: nat): nat {
    if n == 0 then 0 else SumSize(f, lo, n - 1) + f(lo + n - 1).size
  }

  function SumCorrect(f: Stream, lo: nat, n: nat): nat {
    if n == 0 then 0 else SumCorrect(f, lo, n - 1) + f(lo + n - 1).correct
  }

  function SumLoss(f: Stream, lo: nat, n: nat): real {
    if n == 0 then 0.0 else SumLoss(f, lo, n - 1) + f(lo + n - 1).loss
  }

  /**
    `1 - correct / count`. Once a batch has been drawn `correct` is a numpy
    float, so an empty count gives NaN (`None`) rather than an exception.
   */
  function ErrorRate(correct: nat, count: nat): Option<real> {
    if count == 0 then None else Some(1.0 - (correct as real) / (count as real))
  }

  // ----- run_evaluate -----

  /** The scalars `run_evaluate` reports, the next unread validation batch, and the mode it leaves. */
  datatype Evaluation = Evaluation(errorRate: Option<real>, meanLoss: real, next: nat, mode: Mode)

  /**
    Reference for `run_evaluate`: the validation batches `cursor .. cursor + evalSteps - 1`
    pooled together. With `evalSteps <= 0` no batch is drawn and `0 / 0` on
    Python ints raises.
   */
  function EvalWindow(val: Stream, cursor: nat, evalSteps: int): Result<Evaluation> {
    if evalSteps <= 0 then Failure(ZeroDivision)
    else
      Success(Evaluation(
        ErrorRate(SumCorrect(val, cursor, evalSteps), SumSize(val, cursor, evalSteps)),
        SumLoss(val, cursor, evalSteps) / (evalSteps as real),
        cursor + evalSteps,
        Train))
  }

  /**
    `run_evaluate`: switch to eval mode, draw exactly `eval_steps` batches,
    accumulate, report, and switch to train mode — whatever the entry mode was.
   */
  method RunEvaluate(val: Stream, cursor: nat, evalSteps: int) returns (r: Result<Evaluation>)
    ensures r == EvalWindow(val, cursor, evalSteps)
    ensures r.Failure? <==> evalSteps <= 0
    ensures r.Success? ==> r.value.next == cursor + evalSteps && r.value.mode == Train
  {
    var mode := Eval;
    var correct, count := 0, 0;
    var lossSum := 0.0;
    var n := if evalSteps > 0 then evalSteps else 0;
    var v := 0;
    while v < n
      invariant 0 <= v <= n
      invariant correct == SumCorrect(val, cursor, v)
      invariant count == SumSize(val, cursor, v)
      invariant lossSum == SumLoss(val, cursor, v)
    {
      var b := val(cursor + v);
      count := count + b.size;
      correct := correct + b.correct;
      lossSum := lossSum + b.loss;
      v := v + 1;
    }
    if v == 0 {
      return Failure(ZeroDivision);
    }
    var rate := ErrorRate(correct, count);
    mode := Train;
    r := Success(Evaluation(rate, lossSum / (n as real), cursor + n, mode));
  }

  // ----- the training loop -----

  /** The arguments of `load_or_train_bert_clf` that reach the control logic. */
  datatype TrainConfig = TrainConfig(
    root: string,
    dataset: string,
    modelInit: string,
    enableSem: bool,
    steps: int,
    optimizer: string,
    lr: real,
    decay: real,
    periodSummary: int,
    periodVal: int,
    periodSave: int,
    valSteps: int)

  /** The path looked up before training: `ckpt_path` for `bert_clf_steps`. */
  function LookupPath(cfg: TrainConfig): string {
    CheckpointPath(cfg.root, cfg.enableSem, cfg.dataset, cfg.modelInit, cfg.steps)
  }

  /** The path saved at step `s`. */
  function SavePath(cfg: TrainConfig, s: int): string {
    CheckpointPath(cfg.root, cfg.enableSem, cfg.dataset, cfg.modelInit, s)
  }

  /** What the loop writes: training summaries, validation summaries and checkpoints. */
  datatype Event =
    | TrainSummary(step: nat, loss: real, errorRate: Option<real>)
    | ValSummary(step: nat, errorRate: Option<real>, loss: real)
    | Saved(step: nat)

  /**
    The body runs before `global_step >= bert_clf_steps` is evaluated, so a
    budget below one still runs one step.
   */
  function Final(cfg: TrainConfig): nat {
    if cfg.steps >= 1 then cfg.steps else 1
  }

  predicate PeriodsNonZero(cfg: TrainConfig) {
    cfg.periodSummary != 0 && cfg.periodVal != 0 && cfg.periodSave != 0
  }

  /**
    None of the first `t` steps raises: every `% period` has a non-zero
    divisor, and no validation with `val_steps <= 0` has come due.
   */
  predicate Runs(cfg: TrainConfig, t: nat) {
    t == 0 || (PeriodsNonZero(cfg) && (cfg.valSteps > 0 || Abs(cfg.periodVal) > t))
  }

  predicate Aborts(cfg: TrainConfig) {
    !Runs(cfg, Final(cfg))
  }

  /** The step whose `ZeroDivisionError` ends an aborting run. */
  function AbortStep(cfg: TrainConfig): nat
    requires Aborts(cfg)
  {
    if !PeriodsNonZero(cfg) then 1 else Abs(cfg.periodVal)
  }

  /** The largest multiple of `|p|` not above `g`: where the running counters were last reset. */
  function Anchor(g: nat, p: int): (a: nat)
    requires p != 0
    ensures a <= g
  {
    DivModUnique(g, Abs(p), g / Abs(p), g % Abs(p));
    MulSign(Abs(p), g / Abs(p));
    g - g % Abs(p)
  }

  /** Validation batches consumed by the validations among the first `g` steps. */
  function ValCursor(cfg: TrainConfig, g: nat): nat
    requires cfg.periodVal != 0
  {
    if cfg.valSteps > 0 then cfg.valSteps * (g / Abs(cfg.periodVal)) else 0
  }

  /** The training summary of step `s`: every batch since the last reset, when `s` is a multiple of the summary period. */
  function SummaryEvents(cfg: TrainConfig, train: Stream, s: nat): seq<Event>
    requires s >= 1 && cfg.periodSummary != 0
  {
    var a := Anchor(s - 1, cfg.periodSummary);
    if s % cfg.periodSummary == 0
    then [TrainSummary(s, train(s - 1).loss, ErrorRate(SumCorrect(train, a, s - a), SumSize(train, a, s - a)))]
    else []
  }

  /** The validation of step `s`: the next `val_steps` validation batches, when `s` is a multiple of the validation period. */
  function ValidationEvents(cfg: TrainConfig, val: Stream, s: nat): seq<Event>
    requires s >= 1 && cfg.periodVal != 0
  {
    if s % cfg.periodVal == 0 then
      match EvalWindow(val, ValCursor(cfg, s - 1), cfg.valSteps)
      case Success(ev) => [ValSummary(s, ev.errorRate, ev.meanLoss)]
      case Failure(_) => []
    else []
  }

  /** The checkpoint of step `s`: when `s` is a multiple of the save period or the last step of the budget. */
  function SaveEvents(cfg: TrainConfig, s: nat): seq<Event>
    requires cfg.periodSave != 0
  {
    if s % cfg.periodSave == 0 || s == cfg.steps then [Saved(s)] else []
  }

  /** The events of step `s` (1-based), declaratively, in the order the loop writes them. */
  function StepEvents(cfg: TrainConfig, train: Stream, val: Stream, s: nat): seq<Event>
    requires s >= 1 && PeriodsNonZero(cfg)
  {
    SummaryEvents(cfg, train, s) + ValidationEvents(cfg, val, s) + SaveEvents(cfg, s)
  }

  /** The events of steps `1..t`, in order. */
  function Schedule(cfg: TrainConfig, train: Stream, val: Stream, t: nat): seq<Event>
    requires t == 0 || PeriodsNonZero(cfg)
  {
    if t == 0 then [] else Schedule(cfg, train, val, t - 1) + StepEvents(cfg, train, val, t)
  }

  /** The loop's state between steps. */
  datatype Progress = Progress(step: nat, correct: nat, count: nat, valCursor: nat, mode: Mode)

  /** The running counters hold exactly the batches drawn since the last summary flush. */
  predicate CountersConsistent(cfg: TrainConfig, train: Stream, step: nat, correct: nat, count: nat)
    requires cfg.periodSummary != 0
  {
    var a := Anchor(step, cfg.periodSummary);
    correct == SumCorrect(train, a, step - a) && count == SumSize(train, a, step - a)
  }

  /** The validation iterator has advanced by `val_steps` per validation so far. */
  predicate CursorConsistent(cfg: TrainConfig, step: nat, cursor: nat)
    requires cfg.periodVal != 0
  {
    cursor == ValCursor(cfg, step)
  }

  predicate Consistent(cfg: TrainConfig, train: Stream, p: Progress) {
    && Runs(cfg, p.step)
    && p.mode == Train
    && (cfg.periodSummary != 0 ==> CountersConsistent(cfg, train, p.step, p.correct, p.count))
    && (cfg.periodVal != 0 ==> CursorConsistent(cfg, p.step, p.valCursor))
  }

  /**
    The counting and summary part of one step: add the batch to the running
    counters, and on a multiple of the summary period write the summary and
    reset both counters.
   */
  method SummaryPhase(cfg: TrainConfig, train: Stream, step: nat, correct: nat, count: nat)
    returns (correct': nat, count': nat, events: seq<Event>)
    requires cfg.periodSummary != 0
    requires CountersConsistent(cfg, train, step, correct, count)
    ensures CountersConsistent(cfg, train, step + 1, correct', count')
    ensures events == SummaryEvents(cfg, train, step + 1)
    ensures (step + 1) % cfg.periodSummary == 0 ==> correct' == 0 && count' == 0 && |events| == 1
    ensures (step + 1) % cfg.periodSummary != 0 ==>
              correct' == correct + train(step).correct && count' == count + train(step).size && events == []
  {
    var g := step + 1;
    var b := train(step);
    correct' := correct + b.correct;
    count' := count + b.size;
    events := [];
    SummaryStep(cfg, step);
    if g % cfg.periodSummary == 0 {
      events := [TrainSummary(g, b.loss, ErrorRate(correct', count'))];
      correct', count' := 0, 0;
    }
  }

  /**
    The validation part of one step: on a multiple of the validation period,
    run `run_evaluate` on the next `val_steps` batches and write its summary;
    a non-positive `val_steps` raises there.
   */
  method ValidationPhase(cfg: TrainConfig, val: Stream, step: nat, cursor: nat)
    returns (cursor': nat, events: seq<Event>, err: Option<Error>)
    requires cfg.periodVal != 0 && Runs(cfg, step)
    requires CursorConsistent(cfg, step, cursor)
    ensures err.None? ==> CursorConsistent(cfg, step + 1, cursor') && events == ValidationEvents(cfg, val, step + 1)
    ensures err.None? ==> cfg.valSteps > 0 || Abs(cfg.periodVal) > step + 1
    ensures err.Some? ==> err == Some(ZeroDivision) && cfg.valSteps <= 0 && step + 1 == Abs(cfg.periodVal) && events == []
  {
    var g := step + 1;
    cursor' := cursor;
    events := [];
    err := None;
    ValidationStep(cfg, step);
    if g % cfg.periodVal == 0 {
      var ev := RunEvaluate(val, cursor, cfg.valSteps);
      if ev.Failure? {
        return cursor, [], Some(ev.error);
      }
      events := [ValSummary(g, ev.value.errorRate, ev.value.meanLoss)];
      cursor' := ev.value.next;
    }
  }

  /**
    One iteration of the `for` loop: count the batch, then the summary flush,
    the validation and the save, each on its own period; `x % 0` raises.
   */
  method TrainStep(cfg: TrainConfig, train: Stream, val: Stream, p: Progress) returns (q: Progress, events: seq<Event>, err: Option<Error>)
    requires Consistent(cfg, train, p)
    requires p.step < Final(cfg)
    ensures q.step == p.step + 1
    ensures err.None? ==> Consistent(cfg, train, q) && PeriodsNonZero(cfg) && events == StepEvents(cfg, train, val, q.step)
    ensures err.Some? ==> err == Some(ZeroDivision) && Aborts(cfg) && q.step == AbortStep(cfg)
    ensures err.Some? ==> forall i :: 0 <= i < |events| ==> !events[i].Saved?
  {
    var g := p.step + 1;
    if cfg.periodSummary == 0 {
      return Progress(g, p.correct, p.count, p.valCursor, p.mode), [], Some(ZeroDivision);
    }
    var correct, count, summary := SummaryPhase(cfg, train, p.step, p.correct, p.count);
    if cfg.periodVal == 0 {
      return Progress(g, correct, count, p.valCursor, p.mode), summary, Some(ZeroDivision);
    }
    var cursor, validation, e := ValidationPhase(cfg, val, p.step, p.valCursor);
    if e.Some? {
      return Progress(g, correct, count, cursor, p.mode), summary, e;
    }
    if cfg.periodSave == 0 {
      return Progress(g, correct, count, cursor, p.mode), summary + validation, Some(ZeroDivision);
    }
    events := summary + validation + SaveEvents(cfg, g);
    q := Progress(g, correct, count, cursor, Train);
    err := None;
  }

  /** The training-side result of `load_or_train_bert_clf`'s loop. */
  datatype TrainRun = TrainRun(events: seq<Event>, lastStep: nat, mode: Mode, error: Option<Error>)

  /**
    The loop of `load_or_train_bert_clf`: `global_step` grows by one per batch
    and the loop stops at `bert_clf_steps` (one step at least), then the model
    is put in eval mode. A zero period, or a validation with `val_steps <= 0`,
    raises `ZeroDivisionError` at the first step that meets it; the
    checkpoints of the steps before it stay written.
   */
  method TrainLoop(cfg: TrainConfig, train: Stream, val: Stream) returns (run: TrainRun)
    ensures run.error.None? <==> !Aborts(cfg)
    ensures run.error.None? ==> run.lastStep == Final(cfg) && run.mode == Eval
    ensures run.error.None? ==> PeriodsNonZero(cfg) && run.events == Schedule(cfg, train, val, Final(cfg))
    ensures run.error.Some? ==> run.error == Some(ZeroDivision) && run.lastStep == AbortStep(cfg)
    ensures run.error.Some? ==> AbortedEvents(cfg, train, val, run.events)
  {
    var p := Progress(0, 0, 0, 0, Train);
    var events: seq<Event> := [];
    var err: Option<Error> := None;
    if cfg.periodSummary != 0 {
      AnchorZero(cfg.periodSummary);
    }
    while err.None? && p.step < Final(cfg)
      invariant LoopInvariant(cfg, train, val, p, events, err)
      decreases Final(cfg) - p.step
    {
      p, events, err := LoopIteration(cfg, train, val, p, events);
    }
    if err.Some? {
      return TrainRun(events, p.step, Train, err);
    }
    run := TrainRun(events, p.step, Eval, None);
  }

  /**
    Between iterations: the steps so far produced exactly their schedule, or
    the run has stopped at its abort step with the schedule before it written.
   */
  predicate LoopInvariant(cfg: TrainConfig, train: Stream, val: Stream, p: Progress, events: seq<Event>, err: Option<Error>) {
    && p.step <= Final(cfg)
    && (err.None? ==>
         Consistent(cfg, train, p) && (p.step == 0 || PeriodsNonZero(cfg)) && events == Schedule(cfg, train, val, p.step))
    && (err.Some? ==>
         err == Some(ZeroDivision) && Aborts(cfg) && p.step == AbortStep(cfg) && AbortedEvents(cfg, train, val, events))
  }

  /** One pass of the loop body, appending the step's events to the log. */
  method LoopIteration(cfg: TrainConfig, train: Stream, val: Stream, p: Progress, events: seq<Event>)
    returns (p': Progress, events': seq<Event>, err: Option<Error>)
    requires LoopInvariant(cfg, train, val, p, events, None) && p.step < Final(cfg)
    ensures LoopInvariant(cfg, train, val, p', events', err)
    ensures p'.step == p.step + 1
  {
    var stepEvents;
    p', stepEvents, err := TrainStep(cfg, train, val, p);
    if err.Some? {
      AbortedAt(cfg, train, val, events, stepEvents);
      AbortKeepsInvariant(cfg, train, val, p', events + stepEvents);
    } else {
      StepKeepsInvariant(cfg, train, val, p, p', events, stepEvents);
    }
    events' := events + stepEvents;
  }

  lemma StepKeepsInvariant(cfg: TrainConfig, train: Stream, val: Stream, p: Progress, q: Progress, events: seq<Event>, stepEvents: seq<Event>)
    requires PeriodsNonZero(cfg)
    requires q.step == p.step + 1 && q.step <= Final(cfg)
    requires events == Schedule(cfg, train, val, p.step)
    requires Consistent(cfg, train, q) && stepEvents == StepEvents(cfg, train, val, q.step)
    ensures LoopInvariant(cfg, train, val, q, events + stepEvents, None)
  {
  }

  lemma AbortKeepsInvariant(cfg: TrainConfig, train: Stream, val: Stream, q: Progress, events: seq<Event>)
    requires Aborts(cfg) && q.step == AbortStep(cfg) && q.step <= Final(cfg)
    requires AbortedEvents(cfg, train, val, events)
    ensures LoopInvariant(cfg, train, val, q, events, Some(ZeroDivision))
  {
  }

  /**
    An aborted run wrote the full schedule of the steps before the failing
    one, then at most the summaries of the failing step, never its checkpoint.
   */
  predicate AbortedEvents(cfg: TrainConfig, train: Stream, val: Stream, events: seq<Event>)
    requires Aborts(cfg)
  {
    var done := AbortStep(cfg) - 1;
    (done == 0 || PeriodsNonZero(cfg))
    && Schedule(cfg, train, val, done) <= events
    && forall i :: |Schedule(cfg, train, val, done)| <= i < |events| ==> !events[i].Saved?
  }

  /** The events of a failing step extend the schedule of the steps before it without a checkpoint. */
  lemma AbortedAt(cfg: TrainConfig, train: Stream, val: Stream, events: seq<Event>, stepEvents: seq<Event>)
    requires Aborts(cfg)
    requires AbortStep(cfg) - 1 == 0 || PeriodsNonZero(cfg)
    requires events == Schedule(cfg, train, val, AbortStep(cfg) - 1)
    requires forall i :: 0 <= i < |stepEvents| ==> !stepEvents[i].Saved?
    ensures AbortedEvents(cfg, train, val, events + stepEvents)
  {
    var all := events + stepEvents;
    forall i | |events| <= i < |all| ensures !all[i].Saved? {
      assert all[i] == stepEvents[i - |events|];
    }
  }

  // ----- load or train -----

  /** Where the classifier came from. */
  datatype Source = Loaded(path: string) | Trained(numLabels: nat, events: seq<Event>)

  datatype BertModel = BertModel(source: Source, mode: Mode)

  /** The checkpoint directories a run wrote. */
  function SavedPaths(cfg: TrainConfig, events: seq<Event>): set<string> {
    set i | 0 <= i < |events| && events[i].Saved? :: SavePath(cfg, events[i].step)
  }

  /**
    `load_or_train_bert_clf`, with the file system as the set of existing
    checkpoint directories: load when the looked-up directory exists,
    otherwise count the labels of `trainset["label_mapping"]`, select the
    optimizer (failing on an unknown name) and train.
    The returned disk holds every checkpoint written, even by a run that
    aborted later.
   */
  method LoadOrTrain(cfg: TrainConfig, trainset: Dict<Value>, disk: set<string>, train: Stream, val: Stream)
    returns (r: Result<BertModel>, disk': set<string>)
    ensures LookupPath(cfg) in disk ==> r == Success(BertModel(Loaded(LookupPath(cfg)), Eval)) && disk' == disk
    ensures LookupPath(cfg) !in disk && LabelCount(trainset).Failure? ==>
              r == Failure(LabelCount(trainset).error) && disk' == disk
    ensures LookupPath(cfg) !in disk && LabelCount(trainset).Success? &&
            GetOptimizer(cfg.optimizer, cfg.lr, cfg.decay, cfg.steps, DefaultWarmup).Failure? ==>
              r == Failure(UnknownOptimizer) && disk' == disk
    ensures LookupPath(cfg) !in disk && LabelCount(trainset).Success? &&
            GetOptimizer(cfg.optimizer, cfg.lr, cfg.decay, cfg.steps, DefaultWarmup).Success? ==>
              (r.Success? <==> !Aborts(cfg))
    ensures r.Success? && r.value.source.Trained? ==>
              && r.value.mode == Eval
              && LabelCount(trainset).Success? && r.value.source.numLabels == LabelCount(trainset).value
              && PeriodsNonZero(cfg)
              && r.value.source.events == Schedule(cfg, train, val, Final(cfg))
              && disk' == disk + SavedPaths(cfg, r.value.source.events)
    ensures r.Success? ==> r.value.mode == Eval
    ensures r.Success? && cfg.steps >= 1 ==> LookupPath(cfg) in disk'
    ensures disk <= disk'
  {
    var ckpt := LookupPath(cfg);
    if ckpt in disk {
      return Success(BertModel(Loaded(ckpt), Eval)), disk;
    }
    var numLabels := LabelCount(trainset);
    if numLabels.Failure? {
      return Failure(numLabels.error), disk;
    }
    var opt := GetOptimizer(cfg.optimizer, cfg.lr, cfg.decay, cfg.steps, DefaultWarmup);
    if opt.Failure? {
      return Failure(opt.error), disk;
    }
    var run := TrainLoop(cfg, train, val);
    disk' := disk + SavedPaths(cfg, run.events);
    if run.error.Some? {
      return Failure(run.error.value), disk';
    }
    if cfg.steps >= 1 {
      FinalCheckpointSaved(cfg, train, val);
      var i :| 0 <= i < |run.events| && run.events[i] == Saved(cfg.steps);
      assert ckpt in SavedPaths(cfg, run.events);
    }
    r := Success(BertModel(Trained(numLabels.value, run.events), run.mode));
  }

  // ----- arithmetic on periods -----

  lemma {:induction false} MulSign(q: int, e: int)
    requires q > 0
    ensures e >= 1 ==> q * e >= q
    ensures e <= -1 ==> q * e <= -q
    decreases Abs(e)
  {
    if e > 1 {
      MulSign(q, e - 1);
      assert q * e == q * (e - 1) + q;
    } else if e < -1 {
      MulSign(q, e + 1);
      assert q * e == q * (e + 1) - q;
    }
  }

  /** Euclidean division has one quotient and one remainder. */
  lemma DivModUnique(a: int, q: int, d: int, r: int)
    requires q > 0 && a == q * d + r && 0 <= r < q
    ensures a / q == d && a % q == r
  {
    var d0 := a / q;
    var r0 := a % q;
    assert q * (d0 - d) == r - r0;
    MulSign(q, d0 - d);
  }

  /** Dafny's `%` by a negative divisor leaves the remainder of `|p|`, so `g % p == 0` agrees with Python's test. */
  lemma ModAbs(g: int, p: int)
    requires p != 0
    ensures g % p == g % Abs(p)
  {
    if p < 0 {
      var d := g / p;
      var r := g % p;
      assert g == (-p) * (-d) + r;
      DivModUnique(g, -p, -d, r);
    }
  }

  /** Moving from step `g` to `g + 1` crosses a multiple of `q` exactly when `g + 1` is one. */
  lemma StepMod(g: nat, q: int)
    requires q > 0
    ensures (g + 1) % q == 0 ==> (g + 1) / q == g / q + 1 && g % q == q - 1
    ensures (g + 1) % q != 0 ==> (g + 1) / q == g / q && (g + 1) % q == g % q + 1
  {
    var d := g / q;
    var r := g % q;
    if r + 1 < q {
      DivModUnique(g + 1, q, d, r + 1);
    } else {
      DivModUnique(g + 1, q, d + 1, 0);
    }
  }

  lemma AnchorZero(p: int)
    requires p != 0
    ensures Anchor(0, p) == 0
  {
    DivModUnique(0, Abs(p), 0, 0);
  }

  /** The counters' window after step `step + 1`, before and after a flush. */
  lemma SummaryStep(cfg: TrainConfig, step: nat)
    requires cfg.periodSummary != 0
    ensures var g := step + 1;
            var q := Abs(cfg.periodSummary);
            && (g % cfg.periodSummary == 0 <==> g % q == 0)
            && (g % q == 0 ==> Anchor(g, cfg.periodSummary) == g)
            && (g % q != 0 ==> Anchor(g, cfg.periodSummary) == Anchor(step, cfg.periodSummary))
  {
    ModAbs(step + 1, cfg.periodSummary);
    StepMod(step, Abs(cfg.periodSummary));
  }

  /** The validation cursor after step `step + 1`. */
  lemma ValidationStep(cfg: TrainConfig, step: nat)
    requires cfg.periodVal != 0
    requires Runs(cfg, step)
    ensures var g := step + 1;
            var q := Abs(cfg.periodVal);
            && (g % cfg.periodVal == 0 <==> g % q == 0)
            && (g % q != 0 ==> ValCursor(cfg, g) == ValCursor(cfg, step))
            && (g % q == 0 && cfg.valSteps > 0 ==> ValCursor(cfg, g) == ValCursor(cfg, step) + cfg.valSteps)
            && (cfg.valSteps <= 0 ==> (g % q == 0 <==> g == q))
  {
    var g := step + 1;
    var q := Abs(cfg.periodVal);
    ModAbs(g, cfg.periodVal);
    StepMod(step, q);
    if cfg.valSteps > 0 && g % q == 0 {
      assert cfg.valSteps * (g / q) == cfg.valSteps * (step / q) + cfg.valSteps;
    }
    if cfg.valSteps <= 0 {
      DivModUnique(q, q, 1, 0);
      if step < q {
        DivModUnique(step, q, 0, step);
      }
    }
  }

  // ----- properties of the schedule -----

  /** Within a full run the final step always saves, and it saves at the path looked up before training. */
  lemma FinalCheckpointSaved(cfg: TrainConfig, train: Stream, val: Stream)
    requires PeriodsNonZero(cfg) && cfg.steps >= 1
    ensures Saved(cfg.steps) in Schedule(cfg, train, val, Final(cfg))
    ensures SavePath(cfg, cfg.steps) == LookupPath(cfg)
  {
    var t := Final(cfg);
    assert StepEvents(cfg, train, val, t)[|StepEvents(cfg, train, val, t)| - 1] == Saved(cfg.steps);
  }

  /** The three periodic actions of the loop. */
  datatype Action = Summarize | Validate | Save

  predicate Performs(e: Event, act: Action) {
    match act
    case Summarize => e.TrainSummary?
    case Validate => e.ValSummary?
    case Save => e.Saved?
  }

  /** The steps at which `events` record `act`. */
  function StepsOf(events: seq<Event>, act: Action): set<nat> {
    set i | 0 <= i < |events| && Performs(events[i], act) :: events[i].step
  }

  /** When the source's `if global_step % period == 0` guards let an action through. */
  predicate Due(cfg: TrainConfig, act: Action, s: nat)
    requires PeriodsNonZero(cfg)
  {
    match act
    case Summarize => s % cfg.periodSummary == 0
    case Validate => s % cfg.periodVal == 0 && cfg.valSteps > 0
    case Save => s % cfg.periodSave == 0 || s == cfg.steps
  }

  lemma StepsOfConcat(a: seq<Event>, b: seq<Event>, act: Action)
    ensures StepsOf(a + b, act) == StepsOf(a, act) + StepsOf(b, act)
  {
    var ab := a + b;
    forall x | x in StepsOf(ab, act) ensures x in StepsOf(a, act) + StepsOf(b, act) {
      var i :| 0 <= i < |ab| && Performs(ab[i], act) && ab[i].step == x;
      if i >= |a| {
        assert ab[i] == b[i - |a|];
      }
    }
    forall x | x in StepsOf(a, act) ensures x in StepsOf(ab, act) {
      var i :| 0 <= i < |a| && Performs(a[i], act) && a[i].step == x;
      assert ab[i] == a[i];
    }
    forall x | x in StepsOf(b, act) ensures x in StepsOf(ab, act) {
      var i :| 0 <= i < |b| && Performs(b[i], act) && b[i].step == x;
      assert ab[i + |a|] == b[i];
    }
  }

  /** Step `s` records `act` exactly when `act` is due at `s`. */
  lemma StepEventsActions(cfg: TrainConfig, train: Stream, val: Stream, s: nat, act: Action)
    requires s >= 1 && PeriodsNonZero(cfg)
    ensures StepsOf(StepEvents(cfg, train, val, s), act) == if Due(cfg, act, s) then {s} else {}
  {
    var sum := SummaryEvents(cfg, train, s);
    var v := ValidationEvents(cfg, val, s);
    var sv := SaveEvents(cfg, s);
    StepsOfConcat(sum + v, sv, act);
    StepsOfConcat(sum, v, act);
    if s % cfg.periodSummary == 0 {
      assert sum[0].step == s;
    }
    if s % cfg.periodVal == 0 && cfg.valSteps > 0 {
      assert v[0].step == s;
    }
    if s % cfg.periodSave == 0 || s == cfg.steps {
      assert sv[0].step == s;
    }
  }

  /**
    Over the first `t` steps the summaries, validations and checkpoints fall
    on exactly the steps where their period guard holds.
   */
  lemma {:induction false} ScheduleActions(cfg: TrainConfig, train: Stream, val: Stream, t: nat, act: Action)
    requires PeriodsNonZero(cfg)
    ensures StepsOf(Schedule(cfg, train, val, t), act) == DueSteps(cfg, act, t)
  {
    if t > 0 {
      ScheduleActions(cfg, train, val, t - 1, act);
      StepsOfConcat(Schedule(cfg, train, val, t - 1), StepEvents(cfg, train, val, t), act);
      StepEventsActions(cfg, train, val, t, act);
      DueStepsGrow(cfg, act, t);
    }
  }

  /** The steps among `1..t` at which `act` is due. */
  function DueSteps(cfg: TrainConfig, act: Action, t: nat): set<nat>
    requires PeriodsNonZero(cfg)
  {
    set s: nat | 1 <= s <= t && Due(cfg, act, s)
  }

  lemma DueStepsGrow(cfg: TrainConfig, act: Action, t: nat)
    requires PeriodsNonZero(cfg) && t >= 1
    ensures DueSteps(cfg, act, t) == DueSteps(cfg, act, t - 1) + (if Due(cfg, act, t) then {t} else {})
  {
  }

  /** Every event of step `s` carries step number `s`. */
  lemma StepEventsStamped(cfg: TrainConfig, train: Stream, val: Stream, s: nat)
    requires s >= 1 && PeriodsNonZero(cfg)
    ensures forall k :: 0 <= k < |StepEvents(cfg, train, val, s)| ==> StepEvents(cfg, train, val, s)[k].step == s
  {
  }

  predicate StepsWithin(events: seq<Event>, t: nat) {
    forall i :: 0 <= i < |events| ==> 1 <= events[i].step <= t
  }

  predicate Ordered(events: seq<Event>) {
    forall i, j :: 0 <= i < j < |events| ==> events[i].step <= events[j].step
  }

  /** Appending the events of step `t` to an ordered log of earlier steps keeps it ordered. */
  lemma AppendStep(prev: seq<Event>, now: seq<Event>, t: nat)
    requires t >= 1 && StepsWithin(prev, t - 1) && Ordered(prev)
    requires forall k :: 0 <= k < |now| ==> now[k].step == t
    ensures StepsWithin(prev + now, t) && Ordered(prev + now)
  {
    var all := prev + now;
    forall i | 0 <= i < |all| ensures 1 <= all[i].step <= t {
      if i >= |prev| {
        assert all[i] == now[i - |prev|];
      }
    }
    forall i, j | 0 <= i < j < |all| ensures all[i].step <= all[j].step {
      if j >= |prev| {
        assert all[j] == now[j - |prev|];
        if i >= |prev| {
          assert all[i] == now[i - |prev|];
        }
      }
    }
  }

  /** The log of the first `t` steps is ordered by step, and every step in it lies in `1..t`. */
  lemma {:induction false} ScheduleOrdered(cfg: TrainConfig, train: Stream, val: Stream, t: nat)
    requires PeriodsNonZero(cfg)
    ensures StepsWithin(Schedule(cfg, train, val, t), t)
    ensures Ordered(Schedule(cfg, train, val, t))
  {
    if t > 0 {
      ScheduleOrdered(cfg, train, val, t - 1);
      StepEventsStamped(cfg, train, val, t);
      AppendStep(Schedule(cfg, train, val, t - 1), StepEvents(cfg, train, val, t), t);
    }
  }

  /**
    A training summary covers exactly the last `|period_summary|` training
    batches: the counters were reset at the previous multiple of the period.
   */
  lemma SummaryWindow(cfg: TrainConfig, train: Stream, s: nat)
    requires s >= 1 && cfg.periodSummary != 0 && s % cfg.periodSummary == 0
    ensures var q := Abs(cfg.periodSummary);
            s >= q &&
            SummaryEvents(cfg, train, s)
              == [TrainSummary(s, train(s - 1).loss, ErrorRate(SumCorrect(train, s - q, q), SumSize(train, s - q, q)))]
  {
    var q := Abs(cfg.periodSummary);
    ModAbs(s, cfg.periodSummary);
    StepMod(s - 1, q);
    assert Anchor(s - 1, cfg.periodSummary) == s - q;
  }

  /**
    The `k`-th validation (at step `k * |period_val|`) reads validation
    batches `(k - 1) * val_steps` to `k * val_steps - 1`: the validation
    iterator is shared across validations and never restarts.
   */
  lemma ValidationWindow(cfg: TrainConfig, val: Stream, s: nat)
    requires s >= 1 && cfg.periodVal != 0 && s % cfg.periodVal == 0 && cfg.valSteps > 0
    ensures var k := s / Abs(cfg.periodVal);
            var w := EvalWindow(val, cfg.valSteps * (k - 1), cfg.valSteps);
            k >= 1 && w.Success? && ValidationEvents(cfg, val, s) == [ValSummary(s, w.value.errorRate, w.value.meanLoss)]
  {
    var q := Abs(cfg.periodVal);
    ModAbs(s, cfg.periodVal);
    StepMod(s - 1, q);
    MulSign(q, s / q);
    assert cfg.valSteps * (s / q) == cfg.valSteps * ((s - 1) / q) + cfg.valSteps;
  }
}
